=== FILE: README.md ===
# Tool-crib management: a Dafny model

This project models the core of a tool-crib management system. The system has two parts:

- a FastAPI backend (`bngcmtiproj-1/`);
- a React client (`role-based-login/`).

Operators ask for tools out of an inventory. Supervisors and officers approve or reject those requests. Supervisors ask for new tools to be added, and officers decide those requests. Operators report issues with tools. An officer or a supervisor holds an exclusive *role lock* while logged in.

**The backend.**

- The database is one immutable record, `Store.Db`. It holds a map per table: tools, usage requests, addition requests, issues, users, sessions and role locks.
- Every endpoint is a pure function from a `Db` and its arguments to an `Outcome`. An `Outcome` is one of three things: the new `Db` with the response; an `HttpError` carrying the status code and detail of the `HTTPException` the handler raises; or a crash. A crash is any other exception, which the global handler in `app/main.py` answers with status 500 and the exception's text as plain text. That handler runs outside the CORS middleware, so its answer carries no CORS headers, and the client's cross-origin `fetch` rejects instead of reading it.
- The clock (`now`, in seconds), fresh session ids (uuid), password hashing and verification, and e-mail sending are parameters. The lock service (`app/services/locks.py`) is the `Locks` module.
- The text-inventory import script is the `InventoryText` module. It covers the parsing (`splitlines`, `re.split`, `strip`, the quantity digits) and the upsert into the tool table.

**The client.**

- Every page handler is a pure function of the page state and the answer the server gave, if any.
- The result is the new page state plus the effects the handler causes: alerts, navigation, `localStorage` writes, and the requests it sends.
- The filter layer (`ListFilters`) is shared by the list pages. Each page supplies its own text fields and date column.
- `FilterBar`, `Sidebar` and `UserContext` are the shared components.

**Support modules.**

- `Text`: ASCII case mapping, `includes`, `trim`, decimal conversion, `split`, and lexicographic order.
- `Lists`: filter, stable insertion sort, subsequences.
- `Base64Url` and `Utf8`: the reset token's encoding, each with both round trips proved.
- `Wrappers`: `Option` and `Result`.

**The main properties proved.**

- **Role lock.** Login, session check, logout and lock release keep an exclusion invariant: no two live sessions ever share the OFFICER or the SUPERVISOR role.
- **Approval stock accounting.** Approval takes exactly the requested quantity out of exactly one tool, and never drives stock negative.
- **Decisions are final.** A decided tool-usage or addition request refuses any further decision with 400.
- **Reset tokens.** A token made for an e-mail address reads back as that address within the window, and is refused after it.
- **Inventory import.** Formatting and then parsing returns the record; lines are parsed independently; the intended import upserts by name.
- **Filter layer.** Each list filter keeps an order-preserving subsequence with exactly the matching rows, and is idempotent.
- **Client meets server.** Each client handler's effect agrees with the server's answer. Login routing matches every answer `login` can give. A stored request id survives the action URL round trip. A hidden Approve button coincides with the server's 400.

**Behaviours of the code that the model keeps:**

- Approving a tool-addition request changes only its status; no inventory row is created.
- Stock drops when a usage request is *approved*, not when it is collected.
- A tool-addition request has no quantity column; the payload's quantity is dropped.
- `login` answers with `session_id`, `role`, `username` and `expires_at`, or with the role-in-use refusal. It never sends a first-login flag.

## Model

| member | source | states |
|---|---|---|
| Auth.Login | bngcmtiproj-1/app/api/v1/auth.py:30-82 | 401 "Invalid credentials" exactly when the username is unknown or the password does not verify; otherwise the login always answers (success or role in use) |
| Auth.AdmitOpensSession | bngcmtiproj-1/app/api/v1/auth.py:36-57 | a successful credential check adds exactly one session, for that user and role, from `now` to `now` plus the session length, and marks the user active |
| Auth.ClaimRole | bngcmtiproj-1/app/api/v1/auth.py:59-80 | the lock step answers "role in use" exactly while a live session holds the role, never touches another role's lock, and changes only sessions, users and locks |
| Auth.ClaimKeepsSessions | bngcmtiproj-1/app/api/v1/auth.py:59-80 | the lock step adds or removes no session and changes no session other than the new one |
| Auth.OperatorAdmitIgnoresLocks | bngcmtiproj-1/app/api/v1/auth.py:59-82 | an OPERATOR login never reads or takes a lock and always succeeds with its own session id, role name, username and expiry |
| Auth.LockedRoleAdmit | bngcmtiproj-1/app/api/v1/auth.py:59-82 | an OFFICER/SUPERVISOR login is refused exactly while another live session holds the role; the refused session is ended as EXPIRED and the user made inactive; an accepted session holds the lock |
| Auth.AdmitKeepsLockInvariant | bngcmtiproj-1/app/api/v1/auth.py:36-82 | login preserves the exclusion invariant: every live session of a locked role is the holder of its role's lock |
| Auth.LoginKeepsLockInvariant | bngcmtiproj-1/app/api/v1/auth.py:30-82 | the whole login endpoint preserves the exclusion invariant |
| Auth.SessionCheck | bngcmtiproj-1/app/api/v1/auth.py:84-102 | valid exactly for a given, stored, live session whose user exists and is active; an expired session is closed at its expiry as EXPIRED and releases a lock it holds |
| Auth.SessionCheckKeepsLockInvariant | bngcmtiproj-1/app/api/v1/auth.py:84-102 | session check preserves the exclusion invariant |
| Auth.Logout | bngcmtiproj-1/app/api/v1/auth.py:104-138 | always "Logged out"; a missing, unknown or already-ended session changes nothing; otherwise the lock is released if held, the session ended as LOGOUT at `now` and the user made inactive |
| Auth.LogoutIdempotent | bngcmtiproj-1/app/api/v1/auth.py:109-116 | logging out a second time, at any later time, changes nothing more |
| Auth.LogoutKeepsLockInvariant | bngcmtiproj-1/app/api/v1/auth.py:104-138 | logout preserves the exclusion invariant |
| Auth.ReleaseRoleLock | bngcmtiproj-1/app/api/v1/auth.py:140-158 | the four answers: no session, session not found, lock released for a locked role (only if the session holds it), or nothing to release |
| Auth.FirstLoginChange | bngcmtiproj-1/app/api/v1/auth.py:160-174 | 404 unknown user, then 401 wrong old password, then 400 for the default password; otherwise the new hash is stored and the user made active |
| Auth.FirstLoginThenLogin | bngcmtiproj-1/app/api/v1/auth.py:160-174 | after a successful change the new password logs the user in (when the hash accepts it), and an old password the new hash does not accept is refused with 401 |
| Auth.ParseResetToken | bngcmtiproj-1/app/api/v1/auth.py:180-189 | every accepted token is the encoding of "email:stamp" with an integer stamp issued within the window, and the e-mail address has no ':' |
| Auth.ResetTokenRoundTrip | bngcmtiproj-1/app/api/v1/auth.py:176-189 | a token made for an address without ':' reads back as that address while its age is within the window, and is refused once older |
| Auth.RequestReset | bngcmtiproj-1/app/api/v1/auth.py:191-198 | the same message whether or not the address is known; a mail with a token for that address goes out exactly when some user has it |
| Auth.RequestResetTokenAccepted | bngcmtiproj-1/app/api/v1/auth.py:176-198 | the mail goes to the requested address, and the token it carries reads back as that address while within the window |
| Locks.GetActiveLock | bngcmtiproj-1/app/services/locks.py:9-27 | a lock is returned exactly when its session is live; a row whose session is missing, expired or logged out has its session id cleared; nothing else changes |
| Locks.AcquireLock | bngcmtiproj-1/app/services/locks.py:29-51 | refused exactly while a live session holds the role; otherwise the caller's session holds it, in a new row stamped `now` or by overwriting the existing row's holder |
| Locks.ReleaseLockIfOwner | bngcmtiproj-1/app/services/locks.py:53-85 | the role's row is deleted exactly when the session holds it; no other holder loses its lock |
| Locks.AtMostOneLiveHolder | bngcmtiproj-1/app/services/locks.py:9-51 | under the invariant, two live sessions of the same locked role are the same session |
| Locks.LockInvariantLater | bngcmtiproj-1/app/services/locks.py:9-27 | the invariant survives the clock moving forward |
| Locks.GetActiveLockKeepsInvariant | bngcmtiproj-1/app/services/locks.py:9-27 | reclaiming a stale row keeps the invariant |
| Locks.ReleaseKeepsInvariant | bngcmtiproj-1/app/services/locks.py:53-85 | after a release, every other live session of a locked role still holds its lock |
| OfficerApi.CreateUser | bngcmtiproj-1/app/api/v1/officer.py:51-70 | 400 for a taken username, checked before 400 for a taken e-mail address; otherwise a new active account under the next id with the default password's hash |
| OfficerApi.CreateUserThenFound | bngcmtiproj-1/app/api/v1/officer.py:51-70 | a created account is what its username then finds |
| OfficerApi.CreateUserKeepsUnique | bngcmtiproj-1/app/api/v1/officer.py:53-55 | creating an account keeps usernames unique and every account under its own id |
| OfficerApi.CreateUserTwice | bngcmtiproj-1/app/api/v1/officer.py:53-55 | a second account with the same username is refused with 400 |
| OfficerApi.DeleteUser | bngcmtiproj-1/app/api/v1/officer.py:77-84 | 404 exactly for an unknown id; a plain 500 exactly when a usage request (as operator or reviewer), an addition request or an issue still points at the account, since no foreign key cascades and the commit's `IntegrityError` is not caught; otherwise exactly that account is removed and nothing else changes |
| OfficerApi.DeleteUserKeepsRefs | bngcmtiproj-1/app/api/v1/officer.py:77-84 | a delete that succeeds never leaves a usage request, addition request or issue pointing at a missing account |
| OfficerApi.DeleteUserTwice | bngcmtiproj-1/app/api/v1/officer.py:77-84 | deleting the same account again answers 404 |
| OfficerApi.ListToolAdditionsSpec | bngcmtiproj-1/app/api/v1/officer.py:86-101 | exactly the addition requests with the requested status (all when none is given) are listed, newer first |
| OfficerApi.ListToolAdditions | bngcmtiproj-1/app/api/v1/officer.py:92-101 | each listed row carries its request's id, tool name, requester, time and status name |
| OfficerApi.AdditionDecisionError | bngcmtiproj-1/app/api/v1/officer.py:106-110 | 404 for an unknown id, 400 "Request already processed" unless PENDING; no error exactly for a PENDING request |
| OfficerApi.ApproveToolAddition | bngcmtiproj-1/app/api/v1/officer.py:103-120 | a PENDING request becomes APPROVED and nothing else changes; the errors are the shared checks |
| OfficerApi.RejectToolAddition | bngcmtiproj-1/app/api/v1/officer.py:122-134 | a PENDING request becomes REJECTED and nothing else changes; answers "Rejected" |
| OfficerApi.AdditionDecisionsFinal | bngcmtiproj-1/app/api/v1/officer.py:103-134 | a decision changes no tool and no other request, and any second decision on the same request is refused with 400 |
| OfficerApi.RejectIgnoresReason | bngcmtiproj-1/app/api/v1/officer.py:122-134 | the rejection reason has no effect on the outcome |
| OfficerApi.ActiveSessions | bngcmtiproj-1/app/api/v1/officer.py:166-180 | exactly the sessions not logged out whose expiry is after `now` are listed |
| OfficerApi.OneActiveRowPerLockedRole | bngcmtiproj-1/app/api/v1/officer.py:166-180 | under the lock invariant, the active sessions list at most one OFFICER row and one SUPERVISOR row |
| OfficerApi.ListToolIssuesSpec | bngcmtiproj-1/app/api/v1/officer.py:13-32 | every stored issue is listed, nothing else is, and newer issues come first |
| OfficerApi.ListToolIssues | bngcmtiproj-1/app/api/v1/officer.py:16-19 | the list is a permutation of the issue table |
| OperatorApi.Pad5 | bngcmtiproj-1/app/api/v1/operator.py:33-34 | Python's `05d`: at least five characters, all digits exactly for a non-negative number, reading back as the number (with '-' in front for a negative one) |
| OperatorApi.RequestIdInjective | bngcmtiproj-1/app/api/v1/operator.py:33-34 | distinct request numbers give distinct "TR" identifiers |
| OperatorApi.RequestIdNoSlash | bngcmtiproj-1/app/api/v1/operator.py:33-34 | a request identifier never contains '/' |
| OperatorApi.RequestCheck | bngcmtiproj-1/app/api/v1/operator.py:26-32 | 404 unknown tool, then 400 for a quantity below one, then 400 above the stock; no error exactly for a stored tool and a quantity from one up to its stock |
| OperatorApi.CreateToolRequestAsWritten | bngcmtiproj-1/app/api/v1/operator.py:22-43 | as written: never succeeds, whatever the direct session lookup at line 24 does; a failed lookup is its error; once the lookup gives back the caller, a refused check is its error, and every request that passes the checks crashes at the commit, because the row lacks the NOT NULL `user_id` |
| OperatorApi.CreateToolRequest | bngcmtiproj-1/app/api/v1/operator.py:22-65 | as intended, with `user_id` filled in: the same checks; otherwise one PENDING row under the next number with its "TR" identifier, and the response echoes it |
| OperatorApi.CreateAsWrittenFailsWhereIntended | bngcmtiproj-1/app/api/v1/operator.py:22-43 | as written stores nothing where the intended endpoint stores a request; when the session lookup gives back the caller, both refuse the same requests with the same error, and as written crashes exactly where the intended endpoint stores |
| OperatorApi.CreateToolRequestCounterexample | bngcmtiproj-1/app/api/v1/operator.py:35-43 | one tool with five in stock: asking for two crashes as written even when the session lookup succeeds, and stores TR00001 as intended |
| OperatorApi.CreateKeepsUsageWf | bngcmtiproj-1/app/api/v1/operator.py:33-44 | creation keeps every request under its own key with its own identifier and a positive quantity, and the new identifier is not already in use |
| OperatorApi.CreateLeavesStock | bngcmtiproj-1/app/api/v1/operator.py:22-65 | asking for a tool never changes stock |
| OperatorApi.ListAvailableTools | bngcmtiproj-1/app/api/v1/operator.py:68-88 | the list is a permutation of the tool rows as list items, with null location, gauge and remarks |
| OperatorApi.ListSortedByName | bngcmtiproj-1/app/api/v1/operator.py:72 | the list is in ascending order of tool name |
| OperatorApi.EveryToolListed | bngcmtiproj-1/app/api/v1/operator.py:68-88 | every tool of the table is listed |
| OperatorApi.OnlyToolsListed | bngcmtiproj-1/app/api/v1/operator.py:74-87 | every listed item is a stored tool, with null location, gauge and remarks |
| SupervisorApi.FindRequest | bngcmtiproj-1/app/api/v1/supervisor.py:95-97 | the least key whose row carries the request id; none exactly when no row carries it |
| SupervisorApi.FindRequestAfterUpdate | bngcmtiproj-1/app/api/v1/supervisor.py:113-117 | rewriting the found row and keeping its request id finds the same row again |
| SupervisorApi.DecisionError | bngcmtiproj-1/app/api/v1/supervisor.py:95-104 | the shared checks in order: 404 unknown request, 400 already decided, 403 reviewer already recorded, 404 tool gone; none exactly for a PENDING, unreviewed request of a stored tool |
| SupervisorApi.ApproveToolRequest | bngcmtiproj-1/app/api/v1/supervisor.py:92-141 | a failed shared check is the answer; otherwise approval of the found request (see ApproveFound) |
| SupervisorApi.ApproveFound | bngcmtiproj-1/app/api/v1/supervisor.py:106-141 | 400 when stock is below the requested quantity; otherwise the stock drops by exactly that quantity, the request becomes APPROVED with this reviewer and time, and nothing else changes |
| SupervisorApi.ApproveKeepsToolsWf | bngcmtiproj-1/app/api/v1/supervisor.py:106-111 | approval never drives stock negative |
| SupervisorApi.ApproveStockAccounting | bngcmtiproj-1/app/api/v1/supervisor.py:106-141 | only the requested tool's stock changes, by exactly the requested quantity, and the response reports the new stock |
| SupervisorApi.RejectToolRequest | bngcmtiproj-1/app/api/v1/supervisor.py:143-176 | the shared checks; otherwise the request becomes REJECTED with this reviewer and time and nothing else changes |
| SupervisorApi.RejectLeavesStock | bngcmtiproj-1/app/api/v1/supervisor.py:143-176 | rejection changes no stock |
| SupervisorApi.NoSecondDecisionAfterApprove | bngcmtiproj-1/app/api/v1/supervisor.py:98-99 | after an approval, approving or rejecting the same request again fails with 400 |
| SupervisorApi.NoSecondDecisionAfterReject | bngcmtiproj-1/app/api/v1/supervisor.py:149-150 | after a rejection, approving or rejecting the same request again fails with 400 |
| SupervisorApi.DecisionsKeepPendingUnreviewed | bngcmtiproj-1/app/api/v1/supervisor.py:113-117 | both decisions keep every PENDING request without a reviewer |
| SupervisorApi.No403WhenPendingUnreviewed | bngcmtiproj-1/app/api/v1/supervisor.py:100-101 | while every PENDING request is unreviewed, the 403 refusal cannot happen |
| SupervisorApi.CreateToolAddition | bngcmtiproj-1/app/api/v1/supervisor.py:178-195 | never a 4xx; a name longer than the 100-character column is a plain 500 from the uncaught commit; every other name gives one PENDING addition request under the next id, requested by the caller at `now`, and the response echoes it |
| SupervisorApi.CreateToolAdditionIgnoresQuantity | bngcmtiproj-1/app/api/v1/supervisor.py:178-195 | the payload's quantity has no effect |
| SupervisorApi.CreateToolAdditionKeepsWf | bngcmtiproj-1/app/api/v1/supervisor.py:178-195 | a creation that succeeds keeps every addition request under its own id |
| SupervisorApi.StatusFilter | bngcmtiproj-1/app/api/v1/supervisor.py:209-211 | an absent or empty status means no filter; otherwise the upper-cased text must name a status, and any other text is a 500 |
| SupervisorApi.OwnAdditionsSpec | bngcmtiproj-1/app/api/v1/supervisor.py:205-215 | exactly the caller's requests with the filtered status are selected, newer first |
| SupervisorApi.GetToolAdditionRequestsAsWritten | bngcmtiproj-1/app/api/v1/supervisor.py:197-238 | as written: a bad status is its 500; otherwise only an empty selection answers (with []), and any row makes it a 500 |
| SupervisorApi.GetToolAdditionRequests | bngcmtiproj-1/app/api/v1/supervisor.py:197-238 | as intended: one row per selected request, in order, with null review columns; a bad status is its 500 |
| SupervisorApi.AdditionRequestsAsWrittenDiffer | bngcmtiproj-1/app/api/v1/supervisor.py:219-230 | the two agree exactly when the caller has no matching request |
| SupervisorApi.AdditionRequestsCounterexample | bngcmtiproj-1/app/api/v1/supervisor.py:219-238 | one PENDING request of supervisor 7: as written a 500 naming `reviewed_at`, as intended that row |
| InventoryText.Lines | bngcmtiproj-1/scripts/import_tools_from_text.py:17 | every kept line has a non-white-space character |
| InventoryText.BreakPiecesSpec | bngcmtiproj-1/scripts/import_tools_from_text.py:17 | no piece holds a line break, and the pieces joined are the text without its line breaks |
| InventoryText.RawFields | bngcmtiproj-1/scripts/import_tools_from_text.py:21 | the cells between tabs and runs of two or more spaces; no cell holds a tab or starts a double space |
| InventoryText.RawFieldsJoin | bngcmtiproj-1/scripts/import_tools_from_text.py:21 | cells joined with tabs split back into the same cells |
| InventoryText.Parts | bngcmtiproj-1/scripts/import_tools_from_text.py:23 | no part is empty |
| InventoryText.Field | bngcmtiproj-1/scripts/import_tools_from_text.py:28-36 | the part at the position when there is one, "" otherwise |
| InventoryText.Quantity | bngcmtiproj-1/scripts/import_tools_from_text.py:37-41 | the number the ASCII digits of the column spell, 0 when it has none; never negative |
| InventoryText.ParseLine | bngcmtiproj-1/scripts/import_tools_from_text.py:21-51 | skipped exactly with fewer than three parts; otherwise the parts map by position after the serial number, missing ones as "" |
| InventoryText.ParseLinesSpec | bngcmtiproj-1/scripts/import_tools_from_text.py:19-52 | exactly one record per data line, in input order |
| InventoryText.ParseInventory | bngcmtiproj-1/scripts/import_tools_from_text.py:15-53 | every record has a name and a quantity of zero or more |
| InventoryText.ParseInventoryAppend | bngcmtiproj-1/scripts/import_tools_from_text.py:15-53 | parsing two texts joined by a line break parses each in turn |
| InventoryText.BlankTextNoRecords | bngcmtiproj-1/scripts/import_tools_from_text.py:17 | a text with no visible character holds no records |
| InventoryText.ParseFormatLine | bngcmtiproj-1/scripts/import_tools_from_text.py:21-51 | a record of clean columns, written as a tab-separated line, parses back to itself |
| InventoryText.QuantityOfDecimal | bngcmtiproj-1/scripts/import_tools_from_text.py:39 | the quantity column reads back the number it was written from |
| InventoryText.Existing | bngcmtiproj-1/scripts/import_tools_from_text.py:74 | a row with the record's name, none exactly when no row has it |
| InventoryText.Overwrite | bngcmtiproj-1/scripts/import_tools_from_text.py:77-80 | the row keeps its id, name and time and takes the record's quantity, range, code and make |
| InventoryText.ImportOneAsWritten | bngcmtiproj-1/scripts/import_tools_from_text.py:70-98 | as written: no row is ever added and only the tool table can change |
| InventoryText.QueueAsWrittenKeepsKeys | bngcmtiproj-1/scripts/import_tools_from_text.py:60-98 | as written, the updates the loop leaves in the session keep exactly the table's keys and touch only the tools |
| InventoryText.ImportAsWritten | bngcmtiproj-1/scripts/import_tools_from_text.py:73-103 | as written, the batch is stored only when every named record that reaches an existing row fits its 32-bit quantity and 100-character columns; otherwise the failed flush or commit loses every update of the batch |
| InventoryText.ImportAsWrittenKeepsKeys | bngcmtiproj-1/scripts/import_tools_from_text.py:55-104 | as written, importing keeps exactly the table's keys and changes nothing but the tools |
| InventoryText.ImportLosesBatch | bngcmtiproj-1/scripts/import_tools_from_text.py:73-103 | one record alone updates its row's stock to 4; followed by a record for the same row whose quantity does not fit 32 bits, the table is left as it was |
| InventoryText.ImportOne | bngcmtiproj-1/scripts/import_tools_from_text.py:70-96 | as intended: skip a nameless record, overwrite the row of that name, else add a row under the next key stamped `now` |
| InventoryText.ImportOneUpserts | bngcmtiproj-1/scripts/import_tools_from_text.py:74-96 | afterwards a row carries the record's name and quantity, every row keeps its name, and a row is added exactly when none had the name |
| InventoryText.QueueKeepsNames | bngcmtiproj-1/scripts/import_tools_from_text.py:60-98 | the intended loop never loses a tool name |
| InventoryText.QueueCoversNames | bngcmtiproj-1/scripts/import_tools_from_text.py:60-98 | after the intended loop every named record has a row of that name |
| InventoryText.QueueKeepsToolsWf | bngcmtiproj-1/scripts/import_tools_from_text.py:60-98 | the intended loop over parsed records keeps every tool under its own id with stock zero or more |
| InventoryText.ImportTools | bngcmtiproj-1/scripts/import_tools_from_text.py:55-104 | as intended, the whole batch is stored when every named record fits its columns, its name included; otherwise the commit fails and the table is left as it was |
| InventoryText.ImportKeepsNames | bngcmtiproj-1/scripts/import_tools_from_text.py:55-104 | importing never loses a tool name |
| InventoryText.ImportCoversNames | bngcmtiproj-1/scripts/import_tools_from_text.py:55-104 | after the intended import of a batch that fits, every named record has a row of that name; a batch that does not fit changes nothing |
| InventoryText.ImportKeepsToolsWf | bngcmtiproj-1/scripts/import_tools_from_text.py:55-104 | importing parsed records keeps every tool under its own id with stock zero or more |
| InventoryText.ImportNewToolCounterexample | bngcmtiproj-1/scripts/import_tools_from_text.py:84-98 | a new name: as written the empty table stays empty; as intended it gains the tool |
| LoginPage.HandleLogin | role-based-login/src/pages/Login.jsx:10-50 | nothing is sent exactly when an id or password is empty; an unreadable answer or refusal alerts once and stores nothing; only an accepted answer with a session id is stored; navigation needs a known role or a first login |
| LoginPage.Route | role-based-login/src/pages/Login.jsx:32-46 | a known role opens its dashboard; otherwise a first login opens the password page; otherwise an alert |
| LoginPage.RoleBeforeFlags | role-based-login/src/pages/Login.jsx:32-42 | with a known role, the first-login and role-in-use flags never matter |
| LoginPage.DashboardInjective | role-based-login/src/pages/Login.jsx:32-37 | distinct roles land on distinct dashboards |
| LoginPage.BackendAnswers | role-based-login/src/pages/Login.jsx:23-46 | every answer the backend login gives lands as intended: a refusal alerts "Invalid credentials", a success stores the session id and opens the user's dashboard, a role in use alerts its message |
| CreateUserPage.SanitizePhone | role-based-login/src/pages/CreateUserPage.jsx:75 | the kept characters are all digits, a subsequence of what was typed, and all of it when only digits were typed |
| CreateUserPage.SanitizeIdempotent | role-based-login/src/pages/CreateUserPage.jsx:75 | sanitising twice changes nothing more |
| CreateUserPage.EmailInjective | role-based-login/src/pages/CreateUserPage.jsx:35 | distinct user ids give distinct derived addresses |
| CreateUserPage.PayloadRoundTrip | role-based-login/src/pages/CreateUserPage.jsx:32-39 | the payload keeps every field of the form: the form reads back from it |
| CreateUserPage.Check | role-based-login/src/pages/CreateUserPage.jsx:16-24 | refused exactly for an empty field or a phone that is not ten digits, with the required-fields message first; otherwise the payload of the form |
| CreateUserPage.SanitizedPhoneCheck | role-based-login/src/pages/CreateUserPage.jsx:21-24 | behind the sanitiser, the phone check passes exactly when ten digits were typed |
| CreateUserPage.Alert | role-based-login/src/pages/CreateUserPage.jsx:41-50 | the alert is never empty and is the server's detail when it is a non-empty string |
| RequestToolPage.Check | role-based-login/src/pages/RequestToolPage.jsx:37-44 | refused exactly without a selection or for a quantity below one, in that order; otherwise the body with that tool and quantity |
| RequestToolPage.Submit | role-based-login/src/pages/RequestToolPage.jsx:33-66 | a body is sent exactly when the checks pass; at most one banner shows; success resets selection and quantity; a failure keeps them and shows a non-empty error |
| RequestToolPage.SubmitTwice | role-based-login/src/pages/RequestToolPage.jsx:55-58 | after a successful submit a second one sends nothing |
| RequestToolPage.SentBodyMeetsQuantityCheck | role-based-login/src/pages/RequestToolPage.jsx:41-53 | against the intended endpoint, a body the page sends is never refused as an invalid quantity, and for a stored tool it is accepted exactly within stock |
| RequestToolPage.ReplyOf | role-based-login/src/pages/RequestToolPage.jsx:55-65 | the page succeeds exactly on a stored request; it reads an `HTTPException`'s detail, and any other exception as a rejected `fetch`, since its 500 lacks the CORS headers |
| RequestToolPage.SubmitAgainstAsWritten | role-based-login/src/pages/RequestToolPage.jsx:33-66 | against the endpoint as written no submit succeeds, whatever its session lookup does: the form keeps its selection and shows an error, "Failed to submit request." once the lookup and the server's checks pass |
| RequestToolPage.NoStockCheck | role-based-login/src/pages/RequestToolPage.jsx:37-44 | the page sends any quantity of one or more, whatever the stock |
| OperatorRequestsPage.Cell | role-based-login/src/pages/OperatorToolRequests.jsx:123-135 | Collect exactly for "approved" in any case; each other label for its status words; "-" for any other status |
| OperatorRequestsPage.CellOfStoredStatus | role-based-login/src/pages/OperatorToolRequests.jsx:123-135 | on stored statuses: Collect only for APPROVED, waiting for PENDING, "Rejected" for REJECTED, collected for COLLECTED |
| OperatorRequestsPage.CellIgnoresCase | role-based-login/src/pages/OperatorToolRequests.jsx:123-135 | the letter case of the status never matters |
| OperatorRequestsPage.Display | role-based-login/src/pages/OperatorToolRequests.jsx:116-121 | the value when it is a non-empty string, "N/A" otherwise |
| OperatorRequestsPage.CollectRequest | role-based-login/src/pages/OperatorToolRequests.jsx:39-50 | a POST whose URL ends with the request id, with the JSON content type, and with the session header exactly when a session id is stored |
| OperatorRequestsPage.CollectError | role-based-login/src/pages/OperatorToolRequests.jsx:59-67 | a JSON error body gives "Error: " and its detail or the fallback; any other body gives the status and raw text or the fallback |
| OperatorRequestsPage.NetworkAlert | role-based-login/src/pages/OperatorToolRequests.jsx:69-71 | a rejected `fetch` alerts "Network error: " and the rejection's message, or "Failed to collect tool" without one |
| OperatorRequestsPage.CollectAlert | role-based-login/src/pages/OperatorToolRequests.jsx:52-71 | an alert exactly when the server did not succeed; it starts "Error" exactly for an `HTTPException`, whose JSON body the page reads, while any other exception makes the `fetch` reject |
| OperatorRequestsPage.CollectAlertOfServer | role-based-login/src/pages/OperatorToolRequests.jsx:59-71 | an `HTTPException`'s detail after "Error: " (the fallback when empty); for any other exception "Network error: " and the browser's message, whatever the exception's text |
| IssueReportsPage.Control | role-based-login/src/pages/IssueReportsPage.jsx:126-154 | buttons exactly for "OPEN"; otherwise "Approved" exactly for "APPROVED" |
| IssueReportsPage.ActionCall | role-based-login/src/pages/IssueReportsPage.jsx:40-62 | posted under the decision's verb, carrying the typed response or, when empty, "Issue approved"/"Issue rejected"; never an empty response |
| IssueReportsPage.OnClick | role-based-login/src/pages/IssueReportsPage.jsx:128-148 | a cancelled prompt sends nothing; otherwise the call with the typed answer |
| IssueReportsPage.ClickSendsResponse | role-based-login/src/pages/IssueReportsPage.jsx:126-148 | only an open issue shows buttons, and an answered prompt always sends a non-empty response |
| IssueReportsPage.SuccessTextAsWritten | role-based-login/src/pages/IssueReportsPage.jsx:65 | as written: the verb with "d" appended |
| IssueReportsPage.SuccessText | role-based-login/src/pages/IssueReportsPage.jsx:64-67 | as intended: the decision's past participle; equal to the as-written text for approve |
| IssueReportsPage.SuccessTextCounterexample | role-based-login/src/pages/IssueReportsPage.jsx:65 | "Issue rejectd successfully" as written for reject, which differs from the intended text |
| IssueReportsPage.IssueNotice | role-based-login/src/pages/IssueReportsPage.jsx:64-76 | as written: success exactly when accepted, with the as-written text ("Issue rejectd successfully" for reject); otherwise the server's non-empty detail, else "Failed to approve issue"/"Failed to reject issue" |
| IssueReportsPage.IssueNoticeIntended | role-based-login/src/pages/IssueReportsPage.jsx:64-76 | as intended: the same banner, with the decision's past participle on success |
| IssueReportsPage.IssueNoticesDiffer | role-based-login/src/pages/IssueReportsPage.jsx:64-67 | the two banners differ exactly after an accepted rejection |
| IssueReportsPage.NoticeNamesSentDecision | role-based-login/src/pages/IssueReportsPage.jsx:40-67 | the call goes to the clicked decision's verb, a success banner starts with "Issue " and that verb, and the other decision never shows the same success banner |
| ToolRequestPages.Control | role-based-login/src/pages/SupervisorViewToolRequests.jsx:80-105 | buttons exactly for "PENDING"; otherwise "Approved" exactly for "APPROVED" and "Rejected" for any other status |
| ToolRequestPages.ControlOfStoredStatus | role-based-login/src/pages/ViewToolRequestsPage.jsx:70-95 | on stored statuses: buttons only for PENDING, "Approved" for APPROVED, "Rejected" for REJECTED and COLLECTED |
| ToolRequestPages.HiddenButtonsMeanRefusal | role-based-login/src/pages/SupervisorViewToolRequests.jsx:80-105 | a stored request showing no buttons is refused with 400 by both decision endpoints |
| ToolRequestPages.ActionUrlRoundTrip | role-based-login/src/pages/SupervisorViewToolRequests.jsx:46 | a request id without '/' and the decision are read back from the action URL |
| ToolRequestPages.StoredRequestUrlRoundTrip | role-based-login/src/pages/ViewToolRequestsPage.jsx:36 | every identifier the backend hands out survives the action URL round trip |
| ToolRequestPages.ActionNotice | role-based-login/src/pages/ViewToolRequestsPage.jsx:43-58 | success exactly when accepted, naming the decision; otherwise the non-empty detail or "Action failed." |
| ToolRequestPages.SuccessNamesDecision | role-based-login/src/pages/SupervisorViewToolRequests.jsx:53-55 | the success message tells approve from reject |
| ToolRequestPages.FetchError | role-based-login/src/pages/SupervisorViewToolRequests.jsx:21-31 | the officer page always shows "Failed to fetch requests"; on the supervisor page a bad status reads "Failed to fetch requests: " twice and then holds the status and the detail, or "Unknown error"; a failed `fetch` reads the prefix once and holds the thrown message |
| Sidebar.MenuItems | role-based-login/src/components/Sidebar.jsx:13-38 | six entries for OFFICER, two for OPERATOR, three for SUPERVISOR, none for any other role |
| Sidebar.MenusWellFormed | role-based-login/src/components/Sidebar.jsx:13-38 | each role's menu starts with its dashboard and has distinct paths |
| Sidebar.AtMostOneActive | role-based-login/src/components/Sidebar.jsx:9-11 | with distinct paths, at most one entry is active |
| Sidebar.FullName | role-based-login/src/components/Sidebar.jsx:48-57 | the stored full name, else the stored user id, else "User"; never empty |
| UserContext.Restore | role-based-login/src/context/UserContext.jsx:18-27 | authenticated exactly when both a session id and a role are stored, with that role |
| UserContext.Login | role-based-login/src/context/UserContext.jsx:29-36 | sets the role and stores it; stores the session id only when truthy; no other key changes |
| UserContext.Logout | role-based-login/src/context/UserContext.jsx:38-44 | clears role, flag and user data and removes both keys; no other key changes |
| UserContext.LogoutThenRestore | role-based-login/src/context/UserContext.jsx:18-44 | a reload after logout restores the logged-out state |
| UserContext.LogoutIdempotent | role-based-login/src/context/UserContext.jsx:38-44 | logging out twice is logging out once |
| UserContext.LoginThenRestore | role-based-login/src/context/UserContext.jsx:18-36 | a reload after a login with a session id restores the same role, authenticated |
| UserContext.LoginWithoutSessionIsLost | role-based-login/src/context/UserContext.jsx:23-35 | a login without any session id does not survive a reload |
| UserContext.UseUser | role-based-login/src/context/UserContext.jsx:5-11 | the context when there is one, else the fixed error |
| FilterBar.SearchChange | role-based-login/src/components/FilterBar.jsx:14-21 | without the parent's setters it throws and nothing changes; otherwise the new text is stored and searched for with the current date |
| FilterBar.DateChange | role-based-login/src/components/FilterBar.jsx:23-30 | without the parent's setters it throws and nothing changes; otherwise the new date is stored and searched for with the current text |
| FilterBar.Clear | role-based-login/src/components/FilterBar.jsx:32-38 | without the parent's setters it throws and nothing changes; otherwise both fields emptied, then the clear callback when given, never a search |
| FilterBar.KeyPress | role-based-login/src/components/FilterBar.jsx:40-44 | never throws; Enter searches with the current fields; any other key does nothing |
| FilterBar.ThrowsExactly | role-based-login/src/components/FilterBar.jsx:14-44 | a handler throws exactly when it edits (typing, a date, Clear) and the parent passed no setters, and a handler that throws changes nothing and calls nothing |
| FilterBar.StuckWithoutSetters | role-based-login/src/components/FilterBar.jsx:4-81 | without setters the search text and date never change, whatever the events, and some handler throws exactly when one of the events edits |
| FilterBar.CallsSeeNewState | role-based-login/src/components/FilterBar.jsx:14-63 | whatever the event, at most one call is made and a search carries the text and date the bar then shows |
| FilterBar.NoSearchWithoutProp | role-based-login/src/components/FilterBar.jsx:14-63 | without the search callback no event searches, and only Clear calls the parent |
| FilterBar.ClearEmpties | role-based-login/src/components/FilterBar.jsx:32-44 | after a Clear that does not throw, the next search is for an empty text and date |
| FilterBar.SilentWithoutProps | role-based-login/src/components/FilterBar.jsx:4-81 | a parent that passes neither `onSearch` nor `onClear` is never called, whatever sequence of events the bar handles |
| ListFilters.HandleFilterSpec | role-based-login/src/pages/OfficerInventoryPage.jsx:36-62 | the shown list is an order-preserving subsequence holding exactly the passing rows, each as often as loaded |
| ListFilters.ShownIff | role-based-login/src/pages/OfficerIssueReports.jsx:40-65 | a row is shown exactly when it is loaded and passes |
| ListFilters.EmptyQueryKeepsAll | role-based-login/src/pages/OfficerIssueReports.jsx:40-70 | an empty query shows what Clear shows: every loaded row |
| ListFilters.HandleFilterIdempotent | role-based-login/src/pages/SupervisorYourRequests.jsx:41-62 | filtering the shown list again with the same query changes nothing |
| ListFilters.Loaded | role-based-login/src/pages/OfficerInventoryPage.jsx:24-25 | a body that is not a list loads as the empty list |
| OfficerListPages.LoadIssues | role-based-login/src/pages/OfficerIssueReports.jsx:17-34 | no error exactly when answered, and then all rows shown; otherwise no rows and the thrown message |
| OfficerListPages.IssueFieldsMatch | role-based-login/src/pages/OfficerIssueReports.jsx:44-51 | the text test is: one of the ids contains the term, or the description or status contains it in any case |
| OfficerListPages.IssueSearchKeepsOrder | role-based-login/src/pages/OfficerIssueReports.jsx:40-65 | filtering the server's list keeps it newest first |
| OfficerListPages.IssueSearch | role-based-login/src/pages/OfficerIssueReports.jsx:40-65 | a stored issue is shown exactly when it passes the text and date tests |
| OfficerListPages.IssueBadge | role-based-login/src/pages/OfficerIssueReports.jsx:119-120 | the status and its lower case, or "Open"/"open" without one |
| OfficerListPages.LoadInventory | role-based-login/src/pages/OfficerInventoryPage.jsx:17-30 | no error exactly when answered; otherwise "Failed to fetch tools" and no rows |
| OfficerListPages.InventoryFieldsMatch | role-based-login/src/pages/OfficerInventoryPage.jsx:40-49 | for a listed tool the text test is name, make or code containing the term in any case, or the id containing it; the always-null location and gauge never match |
| OfficerListPages.InventorySearch | role-based-login/src/pages/OfficerInventoryPage.jsx:36-62 | a stored tool is shown exactly when it passes the text and date tests |
| OfficerListPages.LoadAvailable | role-based-login/src/pages/OfficerAvailableTools.jsx:14-36 | answered lists keep only tools in stock; a bad status and a thrown fetch give their two messages |
| OfficerListPages.AvailableKeepsOrder | role-based-login/src/pages/OfficerAvailableTools.jsx:25 | the in-stock tools keep the server's order |
| OfficerListPages.AvailableAreInStock | role-based-login/src/pages/OfficerAvailableTools.jsx:25 | a stored tool is listed exactly when its stock is positive |
| OfficerListPages.AvailableIgnoresDate | role-based-login/src/pages/OfficerAvailableTools.jsx:41-55 | the date never affects this page's filter |
| OfficerListPages.AvailableSearch | role-based-login/src/pages/OfficerAvailableTools.jsx:41-55 | a stored tool is shown exactly when it is in stock and passes the text test |
| SupervisorListPages.QueryIsPageStatus | role-based-login/src/pages/SupervisorPendingRequests.jsx:21 | each page's query string selects exactly its status, and the unfiltered page none |
| SupervisorListPages.Load | role-based-login/src/pages/SupervisorApprovedRequests.jsx:17-39 | no error exactly when answered; a bad status gives the page's message and a thrown fetch "Error connecting to server" |
| SupervisorListPages.FetchOf | role-based-login/src/pages/SupervisorYourRequests.jsx:17-33 | the page is answered exactly when the endpoint succeeds, with its rows; any endpoint error is an error status |
| SupervisorListPages.LoadAgainstAsWritten | role-based-login/src/pages/SupervisorYourRequests.jsx:17-39 | against the endpoint as written every page is empty, and shows its error banner exactly when the caller has a request with the page's status |
| SupervisorListPages.FieldsMatch | role-based-login/src/pages/SupervisorRejectedRequests.jsx:41-51 | each page's text test over its own fields: status on the unfiltered page, rejection reason on the rejected page |
| SupervisorListPages.Listed | role-based-login/src/pages/SupervisorYourRequests.jsx:17-30 | behind the corrected endpoint, each of the caller's requests with the page's status is on the page |
| SupervisorListPages.PageSearch | role-based-login/src/pages/SupervisorPendingRequests.jsx:41-61 | `handleFilter` as a function on its own, behind the corrected endpoint: such a request passes exactly when it meets the page's text and date tests; the rendered page never calls it |
| SupervisorListPages.SearchNeverApplied | role-based-login/src/pages/SupervisorPendingRequests.jsx:89-92 | the rendered page never searches: its `FilterBar` gets only `onFilter`, which the bar never reads, so no event calls the page and a loaded row stays on show even where `handleFilter` would drop it; typing, a date or Clear throws a `TypeError` instead, since the page passes no setters |
| SupervisorListPages.Badge | role-based-login/src/pages/SupervisorYourRequests.jsx:64-67 | the unfiltered page shows the status or "Unknown"; the status pages show their fixed status |
| SupervisorListPages.BadgeMatchesRows | role-based-login/src/pages/SupervisorPendingRequests.jsx:116 | a status page's fixed badge is the status of every row the corrected endpoint sends it |
| SupervisorListPages.ReasonCell | role-based-login/src/pages/SupervisorRejectedRequests.jsx:120 | the reason, or "No reason provided" |
| Base64Url.DecodeEncode | bngcmtiproj-1/app/api/v1/auth.py:178-182 | decoding the URL-safe base64 encoding of any bytes gives the bytes |
| Base64Url.EncodeDecode | bngcmtiproj-1/app/api/v1/auth.py:182 | a string that decodes is the encoding of what it decodes to |
| Utf8.DecodeEncode | bngcmtiproj-1/app/api/v1/auth.py:178-182 | decoding the UTF-8 encoding of any string gives the string |
| Utf8.EncodeDecode | bngcmtiproj-1/app/api/v1/auth.py:182 | bytes that decode are the encoding of what they decode to |
| Text.Trim | role-based-login/src/pages/OfficerInventoryPage.jsx:40 | a contiguous slice with no white space at either end, empty exactly for a blank string |
| Text.IntRoundTrip | bngcmtiproj-1/app/api/v1/auth.py:177-184 | `int(str(i))` is `i` for every integer |
| Text.SplitOnPair | bngcmtiproj-1/app/api/v1/auth.py:183 | two texts without the separator, joined by it, split back into those two |
| Text.LexLeTransitive | bngcmtiproj-1/app/api/v1/operator.py:72 | the name order is transitive (with LexLeTotal, a total preorder) |
| Models.ParseRole | bngcmtiproj-1/app/api/v1/auth.py:82 | the role name sent in a login answer reads back as exactly that role, and no other text names a role |
| Models.ParseStatus | bngcmtiproj-1/app/api/v1/supervisor.py:209-211 | the status enum is built exactly from its own names |

## Left out

- Password hashing and verification, uuid generation, the clock and e-mail sending are parameters. A uuid is assumed not to collide with a stored session id (`Auth.Fresh`).
- Role gating of endpoints (`require_role`, `get_current_session` in `app/api/deps.py`) is not part of this model. The caller's id is an argument.
- OperatorApi.CreateToolRequestAsWritten: `get_current_session(db)` at `operator.py:24` is a request dependency called directly, so it cannot see the request's `x-session-id`. Its definition is not part of this model, so what it yields is a parameter (`SessionLookup`). The claims that the as-written and the intended endpoint refuse the same requests hold only when it gives back the caller. That it stores nothing holds either way.
- Concurrency: `LOCK TABLE`, the race between two logins, and transaction rollback are not modelled. The second role-in-use refusal at `auth.py:73-80` is unreachable in a sequential model, because `acquire_lock` only refuses when `get_active_lock` would have.
- `reset_password` (`auth.py:200-213`) is not modelled. Its indentation makes the user lookup and the update unreachable, so it can never reset a password.
- `session_logs` (`officer.py:136-164`) is not modelled, because its body is broken in the same way.
- `approved_usage_logs` (`supervisor.py:240-259`) is not modelled, because it reads columns the table does not have.
- `list_all_tool_requests`, `get_supervisor_notifications` and `list_users` are not modelled. They are read-only views with no logic beyond a query. The notifications that `create_tool_request` inserts are not modelled either.
- The officer tool-request endpoints, the issue approve/reject endpoints and the collect endpoint that the client pages call are not part of this backend code. The pages are modelled only up to the request they send.
- Database key generation is modelled as one past the largest key. Real sequences can skip numbers after a delete.
- `scalar_one_or_none` raising `MultipleResultsFound` is not modelled. `.first()` without `ORDER BY` is modelled as the least key.
- OfficerApi.DeleteUser: only the foreign keys to `users.id` of the usage-request, addition-request and issue tables refuse a delete in the model. The `notifications.user_id` key also refuses one, but the notification table is not modelled. Whatever the user and session models declare (a `sessions.user_id` key, a relationship cascade) is not part of this model, so a user with only sessions is deleted and the sessions are kept.
- Column widths are modelled where a modelled write can exceed them: the 32-bit quantity and the 100-character text columns of the inventory import, and the 100-character name of an addition request. Keys, the `String(32)` request id and the stock an approval lowers cannot exceed theirs. The text of a failed commit is the driver's wording and is a parameter.
- SQL sort ties (equal `created_at`) are broken by key in the model. The database gives no order for ties.
- Ties under `ORDER BY tool_name` (`operator.py:72`) are likewise broken by key in the model.
- The operator notifications that the supervisor's approve and reject endpoints insert (`supervisor.py:121-129`, `:164-172`) are not modelled. They are rows in a table no modelled operation reads.
- Case mapping and collation are ASCII only. `ORDER BY tool_name` is code-point order.
- `str.strip` is modelled with Python's full Unicode white-space set and `splitlines` with its full set of line breaks. `re.split` splits on tabs and runs of two or more ASCII spaces, as its pattern says. A "\r\n" pair is two breaks in the model; that only adds a blank piece, which is then dropped.
- Auth.ParseResetToken: exact only for tokens this system issues. Base64 decoding is strict in the model, while `base64.urlsafe_b64decode` without `validate=True` discards characters outside the alphabet and also accepts `+`, `/` and non-canonical padding. The timestamp is read as an optional sign and ASCII digits, while Python's `int()` also accepts surrounding white space, `_` separators and non-ASCII digits. The clock is whole seconds, while the source compares the fractional `timestamp()` with the window: a token older than the window by less than a second is refused there, but accepted by the model when `now` is that whole second.
- JavaScript `Date` parsing, time zones and `toDateString` are a `day` function parameter of the filters. A date that does not parse is not modelled.
- RequestToolPage.Check: the quantity is an integer. `Number(e.target.value)` can also give `NaN` or a fraction such as 2.5; a fraction passes the page's `<= 0` check and is posted.
- `NaN` quantities and the `maxLength` input attribute are not modelled. `isNaN(phone)` is modelled as "not all ASCII digits", which is how it behaves on the ten-character strings the form can hold.
- React rendering, `fetch`, `alert`, `prompt`, timers and navigation are effects in the model's results, or are not modelled. The message of a rejected `fetch` is the browser's own wording and is a parameter. The collect page's handling of a non-JSON error body is modelled (`OperatorRequestsPage.CollectError`), though this backend sends none the page can read. The loading flags and the refresh after a decision are not modelled.
- The officer issue page stores whatever the server sends. A non-list body is not modelled for that page; the other list pages model it through `ListFilters.Loaded`.
- LoginPage.Route: the first-login branch is modelled, but the backend never sends `first_login_required`, so it is unreachable in practice.
- CreateUserPage.Check: the role select can only hold the three role names, so the role is a `Role` and not free text.
- SupervisorApi.ApproveToolRequest: its ensures delegate the successful case to `SupervisorApi.ApproveFound`, which states the stock and status change in full.
- SupervisorListPages.Listed: describes the page behind the corrected addition-request endpoint. As written, any non-empty answer is a 500, which `SupervisorListPages.LoadAgainstAsWritten` states.
- SupervisorListPages.PageSearch: describes `handleFilter` behind the corrected addition-request endpoint, for the same reason. The rendered supervisor pages never call it, which `SupervisorListPages.SearchNeverApplied` states and the findings record.
- SupervisorListPages.BadgeMatchesRows: describes the page behind the corrected addition-request endpoint, for the same reason.
- RequestToolPage.SentBodyMeetsQuantityCheck: describes the page behind the corrected request-creation endpoint. As written, every request that passes the checks is a 500, which `RequestToolPage.SubmitAgainstAsWritten` states.
- The supervisor decision endpoints are modelled over stored usage requests. As written, `create_tool_request` never stores one, so these requests can only come from elsewhere.
- The addition request's description and rejection reason are never sent by this backend. The pages' tests on them see absent values.

## Findings

| source | as written | input that shows it | evidently intended | confidence | as-written member | corrected member |
|---|---|---|---|---|---|---|
| role-based-login/src/pages/IssueReportsPage.jsx:65 | the success banner appends "d" to the action verb | rejecting an issue shows "Issue rejectd successfully" | "Issue rejected successfully" | not executed | IssueReportsPage.SuccessTextCounterexample | IssueReportsPage.SuccessText |
| bngcmtiproj-1/scripts/import_tools_from_text.py:86-98 | a new tool is built with `location`, `gauge` and `remarks`, which the inventory model does not have; the `TypeError` is caught and the tool is skipped | importing "1\tCaliper\t0-150\tVC-01\tMitutoyo\t4" into an empty table leaves it empty | a record with a new name adds a tool row built from the inventory's own columns; that also needs `added_at`, a NOT NULL column without a default that the script never sets, which the intended import stamps with `now` | not executed | InventoryText.ImportNewToolCounterexample | InventoryText.ImportCoversNames |
| bngcmtiproj-1/app/api/v1/supervisor.py:219-238 | each response row reads `reviewed_at`, `reviewer_id` and `reviewer_remarks`, which the addition-request table does not have, so any non-empty result becomes a 500 | supervisor 7 with one PENDING addition request lists their requests | the supervisor's own requests, newest first | not executed | SupervisorApi.AdditionRequestsCounterexample | SupervisorApi.GetToolAdditionRequests |
| bngcmtiproj-1/app/api/v1/operator.py:35-43 | the new usage request leaves `user_id` unset, which the table declares NOT NULL without a default, so the commit raises and the global handler answers with a plain-text 500 | one tool with five in stock and a request for two | the request is stored with `user_id` set to the operator, and the response echoes it | not executed | OperatorApi.CreateToolRequestCounterexample | OperatorApi.CreateToolRequest |
| role-based-login/src/pages/SupervisorPendingRequests.jsx:89-92 | each supervisor list page gives its `FilterBar` only `onFilter`, a prop the bar never reads, and none of the search state, its setters or `onSearch`, so the page's `handleFilter` never runs, and typing, picking a date or Clear calls the missing setter and throws "TypeError: setSearchQuery is not a function" (or `setDateFilter`) | typing "zzz" on a page that lists a request for "Caliper" with id 1 leaves that request on show | the bar's searches run `handleFilter`, passed as `onSearch` with the page's search state, as the officer list pages do | not executed | SupervisorListPages.SearchNeverApplied | SupervisorListPages.PageSearch |

=== FILE: auth.dfy ===
/**
 * Authentication endpoints (`app/api/v1/auth.py`): login with the per-role
 * lock, session check, logout, role-lock release, the first-login password
 * change, and the password-reset token.
 *
 * Password hashing and checking are parameters of `Config`, as is the
 * configured session length; the fresh session identifier that `uuid4`
 * would produce is an argument of `Login`.
 */
module Auth {
  import opened Wrappers
  import opened Models
  import opened Store
  import opened Locks
  import Text
  import Utf8
  import Base64Url

  datatype Config = Config(
    sessionMinutes: int,
    resetExpireMinutes: int,
    defaultPassword: string,
    hash: string -> string,
    verify: (string, string) -> bool)

  /** The three response shapes of `/login`; the first-login shape is never produced. */
  datatype LoginOut =
    | LoginSuccess(sessionId: string, role: string, username: string, expiresAt: int)
    | RoleInUse(lockedSince: Option<int>, message: string)

  const RoleInUseMessage: string := "Role currently in use by another user"

  /** An identifier that names no session and no lock row: what `uuid4` is relied on to give. */
  predicate Fresh(db: Db, id: string) {
    && id !in db.sessions
    && forall r :: r in db.locks ==> db.locks[r].sessionId != Some(id)
  }

  /** Ends a session that login opened but could not use, and marks its user inactive. */
  function EndUnusedSession(db: Db, id: string, uid: int, now: int): (r: Db)
    requires id in db.sessions && uid in db.users
    ensures r.sessions == db.sessions[id := db.sessions[id].(logoutAt := Some(now), endedReason := Some(Expired))]
    ensures r.users == db.users[uid := db.users[uid].(isActive := false)]
    ensures r.locks == db.locks && r.tools == db.tools && r.usage == db.usage
  {
    db.(sessions := db.sessions[id := db.sessions[id].(logoutAt := Some(now), endedReason := Some(Expired))],
        users := db.users[uid := db.users[uid].(isActive := false)])
  }

  /** The state after `login` has marked the user active and stored the new session. */
  function OpenSession(db: Db, uid: int, freshId: string, now: int, expires: int): (r: Db)
    requires uid in db.users
    ensures r.sessions == db.sessions[freshId := Session(freshId, uid, db.users[uid].role, now, expires, None, None)]
    ensures r.users == db.users[uid := db.users[uid].(isActive := true)]
    ensures r.locks == db.locks && r.tools == db.tools && r.usage == db.usage && r.additions == db.additions
  {
    var sess := Session(freshId, uid, db.users[uid].role, now, expires, None, None);
    db.(users := db.users[uid := db.users[uid].(isActive := true)], sessions := db.sessions[freshId := sess])
  }

  /**
   * The role-lock step of `login` for an OFFICER or SUPERVISOR whose session
   * `freshId` is already stored: refused while a live session holds the
   * role, otherwise the new session takes the lock.
   */
  function ClaimRole(db: Db, role: Role, uid: int, freshId: string, now: int, success: LoginOut): (r: Outcome<LoginOut>)
    requires freshId in db.sessions && uid in db.users && success.LoginSuccess?
    ensures r.Done?
    ensures r.db == db.(sessions := r.db.sessions, users := r.db.users, locks := r.db.locks)
    ensures r.out.RoleInUse? <==> HeldLive(db, role, now)
    ensures forall x :: x != role && x in db.locks ==> x in r.db.locks && r.db.locks[x] == db.locks[x]
    ensures r.out.RoleInUse? ==>
              && r.out == RoleInUse(Some(db.locks[role].lockedAt), RoleInUseMessage)
              && r.db == EndUnusedSession(db, freshId, uid, now)
    ensures r.out.LoginSuccess? ==>
              && r.out == success
              && r.db.sessions == db.sessions && r.db.users == db.users
              && (LocksWf(db.locks) ==> LocksWf(r.db.locks))
              && role in r.db.locks && r.db.locks[role].sessionId == Some(freshId)
  {
    var look := GetActiveLock(db, role, now);
    if look.active.Some? then
      Done(EndUnusedSession(look.db, freshId, uid, now), RoleInUse(Some(look.active.value.lockedAt), RoleInUseMessage))
    else
      var acquired := AcquireLock(look.db, role, freshId, now);
      // The second refusal of the source cannot happen: the lookup above
      // already found the role free and nothing ran in between.
      if acquired.lock.None? then assert false; Fail(HttpError(500, ""))
      else Done(acquired.db, success)
  }

  /**
   * `login`: 401 for an unknown username or a wrong password. Otherwise the
   * user is marked active and a session is opened for `now` plus the session
   * length. An OFFICER or SUPERVISOR then needs the role lock: when another
   * live session holds it, the new session is ended as EXPIRED, the user is
   * marked inactive and the answer is "role in use".
   */
  function Login(db: Db, cfg: Config, username: string, password: string, freshId: string, now: int): (r: Outcome<LoginOut>)
    requires Fresh(db, freshId)
    ensures r.Fail? <==> UserByUsername(db.users, username).None?
                         || !cfg.verify(password, db.users[UserByUsername(db.users, username).value].hashedPassword)
    ensures r.Fail? ==> r.error == HttpError(401, "Invalid credentials")
  {
    match UserByUsername(db.users, username)
    case None => Fail(HttpError(401, "Invalid credentials"))
    case Some(uid) =>
      var user := db.users[uid];
      if !cfg.verify(password, user.hashedPassword) then Fail(HttpError(401, "Invalid credentials"))
      else
        Admit(db, cfg.sessionMinutes, uid, freshId, now)
  }

  /** What `login` does once the credentials are accepted for user `uid`. */
  function Admit(db: Db, sessionMinutes: int, uid: int, freshId: string, now: int): (r: Outcome<LoginOut>)
    requires uid in db.users && freshId !in db.sessions
    ensures r.Done?
  {
    var user := db.users[uid];
    var expires := now + sessionMinutes * 60;
    var db2 := OpenSession(db, uid, freshId, now, expires);
    var success := LoginSuccess(freshId, RoleName(user.role), user.username, expires);
    if !IsLockedRole(user.role) then Done(db2, success)
    else ClaimRole(db2, user.role, uid, freshId, now, success)
  }

  /** A successful login stores exactly one new session, for the user, from `now` to `now` plus the session length. */
  lemma AdmitOpensSession(db: Db, sessionMinutes: int, uid: int, freshId: string, now: int)
    requires uid in db.users && freshId !in db.sessions
    ensures var r := Admit(db, sessionMinutes, uid, freshId, now);
            && freshId in r.db.sessions
            && r.db.sessions[freshId].userId == uid
            && r.db.sessions[freshId].role == db.users[uid].role
            && r.db.sessions[freshId].loginAt == now
            && r.db.sessions[freshId].expiresAt == now + sessionMinutes * 60
            && r.db.sessions.Keys == db.sessions.Keys + {freshId}
            && (forall id :: id in db.sessions ==> r.db.sessions[id] == db.sessions[id])
            && r.db.users.Keys == db.users.Keys
            && r.db.tools == db.tools && r.db.usage == db.usage && r.db.additions == db.additions
  {
    var user := db.users[uid];
    var expires := now + sessionMinutes * 60;
    var db2 := OpenSession(db, uid, freshId, now, expires);
    var success := LoginSuccess(freshId, RoleName(user.role), user.username, expires);
    var r := Admit(db, sessionMinutes, uid, freshId, now);
    assert db2.sessions[freshId] == Session(freshId, uid, user.role, now, expires, None, None);
    assert db2.sessions.Keys == db.sessions.Keys + {freshId};
    if IsLockedRole(user.role) {
      assert r == ClaimRole(db2, user.role, uid, freshId, now, success);
      ClaimKeepsSessions(db2, user.role, uid, freshId, now, success);
    } else {
      assert r.db == db2;
    }
  }

  /** The lock step changes no session but possibly ends the new one, and no table but sessions, users and locks. */
  lemma ClaimKeepsSessions(db: Db, role: Role, uid: int, freshId: string, now: int, success: LoginOut)
    requires freshId in db.sessions && uid in db.users && success.LoginSuccess?
    ensures var c := ClaimRole(db, role, uid, freshId, now, success);
            && c.db.sessions.Keys == db.sessions.Keys
            && (forall id :: id in db.sessions && id != freshId ==> c.db.sessions[id] == db.sessions[id])
            && c.db.sessions[freshId].userId == db.sessions[freshId].userId
            && c.db.sessions[freshId].role == db.sessions[freshId].role
            && c.db.sessions[freshId].loginAt == db.sessions[freshId].loginAt
            && c.db.sessions[freshId].expiresAt == db.sessions[freshId].expiresAt
            && c.db.users.Keys == db.users.Keys
            && c.db.tools == db.tools && c.db.usage == db.usage && c.db.additions == db.additions
  {
    var c := ClaimRole(db, role, uid, freshId, now, success);
    if c.out.RoleInUse? {
      assert c.db == EndUnusedSession(db, freshId, uid, now);
    }
  }

  /** OPERATOR logins never consult or take a role lock and always succeed past the credential check. */
  lemma OperatorAdmitIgnoresLocks(db: Db, sessionMinutes: int, uid: int, freshId: string, now: int)
    requires uid in db.users && freshId !in db.sessions && !IsLockedRole(db.users[uid].role)
    ensures var r := Admit(db, sessionMinutes, uid, freshId, now);
            && r.db.locks == db.locks
            && r.db.users[uid].isActive
            && r.out == LoginSuccess(freshId, "OPERATOR", db.users[uid].username, now + sessionMinutes * 60)
  {
  }

  /**
   * An OFFICER or SUPERVISOR login is refused exactly while another live
   * session holds the role; the refused session is ended as EXPIRED and the
   * user marked inactive, and an accepted one holds the lock.
   */
  lemma LockedRoleAdmit(db: Db, sessionMinutes: int, uid: int, freshId: string, now: int)
    requires uid in db.users && Fresh(db, freshId) && IsLockedRole(db.users[uid].role)
    ensures var r := Admit(db, sessionMinutes, uid, freshId, now);
            var role := db.users[uid].role;
            && (r.out.RoleInUse? <==> HeldLive(db, role, now))
            && (r.out.RoleInUse? ==>
                  && r.out.lockedSince == Some(db.locks[role].lockedAt)
                  && r.db.sessions[freshId].logoutAt == Some(now)
                  && r.db.sessions[freshId].endedReason == Some(Expired)
                  && !r.db.users[uid].isActive
                  && r.db.locks == db.locks)
            && (r.out.LoginSuccess? ==>
                  && r.db.sessions[freshId].logoutAt.None?
                  && r.db.users[uid].isActive
                  && role in r.db.locks && r.db.locks[role].sessionId == Some(freshId))
  {
    var role := db.users[uid].role;
    var db2 := OpenSession(db, uid, freshId, now, now + sessionMinutes * 60);
    assert HeldLive(db2, role, now) <==> HeldLive(db, role, now);
  }

  /** Login preserves the exclusion invariant: no two live sessions ever share a locked role. */
  lemma AdmitKeepsLockInvariant(db: Db, sessionMinutes: int, uid: int, freshId: string, now: int)
    requires uid in db.users && Fresh(db, freshId) && LockInvariant(db, now)
    ensures LockInvariant(Admit(db, sessionMinutes, uid, freshId, now).db, now)
  {
    var role := db.users[uid].role;
    if !IsLockedRole(role) {
      OperatorAdmitKeeps(db, sessionMinutes, uid, freshId, now);
    } else if HeldLive(db, role, now) {
      RefusedAdmitKeeps(db, sessionMinutes, uid, freshId, now);
    } else {
      AcceptedAdmitKeeps(db, sessionMinutes, uid, freshId, now);
    }
  }

  /** An OPERATOR login adds a session of an unlocked role and leaves the locks alone. */
  lemma OperatorAdmitKeeps(db: Db, sessionMinutes: int, uid: int, freshId: string, now: int)
    requires uid in db.users && Fresh(db, freshId) && LockInvariant(db, now) && !IsLockedRole(db.users[uid].role)
    ensures LockInvariant(Admit(db, sessionMinutes, uid, freshId, now).db, now)
  {
    var r := Admit(db, sessionMinutes, uid, freshId, now);
    AdmitOpensSession(db, sessionMinutes, uid, freshId, now);
    OperatorAdmitIgnoresLocks(db, sessionMinutes, uid, freshId, now);
    forall id | id in r.db.sessions && id != freshId ensures r.db.sessions[id] == db.sessions[id] {
    }
  }

  /** A refused login leaves the locks alone and its own session ended. */
  lemma RefusedAdmitKeeps(db: Db, sessionMinutes: int, uid: int, freshId: string, now: int)
    requires uid in db.users && Fresh(db, freshId) && LockInvariant(db, now)
    requires IsLockedRole(db.users[uid].role) && HeldLive(db, db.users[uid].role, now)
    ensures LockInvariant(Admit(db, sessionMinutes, uid, freshId, now).db, now)
  {
    var r := Admit(db, sessionMinutes, uid, freshId, now);
    AdmitOpensSession(db, sessionMinutes, uid, freshId, now);
    LockedRoleAdmit(db, sessionMinutes, uid, freshId, now);
    assert !Live(r.db.sessions[freshId], now);
    forall id | id in r.db.sessions && id != freshId ensures r.db.sessions[id] == db.sessions[id] {
    }
  }

  /**
   * An accepted login takes the lock of a role no live session held, so
   * every other live holder keeps its own lock.
   */
  lemma AcceptedAdmitKeeps(db: Db, sessionMinutes: int, uid: int, freshId: string, now: int)
    requires uid in db.users && Fresh(db, freshId) && LockInvariant(db, now)
    requires IsLockedRole(db.users[uid].role) && !HeldLive(db, db.users[uid].role, now)
    ensures LockInvariant(Admit(db, sessionMinutes, uid, freshId, now).db, now)
  {
    var role := db.users[uid].role;
    var r := Admit(db, sessionMinutes, uid, freshId, now);
    var db2 := OpenSession(db, uid, freshId, now, now + sessionMinutes * 60);
    var success := LoginSuccess(freshId, RoleName(role), db.users[uid].username, now + sessionMinutes * 60);
    assert r == ClaimRole(db2, role, uid, freshId, now, success);
    AdmitOpensSession(db, sessionMinutes, uid, freshId, now);
    LockedRoleAdmit(db, sessionMinutes, uid, freshId, now);
    forall id | id in r.db.sessions && id != freshId && Live(r.db.sessions[id], now) && IsLockedRole(r.db.sessions[id].role)
      ensures r.db.sessions[id].role in r.db.locks && r.db.locks[r.db.sessions[id].role].sessionId == Some(id)
    {
      assert r.db.sessions[id] == db.sessions[id];
      LiveHolderHeld(db, now, id);
    }
  }

  /** Login preserves the exclusion invariant. */
  lemma LoginKeepsLockInvariant(db: Db, cfg: Config, username: string, password: string, freshId: string, now: int)
    requires Fresh(db, freshId) && LockInvariant(db, now)
    ensures var r := Login(db, cfg, username, password, freshId, now);
            r.Done? ==> LockInvariant(r.db, now)
  {
    var r := Login(db, cfg, username, password, freshId, now);
    if r.Done? {
      var uid := UserByUsername(db.users, username).value;
      assert r == Admit(db, cfg.sessionMinutes, uid, freshId, now);
      AdmitKeepsLockInvariant(db, cfg.sessionMinutes, uid, freshId, now);
    }
  }

  /** The answer of `/session-check`. */
  datatype CheckOut = CheckOut(valid: bool, username: Option<string>, role: Option<string>, expiresAt: Option<int>)

  const Invalid: CheckOut := CheckOut(false, None, None, None)

  /**
   * The session id a request names, when given and non-empty. The model's
   * `sessionId` is the `x_session_id` query parameter for `session_check`
   * and `release_role_lock`, and the `x-session-id` header for `logout`.
   */
  predicate Given(sessionId: Option<string>) {
    sessionId.Some? && sessionId.value != ""
  }

  /** The session `sessionId` names is still open but has reached its expiry. */
  predicate Expiring(db: Db, sessionId: Option<string>, now: int) {
    && Given(sessionId)
    && sessionId.value in db.sessions
    && db.sessions[sessionId.value].logoutAt.None?
    && db.sessions[sessionId.value].expiresAt <= now
  }

  /**
   * `session_check`, with the session id from its `x_session_id` query
   * parameter: valid exactly for a given, existing, live session whose
   * user exists and is active. A session found past its expiry is ended at
   * its expiry time as EXPIRED, and releases its role lock if it holds it.
   */
  function SessionCheck(db: Db, sessionId: Option<string>, now: int): (r: Outcome<CheckOut>)
    ensures r.Done?
    ensures r.out.valid <==>
              && Given(sessionId)
              && sessionId.value in db.sessions
              && Live(db.sessions[sessionId.value], now)
              && db.sessions[sessionId.value].userId in db.users
              && db.users[db.sessions[sessionId.value].userId].isActive
    ensures r.out.valid ==>
              var s := db.sessions[sessionId.value];
              r.db == db
              && r.out == CheckOut(true, Some(db.users[s.userId].username), Some(RoleName(db.users[s.userId].role)), Some(s.expiresAt))
    ensures !r.out.valid ==> r.out == Invalid
    ensures Expiring(db, sessionId, now) ==>
              var s := db.sessions[sessionId.value];
              && r.db.sessions == db.sessions[sessionId.value := s.(logoutAt := Some(s.expiresAt), endedReason := Some(Expired))]
              && (IsLockedRole(s.role) && s.role in db.locks && db.locks[s.role].sessionId == Some(s.sessionId) ==>
                    r.db.locks == db.locks - {s.role})
    ensures !Expiring(db, sessionId, now) ==> r.db == db
    ensures r.db.users == db.users && r.db.tools == db.tools && r.db.usage == db.usage
  {
    if !Given(sessionId) then Done(db, Invalid)
    else
      var id := sessionId.value;
      if id !in db.sessions || db.sessions[id].logoutAt.Some? then Done(db, Invalid)
      else
        var s := db.sessions[id];
        if s.expiresAt <= now then
          var db1 := db.(sessions := db.sessions[id := s.(logoutAt := Some(s.expiresAt), endedReason := Some(Expired))]);
          var db2 := if IsLockedRole(s.role) then ReleaseLockIfOwner(db1, s.role, s.sessionId) else db1;
          Done(db2, Invalid)
        else if s.userId !in db.users || !db.users[s.userId].isActive then Done(db, Invalid)
        else
          var user := db.users[s.userId];
          Done(db, CheckOut(true, Some(user.username), Some(RoleName(user.role)), Some(s.expiresAt)))
  }

  lemma SessionCheckKeepsLockInvariant(db: Db, sessionId: Option<string>, now: int)
    requires LockInvariant(db, now)
    ensures LockInvariant(SessionCheck(db, sessionId, now).db, now)
  {
    var r := SessionCheck(db, sessionId, now);
    if r.db != db {
      var id := sessionId.value;
      var s := db.sessions[id];
      var db1 := db.(sessions := db.sessions[id := s.(logoutAt := Some(s.expiresAt), endedReason := Some(Expired))]);
      if IsLockedRole(s.role) {
        ReleaseKeepsInvariant(db1, s.role, id, now);
      }
    }
  }

  /**
   * `logout`: a missing header, an unknown session or one already ended
   * answers "Logged out" and changes nothing. Otherwise the session's role
   * lock is released if it holds it, the session is ended at `now` as
   * LOGOUT, and its user, if any, is marked inactive.
   */
  function Logout(db: Db, header: Option<string>, now: int): (r: Outcome<string>)
    ensures r.Done? && r.out == "Logged out"
    ensures !(Given(header) && header.value in db.sessions && db.sessions[header.value].logoutAt.None?) ==> r.db == db
    ensures Given(header) && header.value in db.sessions && db.sessions[header.value].logoutAt.None? ==>
              var s := db.sessions[header.value];
              && r.db.sessions == db.sessions[header.value := s.(logoutAt := Some(now), endedReason := Some(LoggedOut))]
              && (s.userId in db.users ==> r.db.users == db.users[s.userId := db.users[s.userId].(isActive := false)])
              && (s.userId !in db.users ==> r.db.users == db.users)
              && r.db.locks == (if IsLockedRole(s.role) && s.role in db.locks && db.locks[s.role].sessionId == Some(s.sessionId)
                                then db.locks - {s.role} else db.locks)
    ensures r.db.tools == db.tools && r.db.usage == db.usage && r.db.additions == db.additions
  {
    if !Given(header) then Done(db, "Logged out")
    else
      var id := header.value;
      if id !in db.sessions || db.sessions[id].logoutAt.Some? then Done(db, "Logged out")
      else
        var s := db.sessions[id];
        var db1 := if IsLockedRole(s.role) then ReleaseLockIfOwner(db, s.role, s.sessionId) else db;
        var db2 := db1.(sessions := db1.sessions[id := s.(logoutAt := Some(now), endedReason := Some(LoggedOut))]);
        var db3 := if s.userId in db2.users then db2.(users := db2.users[s.userId := db2.users[s.userId].(isActive := false)]) else db2;
        Done(db3, "Logged out")
  }

  /** Logging out twice is logging out once, whenever the second call happens. */
  lemma LogoutIdempotent(db: Db, header: Option<string>, now: int, later: int)
    ensures Logout(Logout(db, header, now).db, header, later).db == Logout(db, header, now).db
  {
  }

  lemma LogoutKeepsLockInvariant(db: Db, header: Option<string>, now: int)
    requires LockInvariant(db, now)
    ensures LockInvariant(Logout(db, header, now).db, now)
  {
    var r := Logout(db, header, now);
    if Given(header) && header.value in db.sessions && db.sessions[header.value].logoutAt.None? {
      var s := db.sessions[header.value];
      ReleaseKeepsInvariant(db, s.role, header.value, now);
    }
  }

  /**
   * `release_role_lock`, with the session id from its `x_session_id` query
   * parameter: releases that session's role lock if it holds it, and says
   * what it did.
   */
  function ReleaseRoleLock(db: Db, sessionId: Option<string>): (r: Outcome<string>)
    ensures r.Done?
    ensures !Given(sessionId) ==> r.db == db && r.out == "No session provided"
    ensures Given(sessionId) && sessionId.value !in db.sessions ==> r.db == db && r.out == "Session not found"
    ensures Given(sessionId) && sessionId.value in db.sessions ==>
              var s := db.sessions[sessionId.value];
              if IsLockedRole(s.role) then
                r.db == ReleaseLockIfOwner(db, s.role, s.sessionId) && r.out == "Role lock released for " + RoleName(s.role)
              else
                r.db == db && r.out == "No lock to release"
  {
    if !Given(sessionId) then Done(db, "No session provided")
    else if sessionId.value !in db.sessions then Done(db, "Session not found")
    else
      var s := db.sessions[sessionId.value];
      if IsLockedRole(s.role) then
        Done(ReleaseLockIfOwner(db, s.role, s.sessionId), "Role lock released for " + RoleName(s.role))
      else
        Done(db, "No lock to release")
  }

  /**
   * `first_login_change`: 404 for an unknown user, 401 for a wrong old
   * password, 400 when the new password is the configured default; otherwise
   * the hash of the new password is stored and the user marked active.
   */
  function FirstLoginChange(db: Db, cfg: Config, username: string, oldPassword: string, newPassword: string): (r: Outcome<string>)
    ensures UserByUsername(db.users, username).None? ==> r == Fail(HttpError(404, "User not found"))
    ensures UserByUsername(db.users, username).Some? ==>
              var uid := UserByUsername(db.users, username).value;
              if !cfg.verify(oldPassword, db.users[uid].hashedPassword) then
                r == Fail(HttpError(401, "Invalid credentials"))
              else if newPassword == cfg.defaultPassword then
                r == Fail(HttpError(400, "New password cannot be the default password"))
              else
                && r.Done? && r.out == "Password updated, please log in"
                && r.db == db.(users := r.db.users)
                && r.db.users == db.users[uid := db.users[uid].(hashedPassword := cfg.hash(newPassword), isActive := true)]
    // The stored hash is never that of the default password, unless the hash function collides.
    ensures r.Done? ==> newPassword != cfg.defaultPassword
  {
    match UserByUsername(db.users, username)
    case None => Fail(HttpError(404, "User not found"))
    case Some(uid) =>
      var user := db.users[uid];
      if !cfg.verify(oldPassword, user.hashedPassword) then Fail(HttpError(401, "Invalid credentials"))
      else if newPassword == cfg.defaultPassword then Fail(HttpError(400, "New password cannot be the default password"))
      else
        Done(db.(users := db.users[uid := user.(hashedPassword := cfg.hash(newPassword), isActive := true)]),
             "Password updated, please log in")
  }

  /**
   * After a successful first-login change the new password logs the user
   * in, and an old password that the new hash does not accept is refused.
   */
  lemma {:induction false} FirstLoginThenLogin(db: Db, cfg: Config, username: string, oldPassword: string, newPassword: string, freshId: string, now: int)
    requires FirstLoginChange(db, cfg, username, oldPassword, newPassword).Done?
    requires Fresh(db, freshId)
    requires cfg.verify(newPassword, cfg.hash(newPassword))
    ensures var after := FirstLoginChange(db, cfg, username, oldPassword, newPassword).db;
            && Login(after, cfg, username, newPassword, freshId, now).Done?
            && (!cfg.verify(oldPassword, cfg.hash(newPassword)) ==>
                  Login(after, cfg, username, oldPassword, freshId, now) == Fail(HttpError(401, "Invalid credentials")))
  {
    var uid := UserByUsername(db.users, username).value;
    var user := db.users[uid].(hashedPassword := cfg.hash(newPassword), isActive := true);
    var after := FirstLoginChange(db, cfg, username, oldPassword, newPassword).db;
    assert after.users == db.users[uid := user];
    UserByUsernameAfterUpdate(db.users, uid, user, username);
    assert UserByUsername(after.users, username) == Some(uid);
    assert after.users[uid].hashedPassword == cfg.hash(newPassword);
  }

  // ---------------------------------------------------------------------------
  // Password-reset token: base64url of the UTF-8 bytes of "email:timestamp".

  function TokenText(email: string, stamp: string): string {
    email + ":" + stamp
  }

  /** `make_reset_token`: the email and the issuing time in whole seconds. */
  function MakeResetToken(email: string, now: int): string {
    Base64Url.Encode(Utf8.Encode(TokenText(email, Text.IntToDecimal(now))))
  }

  /**
   * `parse_reset_token`: the email of a well-formed token whose age is at
   * most the configured window; `None` for a token that does not decode,
   * does not hold exactly one ':', has a non-integer timestamp, or is too old.
   */
  function ParseResetToken(token: string, cfg: Config, now: int): (r: Option<string>)
    ensures r.Some? ==> ':' !in r.value
    // Every accepted token is the encoding of "email:timestamp" issued within the window.
    ensures r.Some? ==> exists stamp: string, issued: int ::
              && Text.ParseInt(stamp) == Some(issued)
              && token == Base64Url.Encode(Utf8.Encode(TokenText(r.value, stamp)))
              && now - issued <= cfg.resetExpireMinutes * 60
  {
    match Base64Url.Decode(token)
    case None => None
    case Some(bytes) =>
      match Utf8.Decode(bytes)
      case None => None
      case Some(raw) =>
        var parts := Text.SplitOn(raw, ':');
        if |parts| != 2 then None
        else
          match Text.ParseInt(parts[1])
          case None => None
          case Some(issued) =>
            if now - issued > cfg.resetExpireMinutes * 60 then None
            else
              Base64Url.EncodeDecode(token);
              Utf8.EncodeDecode(bytes);
              assert raw == TokenText(parts[0], parts[1]);
              Some(parts[0])
  }

  lemma NoColonInDecimal(i: int)
    ensures ':' !in Text.IntToDecimal(i)
  {
    var d := Text.IntToDecimal(i);
    var n := Text.NatToDecimal(if i < 0 then -i else i);
    assert forall k :: 0 <= k < |n| ==> Text.IsDigit(n[k]);
    if i < 0 {
      assert d == "-" + n;
      assert forall k :: 0 <= k < |d| ==> d[k] == '-' || d[k] == n[k - 1];
    }
  }

  /**
   * The reset token round trip: a token made for an email without ':' is
   * read back as that email while its age is within the window, and refused
   * once it is older.
   */
  lemma ResetTokenRoundTrip(email: string, issued: int, cfg: Config, now: int)
    requires ':' !in email
    ensures now - issued <= cfg.resetExpireMinutes * 60 ==>
              ParseResetToken(MakeResetToken(email, issued), cfg, now) == Some(email)
    ensures now - issued > cfg.resetExpireMinutes * 60 ==>
              ParseResetToken(MakeResetToken(email, issued), cfg, now) == None
  {
    var stamp := Text.IntToDecimal(issued);
    var raw := TokenText(email, stamp);
    Base64Url.DecodeEncode(Utf8.Encode(raw));
    Utf8.DecodeEncode(raw);
    NoColonInDecimal(issued);
    Text.SplitOnPair(email, stamp, ':');
    Text.IntRoundTrip(issued);
  }

  /** `request_reset`'s outgoing mail: recipient, subject and body. */
  datatype Mail = Mail(to: string, subject: string, body: string)

  const ResetRequestedMessage: string := "If this email exists, a reset token was sent"

  /**
   * `request_reset`: the same answer whether or not the email is known; only
   * a known email gets a mail, carrying a token for that email issued `now`.
   */
  function RequestReset(db: Db, email: string, now: int): (r: (string, Option<Mail>))
    ensures r.0 == ResetRequestedMessage
    ensures r.1.Some? <==> exists k :: k in db.users && db.users[k].email == email
    ensures r.1.Some? ==> r.1.value == Mail(email, "Password Reset", "Your reset token: " + MakeResetToken(email, now))
  {
    match UserByEmail(db.users, email)
    case None => (ResetRequestedMessage, None)
    case Some(uid) =>
      var user := db.users[uid];
      (ResetRequestedMessage, Some(Mail(user.email, "Password Reset", "Your reset token: " + MakeResetToken(user.email, now))))
  }

  /**
   * The mailed token names its recipient: read back within the window, it
   * gives the address the mail went to.
   */
  lemma RequestResetTokenAccepted(db: Db, email: string, cfg: Config, issued: int, now: int)
    requires ':' !in email
    requires RequestReset(db, email, issued).1.Some?
    requires now - issued <= cfg.resetExpireMinutes * 60
    ensures var m := RequestReset(db, email, issued).1.value;
            && m.to == email
            && m.body == "Your reset token: " + MakeResetToken(email, issued)
            && ParseResetToken(MakeResetToken(email, issued), cfg, now) == Some(m.to)
  {
    ResetTokenRoundTrip(email, issued, cfg, now);
  }
}

=== FILE: base64url.dfy ===
/**
 * Base 64 with the URL- and filename-safe alphabet (section 5 of RFC 4648),
 * padded with '=' as Python's `base64.urlsafe_b64encode` pads. Decoding is
 * the strict, canonical direction of section 3.5: only the output of
 * `Encode` is accepted.
 */
module Base64Url {
  import opened Wrappers
  import opened Utf8

  /** The character of a 6-bit value: A-Z, a-z, 0-9, then '-' and '_'. */
  function SextetChar(v: int): (c: char)
    requires 0 <= v < 64
    ensures c != '='
  {
    if v < 26 then ('A' as int + v) as char
    else if v < 52 then ('a' as int + v - 26) as char
    else if v < 62 then ('0' as int + v - 52) as char
    else if v == 62 then '-'
    else '_'
  }

  /** The 6-bit value of an alphabet character, or `None` for any other character. */
  function SextetValue(c: char): (r: Option<int>)
    ensures r.Some? ==> 0 <= r.value < 64 && SextetChar(r.value) == c
  {
    if 'A' <= c <= 'Z' then Some(c as int - 'A' as int)
    else if 'a' <= c <= 'z' then Some(c as int - 'a' as int + 26)
    else if '0' <= c <= '9' then Some(c as int - '0' as int + 52)
    else if c == '-' then Some(62)
    else if c == '_' then Some(63)
    else None
  }

  /** Each group of up to three bytes becomes four characters, padded with '='. */
  function Encode(b: seq<Byte>): (s: string)
    ensures |s| == (|b| + 2) / 3 * 4
    ensures |b| > 0 ==> |s| >= 4
  {
    if |b| == 0 then ""
    else if |b| == 1 then EncodeOne(b[0])
    else if |b| == 2 then EncodeTwo(b[0], b[1])
    else EncodeGroup(b[0], b[1], b[2]) + Encode(b[3..])
  }

  /** A final lone byte: two characters and two '='. */
  function EncodeOne(x: Byte): (s: string)
    ensures |s| == 4 && s[2] == '=' && s[3] == '='
  {
    [SextetChar(x / 4), SextetChar(x % 4 * 16), '=', '=']
  }

  /** A final pair of bytes: three characters and one '='. */
  function EncodeTwo(x: Byte, y: Byte): (s: string)
    ensures |s| == 4 && s[2] != '=' && s[3] == '='
  {
    [SextetChar(x / 4), SextetChar(x % 4 * 16 + y / 16), SextetChar(y % 16 * 4), '=']
  }

  function EncodeGroup(x: Byte, y: Byte, z: Byte): (s: string)
    ensures |s| == 4 && '=' !in s
  {
    [SextetChar(x / 4), SextetChar(x % 4 * 16 + y / 16), SextetChar(y % 16 * 4 + z / 64), SextetChar(z % 64)]
  }

  /** Four alphabet characters back to three bytes. */
  function DecodeGroup(s: string): (r: Option<seq<Byte>>)
    requires |s| == 4
    ensures r.Some? ==> |r.value| == 3
  {
    match (SextetValue(s[0]), SextetValue(s[1]), SextetValue(s[2]), SextetValue(s[3]))
    case (Some(a), Some(b), Some(c), Some(d)) =>
      Some([a * 4 + b / 16, b % 16 * 16 + c / 4, c % 4 * 64 + d])
    case _ => None
  }

  /** The final group, which may carry one or two '=' and must have zero unused bits. */
  function DecodeLast(s: string): (r: Option<seq<Byte>>)
    requires |s| == 4
    ensures r.Some? ==> 1 <= |r.value| <= 3
  {
    if s[2] == '=' && s[3] == '=' then
      match (SextetValue(s[0]), SextetValue(s[1]))
      case (Some(a), Some(b)) => if b % 16 != 0 then None else Some([a * 4 + b / 16])
      case _ => None
    else if s[3] == '=' then
      match (SextetValue(s[0]), SextetValue(s[1]), SextetValue(s[2]))
      case (Some(a), Some(b), Some(c)) =>
        if c % 4 != 0 then None else Some([a * 4 + b / 16, b % 16 * 16 + c / 4])
      case _ => None
    else
      DecodeGroup(s)
  }

  function Decode(s: string): (r: Option<seq<Byte>>)
    decreases |s|
  {
    if |s| == 0 then Some([])
    else if |s| < 4 then None
    else if |s| == 4 then DecodeLast(s)
    else
      match (DecodeGroup(s[..4]), Decode(s[4..]))
      case (Some(g), Some(rest)) => Some(g + rest)
      case _ => None
  }

  lemma SextetRoundTrip(v: int)
    requires 0 <= v < 64
    ensures SextetValue(SextetChar(v)) == Some(v)
  {
  }

  lemma DivMod4(n: int, q: int, m: int)
    requires 0 <= m < 4 && n == q * 4 + m
    ensures n / 4 == q && n % 4 == m
  {
  }

  lemma DivMod16(n: int, q: int, m: int)
    requires 0 <= m < 16 && n == q * 16 + m
    ensures n / 16 == q && n % 16 == m
  {
  }

  lemma DivMod64(n: int, q: int, m: int)
    requires 0 <= m < 64 && n == q * 64 + m
    ensures n / 64 == q && n % 64 == m
  {
  }

  /** Three bytes split into four sextets and joined back give the same bytes. */
  lemma BytesToSextets(x: Byte, y: Byte, z: Byte)
    ensures var a, b, c, d := x / 4, x % 4 * 16 + y / 16, y % 16 * 4 + z / 64, z % 64;
            && 0 <= a < 64 && 0 <= b < 64 && 0 <= c < 64 && 0 <= d < 64
            && a * 4 + b / 16 == x && b % 16 * 16 + c / 4 == y && c % 4 * 64 + d == z
  {
    var b, c := x % 4 * 16 + y / 16, y % 16 * 4 + z / 64;
    DivMod16(b, x % 4, y / 16);
    DivMod4(c, y % 16, z / 64);
  }

  /** Four sextets joined into three bytes and split back give the same sextets. */
  lemma SextetsToBytes(a: int, b: int, c: int, d: int)
    requires 0 <= a < 64 && 0 <= b < 64 && 0 <= c < 64 && 0 <= d < 64
    ensures var x, y, z := a * 4 + b / 16, b % 16 * 16 + c / 4, c % 4 * 64 + d;
            && 0 <= x < 256 && 0 <= y < 256 && 0 <= z < 256
            && x / 4 == a && x % 4 * 16 + y / 16 == b && y % 16 * 4 + z / 64 == c && z % 64 == d
  {
    var x, y, z := a * 4 + b / 16, b % 16 * 16 + c / 4, c % 4 * 64 + d;
    DivMod4(x, a, b / 16);
    DivMod16(y, b % 16, c / 4);
    DivMod64(z, c % 4, d);
  }

  lemma DecodeEncodeGroup(x: Byte, y: Byte, z: Byte)
    ensures DecodeGroup(EncodeGroup(x, y, z)) == Some([x, y, z])
  {
    BytesToSextets(x, y, z);
    SextetRoundTrip(x / 4);
    SextetRoundTrip(x % 4 * 16 + y / 16);
    SextetRoundTrip(y % 16 * 4 + z / 64);
    SextetRoundTrip(z % 64);
  }

  lemma DecodeEncodeOne(x: Byte)
    ensures DecodeLast(EncodeOne(x)) == Some([x])
  {
    var a, b := x / 4, x % 4 * 16;
    BytesToSextets(x, 0, 0);
    DivMod16(b, x % 4, 0);
    SextetRoundTrip(a);
    SextetRoundTrip(b);
    var s := EncodeOne(x);
    assert DecodeLast(s) == Some([a * 4 + b / 16]);
  }

  lemma DecodeEncodeTwo(x: Byte, y: Byte)
    ensures DecodeLast(EncodeTwo(x, y)) == Some([x, y])
  {
    var a, b, c := x / 4, x % 4 * 16 + y / 16, y % 16 * 4;
    BytesToSextets(x, y, 0);
    DivMod4(c, y % 16, 0);
    SextetRoundTrip(a);
    SextetRoundTrip(b);
    SextetRoundTrip(c);
    var s := EncodeTwo(x, y);
    assert DecodeLast(s) == Some([a * 4 + b / 16, b % 16 * 16 + c / 4]);
  }

  /** A full group in front of the rest: encoding and decoding both work group by group. */
  lemma EncodeFront(b: seq<Byte>)
    requires |b| >= 3
    ensures Encode(b) == EncodeGroup(b[0], b[1], b[2]) + Encode(b[3..])
  {
  }

  lemma DecodeFront(g: string, rest: string, x: seq<Byte>, y: seq<Byte>)
    requires |g| == 4 && |rest| > 0 && DecodeGroup(g) == Some(x) && Decode(rest) == Some(y)
    ensures Decode(g + rest) == Some(x + y)
  {
    var s := g + rest;
    assert s[..4] == g && s[4..] == rest;
  }

  lemma DecodeEncodeThree(x: Byte, y: Byte, z: Byte)
    ensures Decode(Encode([x, y, z])) == Some([x, y, z])
  {
    var b := [x, y, z];
    var g := EncodeGroup(x, y, z);
    EncodeFront(b);
    assert b[3..] == [];
    assert Encode(b) == g;
    DecodeEncodeGroup(x, y, z);
    assert g[2] != '=' && g[3] != '=';
  }

  lemma DecodeEncodeMore(b: seq<Byte>)
    requires |b| > 3 && Decode(Encode(b[3..])) == Some(b[3..])
    ensures Decode(Encode(b)) == Some(b)
  {
    var g := FirstGroup(b);
    DecodeJoin(b, g, Encode(b[3..]));
  }

  /** The first group of a longer encoding, named without its characters. */
  lemma FirstGroup(b: seq<Byte>) returns (g: string)
    requires |b| > 3
    ensures |g| == 4 && Encode(b) == g + Encode(b[3..]) && DecodeGroup(g) == Some(b[..3])
  {
    g := EncodeGroup(b[0], b[1], b[2]);
    EncodeFront(b);
    DecodeEncodeGroup(b[0], b[1], b[2]);
    assert b[..3] == [b[0], b[1], b[2]];
  }

  /** A decoded first group and a decoded rest make the whole. */
  lemma DecodeJoin(b: seq<Byte>, g: string, rest: string)
    requires |b| > 3 && |g| == 4 && |rest| > 0
    requires Encode(b) == g + rest && DecodeGroup(g) == Some(b[..3]) && Decode(rest) == Some(b[3..])
    ensures Decode(Encode(b)) == Some(b)
  {
    DecodeFront(g, rest, b[..3], b[3..]);
    assert b == b[..3] + b[3..];
  }

  /** `Decode(Encode(b)) == Some(b)` for every byte sequence. */
  lemma {:induction false} DecodeEncode(b: seq<Byte>)
    ensures Decode(Encode(b)) == Some(b)
    decreases |b|
  {
    if |b| == 1 {
      assert b == [b[0]];
      DecodeEncodeOne(b[0]);
    } else if |b| == 2 {
      assert b == [b[0], b[1]];
      DecodeEncodeTwo(b[0], b[1]);
    } else if |b| == 3 {
      assert b == [b[0], b[1], b[2]];
      DecodeEncodeThree(b[0], b[1], b[2]);
    } else if |b| > 3 {
      DecodeEncode(b[3..]);
      DecodeEncodeMore(b);
    }
  }

  lemma EncodeDecodeGroup(s: string)
    requires |s| == 4 && DecodeGroup(s).Some?
    ensures EncodeGroup(DecodeGroup(s).value[0], DecodeGroup(s).value[1], DecodeGroup(s).value[2]) == s
  {
    var a, b, c, d := SextetValue(s[0]).value, SextetValue(s[1]).value, SextetValue(s[2]).value, SextetValue(s[3]).value;
    SextetsToBytes(a, b, c, d);
    var x, y, z := a * 4 + b / 16, b % 16 * 16 + c / 4, c % 4 * 64 + d;
    assert DecodeGroup(s).value == [x, y, z];
    assert EncodeGroup(x, y, z) == [SextetChar(a), SextetChar(b), SextetChar(c), SextetChar(d)];
  }

  lemma EncodeDecodeOne(s: string)
    requires |s| == 4 && s[2] == '=' && s[3] == '=' && Decode(s).Some?
    ensures Encode(Decode(s).value) == s
  {
    var a, b := SextetValue(s[0]).value, SextetValue(s[1]).value;
    assert b % 16 == 0;
    SextetsToBytes(a, b, 0, 0);
    var x := a * 4 + b / 16;
    assert Decode(s).value == [x];
    assert Encode([x]) == EncodeOne(x);
    assert x % 4 * 16 == b;
    assert EncodeOne(x) == [SextetChar(a), SextetChar(b), '=', '='];
  }

  lemma EncodeDecodeTwo(s: string)
    requires |s| == 4 && s[2] != '=' && s[3] == '=' && Decode(s).Some?
    ensures Encode(Decode(s).value) == s
  {
    var a, b, c := SextetValue(s[0]).value, SextetValue(s[1]).value, SextetValue(s[2]).value;
    assert c % 4 == 0;
    SextetsToBytes(a, b, c, 0);
    var x, y := a * 4 + b / 16, b % 16 * 16 + c / 4;
    assert Decode(s).value == [x, y];
    assert Encode([x, y]) == EncodeTwo(x, y);
    assert y % 16 * 4 == c;
    assert EncodeTwo(x, y) == [SextetChar(a), SextetChar(b), SextetChar(c), '='];
  }

  lemma EncodeDecodeThree(s: string)
    requires |s| == 4 && s[3] != '=' && Decode(s).Some?
    ensures Encode(Decode(s).value) == s
  {
    var r := Decode(s).value;
    assert r == DecodeGroup(s).value;
    EncodeDecodeGroup(s);
    assert r == [r[0], r[1], r[2]] + r[3..];
  }

  lemma EncodeDecodeMore(s: string)
    requires |s| > 4 && Decode(s).Some? && Decode(s[4..]).Some? && Encode(Decode(s[4..]).value) == s[4..]
    ensures Encode(Decode(s).value) == s
  {
    var g := DecodeGroup(s[..4]).value;
    var rest := Decode(s[4..]).value;
    EncodeDecodeGroup(s[..4]);
    var r := g + rest;
    assert Decode(s).value == r;
    assert r[3..] == rest;
    assert s == s[..4] + s[4..];
  }

  /** Canonicity: a string that decodes is the encoding of what it decodes to. */
  lemma {:induction false} EncodeDecode(s: string)
    requires Decode(s).Some?
    ensures Encode(Decode(s).value) == s
    decreases |s|
  {
    if |s| == 4 {
      if s[2] == '=' && s[3] == '=' {
        EncodeDecodeOne(s);
      } else if s[3] == '=' {
        EncodeDecodeTwo(s);
      } else {
        EncodeDecodeThree(s);
      }
    } else if |s| > 4 {
      EncodeDecode(s[4..]);
      EncodeDecodeMore(s);
    }
  }
}

=== FILE: create_user_page.dfy ===
/**
 * `CreateUserPage`: the officer's form for a new account. The phone field
 * keeps only digits as it is typed; submitting checks that every field is
 * filled, then that the phone number has ten digits, and posts a payload
 * whose e-mail address is derived from the user id.
 */
module CreateUserPage {
  import opened Wrappers
  import opened Models
  import opened Text
  import Lists
  import opened Ui

  /** The form's fields; the role select starts at OFFICER and offers exactly the three roles. */
  datatype Form = Form(name: string, phone: string, userId: string, password: string, role: Role)

  function Initial(): (f: Form)
    ensures f.role == Officer && f.name == f.phone == f.userId == f.password == ""
  {
    Form("", "", "", "", Officer)
  }

  /** The phone input's `onChange`: every character that is not an ASCII digit is removed. */
  function SanitizePhone(typed: string): (r: string)
    ensures AllDigits(r) && |r| <= |typed|
    ensures Lists.IsSubsequence(r, typed)
    ensures AllDigits(typed) ==> r == typed
  {
    DigitsSubsequence(typed);
    DigitsOf(typed)
  }

  lemma {:induction false} DigitsSubsequence(s: string)
    ensures Lists.IsSubsequence(DigitsOf(s), s)
  {
    if |s| > 0 {
      DigitsSubsequence(s[1..]);
      if IsDigit(s[0]) {
        assert DigitsOf(s) == [s[0]] + DigitsOf(s[1..]);
      } else {
        Lists.SubsequenceDropHead(DigitsOf(s), s);
      }
    }
  }

  /** Sanitising twice changes nothing more. */
  lemma SanitizeIdempotent(typed: string)
    ensures SanitizePhone(SanitizePhone(typed)) == SanitizePhone(typed)
  {
  }

  /** What `POST /api/user/create` carries. */
  datatype Payload = Payload(username: string, fullName: string, email: string, contactNumber: string, role: Role, password: string)

  const EmailDomain: string := "@example.com"

  /** The derived address: the user id followed by "@example.com". */
  function Email(userId: string): (r: string)
    ensures |r| == |userId| + |EmailDomain| && r[..|userId|] == userId && r[|userId|..] == EmailDomain
  {
    userId + EmailDomain
  }

  /** Distinct user ids give distinct addresses, so a duplicate e-mail implies a duplicate username. */
  lemma EmailInjective(a: string, b: string)
    requires Email(a) == Email(b)
    ensures a == b
  {
    assert |a| == |b|;
    assert a == Email(a)[..|a|];
  }

  /** The body: user id as username, name as full name, phone as contact number. */
  function PayloadOf(f: Form): Payload {
    Payload(f.userId, f.name, Email(f.userId), f.phone, f.role, f.password)
  }

  /** Reads the form back from a payload whose address carries the derived domain. */
  function FormOf(p: Payload): (r: Option<Form>)
    ensures r.Some? ==> PayloadOf(r.value) == p
  {
    var n := |p.username|;
    if |p.email| == n + |EmailDomain| && p.email[..n] == p.username && p.email[n..] == EmailDomain then
      assert p.email == p.email[..n] + p.email[n..];
      Some(Form(p.fullName, p.contactNumber, p.username, p.password, p.role))
    else None
  }

  /** The payload keeps every field of the form. */
  lemma PayloadRoundTrip(f: Form)
    ensures FormOf(PayloadOf(f)) == Some(f)
  {
  }

  /**
   * `handleCreate`'s checks, in order: "All fields are required." when any
   * of name, phone, user id and password is empty, then "Phone number must
   * be exactly 10 digits."; otherwise the payload to post. JavaScript's
   * `isNaN(phone)` is stated as "not all ASCII digits", which is how it
   * behaves on every value the sanitised field can hold.
   */
  function Check(f: Form): (r: Result<Payload, string>)
    ensures r.Err? <==> "" in [f.name, f.phone, f.userId, f.password] || |f.phone| != 10 || !AllDigits(f.phone)
    ensures "" in [f.name, f.phone, f.userId, f.password] ==> r == Err("All fields are required.")
    ensures r.Ok? ==> r.value == PayloadOf(f) && |r.value.contactNumber| == 10 && AllDigits(r.value.contactNumber)
  {
    if f.name == "" || f.phone == "" || f.userId == "" || f.password == "" then Err("All fields are required.")
    else if |f.phone| != 10 || !AllDigits(f.phone) then Err("Phone number must be exactly 10 digits.")
    else Ok(PayloadOf(f))
  }

  /** With the sanitiser in front, the phone check passes exactly when ten digits were typed. */
  lemma SanitizedPhoneCheck(f: Form, typed: string)
    requires f.name != "" && f.userId != "" && f.password != ""
    ensures Check(f.(phone := SanitizePhone(typed))).Ok? <==> |DigitsOf(typed)| == 10
  {
  }

  /** The alert after the request: the server's detail or "Failed to create user", a success message, or the connection error. */
  function Alert(reply: Reply): (r: string)
    ensures r != ""
    ensures reply.Refused? && Truthy(reply.detail) ==> r == reply.detail.value
  {
    match reply
    case Accepted => "User created successfully!"
    case Refused(detail) => OrElse(detail, "Failed to create user")
    case Unreadable => "Error connecting to server"
  }
}

=== FILE: filter_bar.dfy ===
/**
 * `FilterBar`: a controlled search box and date input. The parent owns the
 * search text and the date and passes their setters; the bar updates them
 * through those setters and calls the parent's `onSearch(term, date)` or
 * `onClear()` when those props are given. The bar calls the setters without
 * checking them, so a parent that passes none makes every edit throw a
 * `TypeError` ("setSearchQuery is not a function").
 */
module FilterBar {
  import opened Wrappers

  /** The parent's state the bar displays and edits. */
  datatype Bar = Bar(search: string, date: string)

  /**
   * Which optional props the parent passed. `hasSetters` covers both
   * `setSearchQuery` and `setDateFilter`: every parent passes both or neither.
   */
  datatype Props = Props(hasSetters: bool, hasOnSearch: bool, hasOnClear: bool, showDateFilter: Option<bool>)

  /** A call into the parent. */
  datatype Callback = OnSearch(term: string, date: string) | OnClear

  /**
   * The result of one event: the new state, the calls made, in order, and
   * whether the handler threw. React reports an error thrown by an event
   * handler and keeps the page running, so later events are still handled.
   */
  datatype Fired = Fired(bar: Bar, calls: seq<Callback>, thrown: bool)

  /** A handler whose first statement calls a missing setter: nothing changes and nothing is called. */
  function Thrown(bar: Bar): (r: Fired)
    ensures r.thrown && r.bar == bar && r.calls == []
  {
    Fired(bar, [], true)
  }

  /** `onSearch(term, date)` when the prop is given, nothing otherwise. */
  function SearchCall(props: Props, term: string, date: string): (r: seq<Callback>)
    ensures r == [] <==> !props.hasOnSearch
  {
    if props.hasOnSearch then [OnSearch(term, date)] else []
  }

  /** `handleSearchChange`: the new text is stored and searched for with the current date. */
  function SearchChange(props: Props, bar: Bar, value: string): (r: Fired)
    ensures r.thrown <==> !props.hasSetters
    ensures !r.thrown ==> r.bar == bar.(search := value) && r.calls == SearchCall(props, value, bar.date)
  {
    if !props.hasSetters then Thrown(bar)
    else Fired(bar.(search := value), SearchCall(props, value, bar.date), false)
  }

  /** `handleDateChange`: the new date is stored and searched for with the current text. */
  function DateChange(props: Props, bar: Bar, value: string): (r: Fired)
    ensures r.thrown <==> !props.hasSetters
    ensures !r.thrown ==> r.bar == bar.(date := value) && r.calls == SearchCall(props, bar.search, value)
  {
    if !props.hasSetters then Thrown(bar)
    else Fired(bar.(date := value), SearchCall(props, bar.search, value), false)
  }

  /** `handleClear`: both fields emptied, then `onClear()` when given; never `onSearch`. */
  function Clear(props: Props, bar: Bar): (r: Fired)
    ensures r.thrown <==> !props.hasSetters
    ensures !r.thrown ==> r.bar == Bar("", "") && r.calls == if props.hasOnClear then [OnClear] else []
  {
    if !props.hasSetters then Thrown(bar)
    else Fired(Bar("", ""), if props.hasOnClear then [OnClear] else [], false)
  }

  /** `handleKeyPress`: Enter searches with the current fields; any other key does nothing. */
  function KeyPress(props: Props, bar: Bar, key: string): (r: Fired)
    ensures r.bar == bar && !r.thrown
    ensures r.calls == if key == "Enter" then SearchCall(props, bar.search, bar.date) else []
  {
    Fired(bar, if key == "Enter" then SearchCall(props, bar.search, bar.date) else [], false)
  }

  /** The search button: the same call as Enter. */
  function SearchButton(props: Props, bar: Bar): (r: Fired)
    ensures r == KeyPress(props, bar, "Enter")
  {
    Fired(bar, SearchCall(props, bar.search, bar.date), false)
  }

  /** The date input is rendered when `showDateFilter` is true or not passed at all. */
  predicate ShowsDateInput(props: Props) {
    props.showDateFilter.GetOr(true)
  }

  /** The events of the bar. */
  datatype Event = Typed(value: string) | Dated(value: string) | Cleared | Key(key: string) | Button {
    /** Typing, picking a date and Clear go through the parent's setters. */
    predicate Edits() {
      Typed? || Dated? || Cleared?
    }
  }

  function Handle(props: Props, bar: Bar, e: Event): Fired {
    match e
    case Typed(v) => SearchChange(props, bar, v)
    case Dated(v) => DateChange(props, bar, v)
    case Cleared => Clear(props, bar)
    case Key(k) => KeyPress(props, bar, k)
    case Button => SearchButton(props, bar)
  }

  /** Events handled in turn: the bar's final state, every call made, in order, and whether any handler threw. */
  function Run(props: Props, bar: Bar, events: seq<Event>): (r: Fired)
    decreases |events|
  {
    if |events| == 0 then Fired(bar, [], false)
    else
      var f := Handle(props, bar, events[0]);
      var rest := Run(props, f.bar, events[1..]);
      Fired(rest.bar, f.calls + rest.calls, f.thrown || rest.thrown)
  }

  /** A handler throws exactly when it edits and the parent passed no setters; a thrown handler changes nothing. */
  lemma ThrowsExactly(props: Props, bar: Bar, e: Event)
    ensures var f := Handle(props, bar, e);
            && (f.thrown <==> !props.hasSetters && e.Edits())
            && (f.thrown ==> f.bar == bar && f.calls == [])
  {
  }

  /**
   * Without setters the parent's search text and date never change, and some
   * handler throws exactly when the user edits at least once.
   */
  lemma {:induction false} StuckWithoutSetters(props: Props, bar: Bar, events: seq<Event>)
    requires !props.hasSetters
    ensures Run(props, bar, events).bar == bar
    ensures Run(props, bar, events).thrown <==> exists i :: 0 <= i < |events| && events[i].Edits()
    decreases |events|
  {
    if |events| > 0 {
      ThrowsExactly(props, bar, events[0]);
      var f := Handle(props, bar, events[0]);
      StuckWithoutSetters(props, f.bar, events[1..]);
      if events[0].Edits() {
        assert Run(props, bar, events).thrown;
      } else {
        assert (exists i :: 0 <= i < |events| && events[i].Edits()) <==>
               (exists i :: 0 <= i < |events[1..]| && events[1..][i].Edits()) by {
          forall i | 0 <= i < |events[1..]| ensures events[1..][i] == events[i + 1] {}
          if exists i :: 0 <= i < |events| && events[i].Edits() {
            var i :| 0 <= i < |events| && events[i].Edits();
            assert events[1..][i - 1].Edits();
          }
        }
      }
    }
  }

  /** A parent that passes neither `onSearch` nor `onClear` is never called, whatever the user does. */
  lemma {:induction false} SilentWithoutProps(props: Props, bar: Bar, events: seq<Event>)
    requires !props.hasOnSearch && !props.hasOnClear
    ensures Run(props, bar, events).calls == []
    decreases |events|
  {
    if |events| > 0 {
      var f := Handle(props, bar, events[0]);
      NoSearchWithoutProp(props, bar, events[0]);
      SilentWithoutProps(props, f.bar, events[1..]);
    }
  }

  /**
   * Whatever the event, a search call carries exactly the text and date the
   * bar shows afterwards, and at most one call is made.
   */
  lemma CallsSeeNewState(props: Props, bar: Bar, e: Event)
    ensures var f := Handle(props, bar, e);
            && |f.calls| <= 1
            && forall k :: 0 <= k < |f.calls| && f.calls[k].OnSearch? ==>
                 f.calls[k] == OnSearch(f.bar.search, f.bar.date)
  {
  }

  /** Without `onSearch` no event ever searches, and only Clear can call the parent. */
  lemma NoSearchWithoutProp(props: Props, bar: Bar, e: Event)
    requires !props.hasOnSearch
    ensures var f := Handle(props, bar, e);
            forall k :: 0 <= k < |f.calls| ==> f.calls[k] == OnClear && e.Cleared?
  {
  }

  /** After a Clear that does not throw, the parent's filter sees an empty term and an empty date. */
  lemma ClearEmpties(props: Props, bar: Bar)
    ensures !Clear(props, bar).thrown ==>
              Handle(props, Clear(props, bar).bar, Key("Enter")).calls == SearchCall(props, "", "")
  {
  }
}

=== FILE: inventory_text.dfy ===
/**
 * The pasted-inventory importer (`scripts/import_tools_from_text.py`):
 * `parse_inventory` turns text into tool records, one per data line, and
 * `import_tools` upserts them into the inventory table by tool name.
 */
module InventoryText {
  import opened Wrappers
  import opened Models
  import opened Store
  import opened Text
  import Lists

  // ---------------------------------------------------------------------------
  // Lines.

  /** The characters at which Python's `str.splitlines` ends a line. */
  predicate IsLineBreak(c: char) {
    c == '\n' || c == '\r' || c == '\U{000B}' || c == '\U{000C}' || ('\U{001C}' <= c <= '\U{001E}')
    || c == '\U{0085}' || c == '\U{2028}' || c == '\U{2029}'
  }

  predicate NotBreak(c: char) {
    !IsLineBreak(c)
  }

  /** All pieces, one after the other. */
  function Flatten(ps: seq<string>): string {
    if |ps| == 0 then "" else ps[0] + Flatten(ps[1..])
  }

  /**
   * The text cut at every line-break character. Compared with
   * `splitlines`, a "\r\n" pair gives an extra empty piece and a final break
   * an extra empty last piece; blank pieces are dropped next, so the
   * difference never shows.
   */
  function BreakPieces(s: string): (r: seq<string>)
    ensures |r| >= 1
    decreases |s|
  {
    if |s| == 0 then [""]
    else
      var rest := BreakPieces(s[1..]);
      if IsLineBreak(s[0]) then [""] + rest
      else [[s[0]] + rest[0]] + rest[1..]
  }

  /** No piece holds a line break, and the pieces put together are the text without its line breaks. */
  lemma {:induction false} BreakPiecesSpec(s: string)
    ensures var r := BreakPieces(s);
            && (forall k :: 0 <= k < |r| ==> forall i :: 0 <= i < |r[k]| ==> NotBreak(r[k][i]))
            && Flatten(r) == Lists.Filter(s, NotBreak)
    decreases |s|
  {
    if |s| > 0 {
      BreakPiecesSpec(s[1..]);
      var rest := BreakPieces(s[1..]);
      if IsLineBreak(s[0]) {
        assert ([""] + rest)[1..] == rest;
      } else {
        var r := [[s[0]] + rest[0]] + rest[1..];
        assert r[1..] == rest[1..];
        assert Flatten(rest) == rest[0] + Flatten(rest[1..]);
        forall k | 0 <= k < |r| ensures forall i :: 0 <= i < |r[k]| ==> NotBreak(r[k][i]) {
          if k > 0 {
            assert r[k] == rest[k];
          }
        }
      }
    }
  }

  /** Pieces of two texts joined by a line break: the pieces of each, side by side. */
  lemma BreakPiecesAppend(a: string, b: string)
    ensures BreakPieces(a + "\n" + b) == BreakPieces(a) + BreakPieces(b)
  {
    BreakPiecesAround(a, '\n', b);
  }

  lemma {:induction false} BreakPiecesAround(a: string, c: char, b: string)
    requires IsLineBreak(c)
    ensures BreakPieces(a + [c] + b) == BreakPieces(a) + BreakPieces(b)
    decreases |a|
  {
    if |a| == 0 {
      assert a + [c] + b == [c] + b;
      BreakPiecesCons(c, b);
    } else {
      var t := a[1..] + [c] + b;
      assert a + [c] + b == [a[0]] + t;
      assert a == [a[0]] + a[1..];
      BreakPiecesAround(a[1..], c, b);
      BreakPiecesCons(a[0], t);
      BreakPiecesCons(a[0], a[1..]);
      JoinFront(a[0], BreakPieces(a[1..]), BreakPieces(b));
    }
  }

  /** The first piece grows by one character whether or not more pieces follow. */
  lemma JoinFront(c: char, pa: seq<string>, pb: seq<string>)
    requires |pa| >= 1
    ensures [[c] + (pa + pb)[0]] + (pa + pb)[1..] == ([[c] + pa[0]] + pa[1..]) + pb
  {
    assert (pa + pb)[0] == pa[0] && (pa + pb)[1..] == pa[1..] + pb;
  }

  /** One step of the cut: a line break starts a new piece, any other character joins the first piece. */
  lemma BreakPiecesCons(c: char, t: string)
    ensures BreakPieces([c] + t) ==
              if IsLineBreak(c) then [""] + BreakPieces(t)
              else [[c] + BreakPieces(t)[0]] + BreakPieces(t)[1..]
  {
    assert ([c] + t)[1..] == t;
  }

  predicate NotBlankLine(l: string) {
    !Blank(l, IsPySpace)
  }

  /** `[l for l in text.splitlines() if l.strip()]`. */
  function Lines(text: string): (r: seq<string>)
    ensures forall k :: 0 <= k < |r| ==> NotBlankLine(r[k])
  {
    Lists.Filter(BreakPieces(text), NotBlankLine)
  }

  // ---------------------------------------------------------------------------
  // Fields.

  /** The length of the run of spaces at the front of `s`. */
  function SpaceRun(s: string): (n: nat)
    ensures n <= |s|
    ensures forall k :: 0 <= k < n ==> s[k] == ' '
    ensures n == |s| || s[n] != ' '
  {
    if |s| == 0 || s[0] != ' ' then 0 else 1 + SpaceRun(s[1..])
  }

  /** Neither a tab nor two spaces in a row: text `RawFields` never cuts. */
  predicate Cell(x: string) {
    && (forall i :: 0 <= i < |x| ==> x[i] != '\t')
    && (forall i :: 0 < i < |x| ==> !(x[i - 1] == ' ' && x[i] == ' '))
  }

  /**
   * `re.split(r'\t| {2,}', line)`: the text between separators, where a
   * separator is one tab or a maximal run of two or more spaces.
   */
  function RawFields(s: string): (r: seq<string>)
    ensures |r| >= 1
    ensures forall k :: 0 <= k < |r| ==> Cell(r[k])
    ensures |r[0]| > 0 ==> |s| > 0 && r[0][0] == s[0]
    decreases |s|
  {
    if |s| == 0 then [""]
    else if s[0] == '\t' then [""] + RawFields(s[1..])
    else if |s| >= 2 && s[0] == ' ' && s[1] == ' ' then [""] + RawFields(s[SpaceRun(s)..])
    else
      var rest := RawFields(s[1..]);
      var r := [[s[0]] + rest[0]] + rest[1..];
      assert Cell(r[0]) by {
        var x := r[0];
        forall i | 0 < i < |x| ensures !(x[i - 1] == ' ' && x[i] == ' ') {
          if i == 1 {
            assert x[1] == rest[0][0] == s[1];
          } else {
            assert x[i - 1] == rest[0][i - 2] && x[i] == rest[0][i - 1];
          }
        }
      }
      assert forall k :: 1 <= k < |r| ==> r[k] == rest[k];
      r
  }

  /** A cell in front of a tab-led text: the cell is the first field, the rest follow. */
  lemma {:induction false} RawFieldsCell(a: string, t: string)
    requires Cell(a) && (t == "" || t[0] == '\t')
    ensures RawFields(a + t) == [a + RawFields(t)[0]] + RawFields(t)[1..]
    decreases |a|
  {
    if |a| == 0 {
      assert a + t == t;
    } else {
      var s := a + t;
      assert s[0] == a[0] && s[1..] == a[1..] + t;
      assert Cell(a[1..]) by {
        forall i | 0 < i < |a[1..]| ensures !(a[1..][i - 1] == ' ' && a[1..][i] == ' ') {
          assert a[1..][i - 1] == a[i] && a[1..][i] == a[i + 1];
        }
      }
      RawFieldsCell(a[1..], t);
      if a[0] == ' ' && |s| >= 2 {
        assert s[1] != ' ' by {
          if |a| >= 2 { assert s[1] == a[1]; } else { assert s[1] == t[0]; }
        }
      }
      assert [a[0]] + (a[1..] + RawFields(t)[0]) == a + RawFields(t)[0];
    }
  }

  /** Splitting cells joined with tabs gives the cells back. */
  lemma {:induction false} RawFieldsJoin(cells: seq<string>)
    requires |cells| >= 1 && forall k :: 0 <= k < |cells| ==> Cell(cells[k])
    ensures RawFields(JoinWith(cells, '\t')) == cells
    decreases |cells|
  {
    if |cells| == 1 {
      RawFieldsCell(cells[0], "");
      assert cells[0] + "" == cells[0];
    } else {
      var rest := JoinWith(cells[1..], '\t');
      RawFieldsJoin(cells[1..]);
      var t := ['\t'] + rest;
      assert t[1..] == rest;
      RawFieldsCell(cells[0], t);
      assert JoinWith(cells, '\t') == cells[0] + t;
      assert RawFields(t) == [""] + cells[1..];
      assert cells[0] + "" == cells[0];
      assert cells == [cells[0]] + cells[1..];
    }
  }

  function Strip(x: string): string {
    Trim(x, IsPySpace)
  }

  predicate NonEmpty(x: string) {
    x != ""
  }

  /** `[p.strip() for p in re.split(...) if p.strip()]`. */
  function Parts(line: string): (r: seq<string>)
    ensures forall k :: 0 <= k < |r| ==> r[k] != ""
  {
    Lists.Filter(Lists.MapSeq(RawFields(line), Strip), NonEmpty)
  }

  /** A non-empty text with no white space at either end is left alone by `strip`. */
  lemma StripClean(x: string)
    requires x != "" && !IsPySpace(x[0]) && !IsPySpace(x[|x| - 1])
    ensures Strip(x) == x
  {
    assert LeadingSpace(x, IsPySpace) == 0;
    assert x[0..] == x;
    assert TrailingSpace(x, IsPySpace) == 0;
  }

  // ---------------------------------------------------------------------------
  // Records.

  /** One parsed inventory line; the serial number is not kept. */
  datatype Record = Record(
    name: string,
    rangeMm: string,
    identificationCode: string,
    make: string,
    quantity: int,
    location: string,
    gauge: string,
    remarks: string)

  /** `parts[i] if len(parts) > i else ''`. */
  function Field(parts: seq<string>, i: nat): (r: string)
    ensures i < |parts| ==> r == parts[i]
    ensures i >= |parts| ==> r == ""
  {
    if |parts| > i then parts[i] else ""
  }

  /**
   * `int(re.sub(r'[^0-9]', '', q))`, with 0 when the conversion fails: the
   * number the ASCII digits of `q` spell, or 0 when it has none.
   */
  function Quantity(q: string): (n: int)
    ensures n >= 0
    ensures n == if DigitsOf(q) == "" then 0 else DecimalValue(DigitsOf(q))
  {
    match ParseInt(DigitsOf(q))
    case Some(v) => v
    case None => 0
  }

  /**
   * One line: skipped (`None`) with fewer than three parts; otherwise the
   * parts map by position after the serial number, missing ones as "".
   */
  function ParseLine(line: string): (r: Option<Record>)
    ensures r.None? <==> |Parts(line)| < 3
    ensures r.Some? ==>
              var ps := Parts(line);
              && r.value.name == ps[1] && r.value.rangeMm == ps[2]
              && r.value.identificationCode == Field(ps, 3) && r.value.make == Field(ps, 4)
              && r.value.quantity == Quantity(Field(ps, 5))
              && r.value.location == Field(ps, 6) && r.value.gauge == Field(ps, 7)
              && r.value.remarks == Field(ps, 8)
              && r.value.name != "" && r.value.quantity >= 0
  {
    var parts := Parts(line);
    if |parts| < 3 then None
    else
      Some(Record(Field(parts, 1), Field(parts, 2), Field(parts, 3), Field(parts, 4),
                  Quantity(Field(parts, 5)), Field(parts, 6), Field(parts, 7), Field(parts, 8)))
  }

  /** The records of the lines, in order, skipping lines that are not data. */
  function ParseLines(ls: seq<string>): (r: seq<Record>)
    ensures |r| <= |ls|
  {
    if |ls| == 0 then []
    else
      match ParseLine(ls[0])
      case Some(rec) => [rec] + ParseLines(ls[1..])
      case None => ParseLines(ls[1..])
  }

  predicate IsDataLine(l: string) {
    |Parts(l)| >= 3
  }

  /** Exactly one record per data line, in input order. */
  lemma {:induction false} ParseLinesSpec(ls: seq<string>)
    ensures var data := Lists.Filter(ls, IsDataLine);
            && |ParseLines(ls)| == |data|
            && forall i :: 0 <= i < |data| ==> ParseLine(data[i]) == Some(ParseLines(ls)[i])
  {
    if |ls| > 0 {
      ParseLinesSpec(ls[1..]);
      var data := Lists.Filter(ls, IsDataLine);
      var rest := Lists.Filter(ls[1..], IsDataLine);
      var pl, pr := ParseLines(ls), ParseLines(ls[1..]);
      if IsDataLine(ls[0]) {
        assert data == [ls[0]] + rest;
        assert pl == [ParseLine(ls[0]).value] + pr;
        ParsedFront(ParseLine, ls[0], ParseLine(ls[0]).value, rest, pr);
      } else {
        assert data == rest;
        assert pl == pr;
      }
    }
  }

  /** A parsed item in front of items already matched with their results. */
  lemma ParsedFront<T, U>(f: T -> Option<U>, l: T, rec: U, rest: seq<T>, pr: seq<U>)
    requires f(l) == Some(rec)
    requires |rest| == |pr| && forall i :: 0 <= i < |rest| ==> f(rest[i]) == Some(pr[i])
    ensures forall i :: 0 <= i < |rest| + 1 ==> f(([l] + rest)[i]) == Some(([rec] + pr)[i])
  {
    forall i | 0 <= i < |rest| + 1 ensures f(([l] + rest)[i]) == Some(([rec] + pr)[i]) {
      if i > 0 {
        assert ([l] + rest)[i] == rest[i - 1] && ([rec] + pr)[i] == pr[i - 1];
      }
    }
  }

  lemma {:induction false} ParseLinesAppend(a: seq<string>, b: seq<string>)
    ensures ParseLines(a + b) == ParseLines(a) + ParseLines(b)
  {
    if |a| == 0 {
      assert a + b == b;
    } else {
      assert (a + b)[0] == a[0] && (a + b)[1..] == a[1..] + b;
      ParseLinesAppend(a[1..], b);
    }
  }

  /** `parse_inventory`. */
  function ParseInventory(text: string): (r: seq<Record>)
    ensures forall i :: 0 <= i < |r| ==> r[i].name != "" && r[i].quantity >= 0
  {
    var ls := Lines(text);
    ParseLinesSpec(ls);
    var r := ParseLines(ls);
    forall i | 0 <= i < |r| ensures r[i].name != "" && r[i].quantity >= 0 {
      assert ParseLine(Lists.Filter(ls, IsDataLine)[i]) == Some(r[i]);
    }
    r
  }

  /** Lines are independent: parsing two texts joined by a line break parses each in turn. */
  lemma ParseInventoryAppend(a: string, b: string)
    ensures ParseInventory(a + "\n" + b) == ParseInventory(a) + ParseInventory(b)
  {
    BreakPiecesAppend(a, b);
    Lists.FilterAppend(BreakPieces(a), BreakPieces(b), NotBlankLine);
    ParseLinesAppend(Lines(a), Lines(b));
  }

  /** Text with no visible character holds no records. */
  lemma BlankTextNoRecords(text: string)
    requires Blank(text, IsPySpace)
    ensures ParseInventory(text) == []
  {
    var ps := BreakPieces(text);
    BreakPiecesSpec(text);
    Lists.FilterSpec(ps, NotBlankLine);
    Lists.FilterSpec(text, NotBreak);
    forall k | 0 <= k < |ps| ensures !NotBlankLine(ps[k]) {
      FlattenMember(ps, k);
      forall i | 0 <= i < |ps[k]| ensures IsPySpace(ps[k][i]) {
        assert ps[k][i] in Flatten(ps);
      }
    }
  }

  /** Every character of a piece is a character of the flattened pieces. */
  lemma {:induction false} FlattenMember(ps: seq<string>, k: int)
    requires 0 <= k < |ps|
    ensures forall i :: 0 <= i < |ps[k]| ==> ps[k][i] in Flatten(ps)
  {
    if k > 0 {
      FlattenMember(ps[1..], k - 1);
      assert Flatten(ps) == ps[0] + Flatten(ps[1..]);
    } else {
      assert Flatten(ps) == ps[0] + Flatten(ps[1..]);
      forall i | 0 <= i < |ps[0]| ensures ps[0][i] in Flatten(ps) {
        assert Flatten(ps)[i] == ps[0][i];
      }
    }
  }

  // ---------------------------------------------------------------------------
  // Formatting a line back.

  /** Text a column can hold and read back unchanged: non-empty, no cut, no white space at the ends. */
  predicate Column(x: string) {
    x != "" && Cell(x) && !IsPySpace(x[0]) && !IsPySpace(x[|x| - 1])
  }

  predicate Printable(rec: Record) {
    && Column(rec.name) && Column(rec.rangeMm) && Column(rec.identificationCode) && Column(rec.make)
    && Column(rec.location) && Column(rec.gauge) && Column(rec.remarks)
    && rec.quantity >= 0
  }

  /** A tab-separated inventory line, as the parser reads it. */
  function FormatLine(serial: string, rec: Record): string
    requires rec.quantity >= 0
  {
    JoinWith([serial, rec.name, rec.rangeMm, rec.identificationCode, rec.make,
              NatToDecimal(rec.quantity), rec.location, rec.gauge, rec.remarks], '\t')
  }

  /** Columns joined with tabs come back as the parts of the line. */
  lemma PartsOfColumns(cells: seq<string>)
    requires |cells| >= 1 && forall k :: 0 <= k < |cells| ==> Column(cells[k])
    ensures Parts(JoinWith(cells, '\t')) == cells
  {
    RawFieldsJoin(cells);
    StripColumns(cells);
    Lists.FilterKeepsAll(cells, NonEmpty);
  }

  lemma StripColumns(cells: seq<string>)
    requires forall k :: 0 <= k < |cells| ==> Column(cells[k])
    ensures Lists.MapSeq(cells, Strip) == cells
  {
    var stripped := Lists.MapSeq(cells, Strip);
    forall k | 0 <= k < |cells| ensures stripped[k] == cells[k] {
      StripClean(cells[k]);
    }
  }

  /** The quantity column reads back the number it was written from. */
  lemma QuantityOfDecimal(n: nat)
    ensures Column(NatToDecimal(n))
    ensures Quantity(NatToDecimal(n)) == n
  {
    var q := NatToDecimal(n);
    assert forall i :: 0 <= i < |q| ==> IsDigit(q[i]);
    DecimalRoundTrip(n);
  }

  /** Every record of clean columns survives formatting and parsing unchanged. */
  lemma ParseFormatLine(serial: string, rec: Record)
    requires Column(serial) && Printable(rec)
    ensures ParseLine(FormatLine(serial, rec)) == Some(rec)
  {
    var q := NatToDecimal(rec.quantity);
    var cells := [serial, rec.name, rec.rangeMm, rec.identificationCode, rec.make,
                  q, rec.location, rec.gauge, rec.remarks];
    QuantityOfDecimal(rec.quantity);
    assert forall k :: 0 <= k < |cells| ==> Column(cells[k]);
    PartsOfColumns(cells);
    assert Parts(FormatLine(serial, rec)) == cells;
  }

  // ---------------------------------------------------------------------------
  // `import_tools`.

  /** The columns an import writes over an existing row. */
  function Overwrite(t: Tool, rec: Record): (r: Tool)
    ensures r.id == t.id && r.toolName == t.toolName && r.addedAt == t.addedAt
    ensures r.quantity == rec.quantity
    ensures r.rangeMm == Some(rec.rangeMm) && r.identificationCode == Some(rec.identificationCode) && r.make == Some(rec.make)
  {
    t.(quantity := rec.quantity, rangeMm := Some(rec.rangeMm),
       identificationCode := Some(rec.identificationCode), make := Some(rec.make))
  }

  /** The first row with the record's name, if any. */
  function Existing(tools: map<int, Tool>, name: string): (r: Option<int>)
    ensures r.Some? ==> r.value in tools && tools[r.value].toolName == name
    ensures r.None? <==> forall k :: k in tools ==> tools[k].toolName != name
  {
    FirstKey(tools, (t: Tool) => t.toolName == name)
  }

  /**
   * One record as `import_tools` is written: a record without a name is
   * skipped and an existing row is overwritten. A new row is never added:
   * the constructor is passed `location`, `gauge` and `remarks`, which the
   * inventory class does not have, so it raises `TypeError`, and the loop
   * catches it and moves on.
   */
  function ImportOneAsWritten(db: Db, rec: Record): (r: Db)
    ensures r.tools.Keys == db.tools.Keys
    ensures r == db.(tools := r.tools)
  {
    db.(tools := OverwriteNamed(db.tools, rec))
  }

  /** The table after the as-written step: only an existing row of the record's name changes. */
  function OverwriteNamed(tools: map<int, Tool>, rec: Record): (r: map<int, Tool>)
    ensures r.Keys == tools.Keys
  {
    if rec.name == "" then tools
    else
      match Existing(tools, rec.name)
      case Some(k) => tools[k := Overwrite(tools[k], rec)]
      case None => tools
  }

  /** The updates the as-written loop leaves in the session, one record at a time, before the commit. */
  function QueueAsWritten(db: Db, recs: seq<Record>): (r: Db)
    decreases |recs|
  {
    if |recs| == 0 then db else QueueAsWritten(ImportOneAsWritten(db, recs[0]), recs[1..])
  }

  /** As written, the loop never adds a tool: the table keeps exactly its keys. */
  lemma {:induction false} QueueAsWrittenKeepsKeys(db: Db, recs: seq<Record>)
    ensures QueueAsWritten(db, recs).tools.Keys == db.tools.Keys
    ensures QueueAsWritten(db, recs) == db.(tools := QueueAsWritten(db, recs).tools)
    decreases |recs|
  {
    if |recs| > 0 {
      QueueAsWrittenKeepsKeys(ImportOneAsWritten(db, recs[0]), recs[1..]);
    }
  }

  /**
   * One record as the script evidently intends: skipped without a name,
   * overwriting the row of that name when there is one, and otherwise added
   * under the next key, stamped `now`.
   */
  function ImportOne(db: Db, rec: Record, now: int): (r: Db)
    ensures r == db.(tools := r.tools)
    ensures rec.name == "" ==> r == db
    ensures rec.name != "" && Existing(db.tools, rec.name).Some? ==>
              var k := Existing(db.tools, rec.name).value;
              r.tools == db.tools[k := Overwrite(db.tools[k], rec)]
    ensures rec.name != "" && Existing(db.tools, rec.name).None? ==>
              var k := NextKey(db.tools.Keys);
              r.tools == db.tools[k := Tool(k, rec.name, rec.quantity, now, Some(rec.rangeMm), Some(rec.identificationCode), Some(rec.make))]
  {
    if rec.name == "" then db else db.(tools := Upsert(db.tools, rec, now))
  }

  /** The table after the intended step for a named record. */
  function Upsert(tools: map<int, Tool>, rec: Record, now: int): map<int, Tool> {
    match Existing(tools, rec.name)
    case Some(k) => tools[k := Overwrite(tools[k], rec)]
    case None =>
      var k := NextKey(tools.Keys);
      tools[k := Tool(k, rec.name, rec.quantity, now, Some(rec.rangeMm), Some(rec.identificationCode), Some(rec.make))]
  }

  /** The row one record lands on: the existing row of its name, or a new key. */
  function Slot(db: Db, rec: Record): (k: int)
    ensures k in db.tools <==> HasToolNamed(db, rec.name)
    ensures k in db.tools ==> db.tools[k].toolName == rec.name
  {
    match Existing(db.tools, rec.name)
    case Some(k) => k
    case None => NextKey(db.tools.Keys)
  }

  /** Importing a named record changes only its slot, which then carries the record's name and quantity. */
  lemma ImportOneSlot(db: Db, rec: Record, now: int)
    requires rec.name != ""
    ensures var tools := ImportOne(db, rec, now).tools;
            var k := Slot(db, rec);
            && tools == db.tools[k := tools[k]]
            && tools[k].toolName == rec.name && tools[k].quantity == rec.quantity
  {
  }

  /**
   * The upsert: afterwards a row carries the record's name and quantity,
   * every row keeps its name, and a row is added only when none had the name.
   */
  lemma ImportOneUpserts(db: Db, rec: Record, now: int)
    requires rec.name != ""
    ensures var r := ImportOne(db, rec, now);
            && (forall k :: k in db.tools ==> k in r.tools && r.tools[k].toolName == db.tools[k].toolName)
            && (exists k :: k in r.tools && r.tools[k].toolName == rec.name && r.tools[k].quantity == rec.quantity)
            && (r.tools.Keys == db.tools.Keys <==> HasToolNamed(db, rec.name))
  {
    ImportOneSlot(db, rec, now);
    UpsertFacts(db.tools, ImportOne(db, rec, now).tools, Slot(db, rec), rec.name, rec.quantity);
  }

  /** One slot of a table overwritten with a row of the given name and quantity. */
  lemma UpsertFacts(before: map<int, Tool>, after: map<int, Tool>, k: int, name: string, qty: int)
    requires k in after && after == before[k := after[k]]
    requires after[k].toolName == name && after[k].quantity == qty
    requires k in before ==> before[k].toolName == name
    ensures forall j :: j in before ==> j in after && after[j].toolName == before[j].toolName
    ensures exists j :: j in after && after[j].toolName == name && after[j].quantity == qty
    ensures after.Keys == before.Keys <==> k in before
  {
    if k !in before {
      assert k in after.Keys - before.Keys;
    }
  }

  /** The upserts the intended loop leaves in the session, one record at a time, before the commit. */
  function QueueTools(db: Db, recs: seq<Record>, now: int): (r: Db)
    decreases |recs|
  {
    if |recs| == 0 then db else QueueTools(ImportOne(db, recs[0], now), recs[1..], now)
  }

  predicate HasToolNamed(db: Db, name: string) {
    exists k :: k in db.tools && db.tools[k].toolName == name
  }

  /** The intended loop never loses a tool name. */
  lemma {:induction false} QueueKeepsNames(db: Db, recs: seq<Record>, now: int, name: string)
    requires HasToolNamed(db, name)
    ensures HasToolNamed(QueueTools(db, recs, now), name)
    decreases |recs|
  {
    if |recs| > 0 {
      var db1 := ImportOne(db, recs[0], now);
      var k :| k in db.tools && db.tools[k].toolName == name;
      if recs[0].name != "" {
        ImportOneUpserts(db, recs[0], now);
      }
      assert k in db1.tools && db1.tools[k].toolName == name;
      QueueKeepsNames(db1, recs[1..], now, name);
    }
  }

  /** After the intended loop, every named record has a row of that name. */
  lemma {:induction false} QueueCoversNames(db: Db, recs: seq<Record>, now: int)
    ensures forall i :: 0 <= i < |recs| && recs[i].name != "" ==> HasToolNamed(QueueTools(db, recs, now), recs[i].name)
    decreases |recs|
  {
    if |recs| > 0 {
      var db1 := ImportOne(db, recs[0], now);
      QueueCoversNames(db1, recs[1..], now);
      forall i | 0 <= i < |recs| && recs[i].name != "" ensures HasToolNamed(QueueTools(db, recs, now), recs[i].name) {
        if i == 0 {
          ImportOneUpserts(db, recs[0], now);
          QueueKeepsNames(db1, recs[1..], now, recs[0].name);
        } else {
          assert recs[i] == recs[1..][i - 1];
        }
      }
    }
  }

  /** With parsed records (quantities never negative), the intended loop keeps the inventory well formed. */
  lemma {:induction false} QueueKeepsToolsWf(db: Db, recs: seq<Record>, now: int)
    requires ToolsWf(db.tools)
    requires forall i :: 0 <= i < |recs| ==> recs[i].quantity >= 0
    ensures ToolsWf(QueueTools(db, recs, now).tools)
    decreases |recs|
  {
    if |recs| > 0 {
      var db1 := ImportOne(db, recs[0], now);
      ImportOneKeepsToolsWf(db, recs[0], now);
      QueueKeepsToolsWf(db1, recs[1..], now);
    }
  }

  lemma ImportOneKeepsToolsWf(db: Db, rec: Record, now: int)
    requires ToolsWf(db.tools) && rec.quantity >= 0
    ensures ToolsWf(ImportOne(db, rec, now).tools)
  {
    if rec.name != "" {
      UpsertKeepsToolsWf(db.tools, rec, now);
    }
  }

  lemma UpsertKeepsToolsWf(tools: map<int, Tool>, rec: Record, now: int)
    requires ToolsWf(tools) && rec.quantity >= 0
    ensures ToolsWf(Upsert(tools, rec, now))
  {
    var after := Upsert(tools, rec, now);
    match Existing(tools, rec.name)
    case Some(k) =>
      assert after == tools[k := Overwrite(tools[k], rec)];
      RowReplacedKeepsToolsWf(tools, after, k);
    case None =>
      var k := NextKey(tools.Keys);
      assert after == tools[k := Tool(k, rec.name, rec.quantity, now, Some(rec.rangeMm), Some(rec.identificationCode), Some(rec.make))];
      RowReplacedKeepsToolsWf(tools, after, k);
  }

  // ---------------------------------------------------------------------------
  // The commit. The loop only changes objects in the session; they reach the
  // database when it flushes, at the next query's autoflush or at
  // `db.commit()`. On PostgreSQL a value too wide for its column makes that
  // flush fail. The `except` clauses swallow the error, but the session then
  // refuses every later statement, the commit included, so none of the batch
  // is stored.

  /** The values a record writes over an existing row fit their columns: a 32-bit quantity, and texts of at most 100 characters. */
  predicate FitsColumns(rec: Record) {
    && MinInteger <= rec.quantity <= MaxInteger
    && |rec.rangeMm| <= TextWidth && |rec.identificationCode| <= TextWidth && |rec.make| <= TextWidth
  }

  /** As written, only an overwrite writes, so only a named record with an existing row can overflow. */
  predicate FitsAsWritten(tools: map<int, Tool>, recs: seq<Record>) {
    forall i :: 0 <= i < |recs| && recs[i].name != "" && Existing(tools, recs[i].name).Some? ==> FitsColumns(recs[i])
  }

  /** `import_tools` as written: the queued overwrites when they all fit their columns, and otherwise nothing. */
  function ImportAsWritten(db: Db, recs: seq<Record>): (r: Db)
    ensures FitsAsWritten(db.tools, recs) ==> r == QueueAsWritten(db, recs)
    ensures !FitsAsWritten(db.tools, recs) ==> r == db
  {
    if FitsAsWritten(db.tools, recs) then QueueAsWritten(db, recs) else db
  }

  /** As written, importing never adds a tool: the table keeps exactly its keys, and nothing but the tools changes. */
  lemma ImportAsWrittenKeepsKeys(db: Db, recs: seq<Record>)
    ensures ImportAsWritten(db, recs).tools.Keys == db.tools.Keys
    ensures ImportAsWritten(db, recs) == db.(tools := ImportAsWritten(db, recs).tools)
  {
    QueueAsWrittenKeepsKeys(db, recs);
  }

  /** One row named "Caliper" with five in stock. */
  function CaliperDb(): Db {
    Db(map[1 := Tool(1, "Caliper", 5, 0, None, None, None)], map[], map[], map[], map[], map[], map[])
  }

  /** A record for the Caliper row with the given stock. */
  function CaliperRecord(quantity: int): Record {
    Record("Caliper", "0-150", "VC-01", "Mitutoyo", quantity, "", "", "")
  }

  /**
   * A batch of two records for the one row: the first sets its stock to
   * four, the second to more than a 32-bit column holds. As written nothing
   * is stored, not even the first update, which alone would be.
   */
  lemma ImportLosesBatch()
    ensures var r := ImportAsWritten(CaliperDb(), [CaliperRecord(4)]);
            1 in r.tools && r.tools[1].quantity == 4
    ensures ImportAsWritten(CaliperDb(), [CaliperRecord(4), CaliperRecord(2520200115)]) == CaliperDb()
  {
    ImportFirstAlone();
    var recs := [CaliperRecord(4), CaliperRecord(2520200115)];
    assert recs[1].name != "" && !FitsColumns(recs[1]);
    CaliperFound();
    assert !FitsAsWritten(CaliperDb().tools, recs);
  }

  lemma ImportFirstAlone()
    ensures var r := ImportAsWritten(CaliperDb(), [CaliperRecord(4)]);
            1 in r.tools && r.tools[1].quantity == 4
  {
    CaliperFitsAlone();
    QueueSingle(CaliperDb(), CaliperRecord(4));
    CaliperOverwritten();
  }

  /** The first record alone fits its columns. */
  lemma CaliperFitsAlone()
    ensures FitsAsWritten(CaliperDb().tools, [CaliperRecord(4)])
  {
    CaliperFound();
    assert FitsColumns(CaliperRecord(4));
  }

  /** Overwriting the Caliper row with the first record sets its stock to four. */
  lemma CaliperOverwritten()
    ensures var r := ImportOneAsWritten(CaliperDb(), CaliperRecord(4));
            1 in r.tools && r.tools[1].quantity == 4
  {
    CaliperFound();
  }

  /** A batch of one record is that record's step. */
  lemma QueueSingle(db: Db, rec: Record)
    ensures QueueAsWritten(db, [rec]) == ImportOneAsWritten(db, rec)
  {
    assert [rec][1..] == [];
  }

  /** The Caliper row is the one its name finds. */
  lemma CaliperFound()
    ensures Existing(CaliperDb().tools, "Caliper") == Some(1)
  {
    ExistingOnly(CaliperDb().tools[1]);
  }

  /** In a one-row table, the row's own name finds it. */
  lemma ExistingOnly(t: Tool)
    ensures Existing(map[t.id := t], t.toolName) == Some(t.id)
  {
    assert t.id in map[t.id := t];
  }

  /** A record fits every column the intended import writes, its name included. */
  predicate FitsRow(rec: Record) {
    |rec.name| <= TextWidth && FitsColumns(rec)
  }

  predicate BatchFits(recs: seq<Record>) {
    forall i :: 0 <= i < |recs| && recs[i].name != "" ==> FitsRow(recs[i])
  }

  /** `import_tools` as intended: the queued upserts when every named record fits its row, and otherwise nothing. */
  function ImportTools(db: Db, recs: seq<Record>, now: int): (r: Db)
    ensures BatchFits(recs) ==> r == QueueTools(db, recs, now)
    ensures !BatchFits(recs) ==> r == db
  {
    if BatchFits(recs) then QueueTools(db, recs, now) else db
  }

  /** Importing never loses a tool name, whether the batch is stored or lost. */
  lemma ImportKeepsNames(db: Db, recs: seq<Record>, now: int, name: string)
    requires HasToolNamed(db, name)
    ensures HasToolNamed(ImportTools(db, recs, now), name)
  {
    QueueKeepsNames(db, recs, now, name);
  }

  /**
   * After the intended import, every named record has a row of that name,
   * unless some record is too wide for its row, in which case the table is
   * as it was.
   */
  lemma ImportCoversNames(db: Db, recs: seq<Record>, now: int)
    ensures BatchFits(recs) ==>
              forall i :: 0 <= i < |recs| && recs[i].name != "" ==> HasToolNamed(ImportTools(db, recs, now), recs[i].name)
    ensures !BatchFits(recs) ==> ImportTools(db, recs, now) == db
  {
    QueueCoversNames(db, recs, now);
  }

  /** With parsed records (quantities never negative), the intended import keeps the inventory well formed. */
  lemma ImportKeepsToolsWf(db: Db, recs: seq<Record>, now: int)
    requires ToolsWf(db.tools)
    requires forall i :: 0 <= i < |recs| ==> recs[i].quantity >= 0
    ensures ToolsWf(ImportTools(db, recs, now).tools)
  {
    QueueKeepsToolsWf(db, recs, now);
  }

  /** A new tool name: as written the import leaves the table empty, as intended it adds the tool. */
  lemma ImportNewToolCounterexample(now: int)
    ensures var db := Db(map[], map[], map[], map[], map[], map[], map[]);
            var recs := [Record("Caliper", "0-150", "VC-01", "Mitutoyo", 4, "", "", "")];
            && ImportAsWritten(db, recs).tools == map[]
            && ImportTools(db, recs, now).tools == map[1 := Tool(1, "Caliper", 4, now, Some("0-150"), Some("VC-01"), Some("Mitutoyo"))]
  {
    var db := Db(map[], map[], map[], map[], map[], map[], map[]);
    var rec := Record("Caliper", "0-150", "VC-01", "Mitutoyo", 4, "", "", "");
    assert Existing(db.tools, rec.name).None?;
    assert NextKey(db.tools.Keys) == 1;
    assert [rec][1..] == [];
  }
}

=== FILE: issue_reports_page.dfy ===
/**
 * `IssueReportsPage`: the officer's list of reported tool issues. Only an
 * OPEN issue offers Approve and Reject; each button first prompts for an
 * optional response, and a cancelled prompt sends nothing.
 */
module IssueReportsPage {
  import opened Wrappers
  import opened Models
  import opened Text
  import opened Ui

  /** The Actions cell of an issue row. */
  datatype IssueCell = Buttons | Processed(caption: string)

  /**
   * Buttons exactly for the status "OPEN"; any other status shows
   * "Approved" when it is "APPROVED" and "Rejected" otherwise.
   */
  function Control(status: string): (r: IssueCell)
    ensures r.Buttons? <==> status == IssueOpen
    ensures r.Processed? ==> (r.caption == ApprovedLabel <==> status == "APPROVED")
  {
    if status == IssueOpen then Buttons else Processed(ProcessedLabel(status))
  }

  /** The request a decision on an issue sends: where, and the `response` field of the body. */
  datatype Call = Call(url: string, response: string)

  /** The response sent when the officer leaves the prompt empty. */
  function DefaultResponse(d: Decision): (r: string)
    ensures r == "Issue " + Past(d)
  {
    match d
    case Approve => "Issue approved"
    case Reject => "Issue rejected"
  }

  /**
   * `handleAction`'s request: posted to `tool-issues/<id>/<verb>`, carrying
   * the typed response, or the default one when nothing was typed.
   */
  function ActionCall(issueId: int, d: Decision, response: string): (r: Call)
    ensures r.response != ""
    ensures response != "" ==> r.response == response
    ensures response == "" ==> r.response == "Issue " + Past(d)
    ensures Includes(r.url, "/" + Verb(d))
  {
    var tail := IntToDecimal(issueId) + "/" + Verb(d);
    var url := "http://localhost:8000/api/v1/officer/tool-issues/" + tail;
    assert OccursAt(url, "/" + Verb(d), |url| - |Verb(d)| - 1);
    Call(url, OrElse(Some(response), DefaultResponse(d)))
  }

  /** A button click: the prompt's answer, `None` when it was cancelled. */
  function OnClick(issueId: int, d: Decision, answer: Option<string>): (r: Option<Call>)
    ensures r.None? <==> answer.None?
    ensures r.Some? ==> r.value == ActionCall(issueId, d, answer.value)
  {
    match answer
    case None => None
    case Some(text) => Some(ActionCall(issueId, d, text))
  }

  /** The buttons only call for an open issue, and every call carries a non-empty response. */
  lemma ClickSendsResponse(issue: Issue, d: Decision, answer: Option<string>)
    requires Control(issue.status).Buttons? && answer.Some?
    ensures issue.status == IssueOpen
    ensures OnClick(issue.id, d, answer).Some? && OnClick(issue.id, d, answer).value.response != ""
  {
  }

  // ---------------------------------------------------------------------------
  // The banner after a decision.

  /**
   * The success text as written: the verb with a "d" appended, which reads
   * "Issue approved successfully" but "Issue rejectd successfully".
   */
  function SuccessTextAsWritten(d: Decision): (r: string)
    ensures r == "Issue " + Verb(d) + "d successfully"
  {
    "Issue " + Verb(d) + "d successfully"
  }

  /** The success text with the decision's past participle. */
  function SuccessText(d: Decision): (r: string)
    ensures r == "Issue " + Past(d) + " successfully"
    ensures d == Approve ==> r == SuccessTextAsWritten(d)
  {
    "Issue " + Past(d) + " successfully"
  }

  /** Appending "d" is right for approve and wrong for reject. */
  lemma SuccessTextCounterexample()
    ensures SuccessTextAsWritten(Approve) == SuccessText(Approve)
    ensures SuccessTextAsWritten(Reject) == "Issue rejectd successfully"
    ensures SuccessTextAsWritten(Reject) != SuccessText(Reject)
  {
    assert SuccessText(Reject)[12] == 'e';
    assert SuccessTextAsWritten(Reject)[12] == 'd';
  }

  /**
   * The banner after a decision, as written: the as-written success text
   * when accepted; on a refusal the server's detail if it is a non-empty
   * string; otherwise "Failed to approve issue" or "Failed to reject issue".
   */
  function IssueNotice(d: Decision, reply: Reply): (r: Notice)
    ensures r.Success? <==> reply.Accepted?
    ensures r.Success? ==> r.text == SuccessTextAsWritten(d)
    ensures r.Failure? ==> r.text != ""
    ensures reply.Refused? && Truthy(reply.detail) ==> r == Failure(reply.detail.value)
    ensures reply.Unreadable? || (reply.Refused? && !Truthy(reply.detail)) ==>
              r == Failure("Failed to " + Verb(d) + " issue")
  {
    var fallback := "Failed to " + Verb(d) + " issue";
    match reply
    case Accepted => Success(SuccessTextAsWritten(d))
    case Refused(detail) => Failure(OrElse(detail, fallback))
    case Unreadable => Failure(fallback)
  }

  /** The banner as evidently intended: the same, but with the decision's past participle on success. */
  function IssueNoticeIntended(d: Decision, reply: Reply): (r: Notice)
    ensures r.Success? <==> reply.Accepted?
    ensures r.Success? ==> r.text == SuccessText(d)
    ensures r.Failure? ==> r == IssueNotice(d, reply)
  {
    if reply.Accepted? then Success(SuccessText(d)) else IssueNotice(d, reply)
  }

  /** The two banners differ exactly after an accepted rejection. */
  lemma IssueNoticesDiffer(d: Decision, reply: Reply)
    ensures IssueNotice(d, reply) != IssueNoticeIntended(d, reply) <==> reply.Accepted? && d == Reject
  {
    SuccessTextCounterexample();
  }

  /**
   * The banner names the decision the click sent: the call goes to the
   * decision's verb, a success banner starts with "Issue " and that verb,
   * and the other decision never gets the same success banner.
   */
  lemma NoticeNamesSentDecision(issueId: int, d: Decision, other: Decision, answer: string, reply: Reply)
    requires other != d
    ensures Includes(ActionCall(issueId, d, answer).url, "/" + Verb(d))
    ensures IssueNotice(d, reply).Success? ==> OccursAt(IssueNotice(d, reply).text, "Issue " + Verb(d), 0)
    ensures IssueNoticeIntended(d, reply).Success? ==> OccursAt(IssueNoticeIntended(d, reply).text, "Issue " + Verb(d), 0)
    ensures reply.Accepted? ==> IssueNotice(d, reply) != IssueNotice(other, reply)
    ensures reply.Accepted? ==> IssueNoticeIntended(d, reply) != IssueNoticeIntended(other, reply)
  {
    if reply.Accepted? {
      assert SuccessTextAsWritten(d)[6] != SuccessTextAsWritten(other)[6];
      assert SuccessText(d)[6] != SuccessText(other)[6];
    }
  }
}

=== FILE: list_filters.dfy ===
/**
 * The `handleFilter` shape the list pages share: a text search over some
 * of a row's fields, then an optional same-calendar-day filter, each an
 * order-preserving `Array.prototype.filter` over the loaded list. The pages
 * differ in which fields they search, whether a whitespace-only term
 * counts as a search, and whether the date applies at all.
 *
 * The calendar day of an instant is the parameter `day`; instants are
 * integers, and a missing or empty timestamp is `None`.
 */
module ListFilters {
  import opened Wrappers
  import opened Text
  import opened Lists

  /**
   * A searchable field: text, matched case-insensitively
   * (`x?.toLowerCase().includes(term.toLowerCase())`), or a number, matched
   * as its decimal text against the term as typed
   * (`x?.toString().includes(term)`). A missing field never matches.
   */
  datatype Field = Words(text: Option<string>) | Number(value: Option<int>)

  predicate FieldMatches(f: Field, term: string) {
    match f
    case Words(t) => t.Some? && Includes(ToLower(t.value), ToLower(term))
    case Number(n) => n.Some? && Includes(IntToDecimal(n.value), term)
  }

  /** The `||` chain over a page's fields. */
  predicate AnyMatches(fields: seq<Field>, term: string) {
    exists i :: 0 <= i < |fields| && FieldMatches(fields[i], term)
  }

  /** When a term searches: `searchTerm.trim()` non-empty, or just `searchTerm` non-empty. */
  datatype Gate = TrimmedTerm | RawTerm

  predicate SearchActive(g: Gate, term: string) {
    match g
    case TrimmedTerm => Trim(term, IsJsSpace) != ""
    case RawTerm => term != ""
  }

  /** The row's instant falls on the same calendar day as the chosen date. */
  predicate OnDay(stamp: Option<int>, target: int, day: int -> int) {
    stamp.Some? && day(stamp.value) == day(target)
  }

  /** One page's filter: its gate, the fields it searches, the timestamp the date applies to, and whether it filters by date. */
  datatype Spec<!R> = Spec(gate: Gate, fields: R -> seq<Field>, stamp: R -> Option<int>, usesDate: bool)

  function TextTest<R>(s: Spec<R>, term: string): R -> bool {
    (r: R) => AnyMatches(s.fields(r), term)
  }

  function DateTest<R>(s: Spec<R>, target: int, day: int -> int): R -> bool {
    (r: R) => OnDay(s.stamp(r), target, day)
  }

  /** The row passes whichever of the two filters are switched on. */
  predicate Passes<R>(s: Spec<R>, x: R, term: string, date: Option<int>, day: int -> int) {
    && (SearchActive(s.gate, term) ==> AnyMatches(s.fields(x), term))
    && (s.usesDate && date.Some? ==> OnDay(s.stamp(x), date.value, day))
  }

  /**
   * `handleFilter(searchTerm, dateValue)`: the text filter when the term
   * searches, then the date filter when a date is chosen (`date` is `None`
   * for the empty date input).
   */
  function HandleFilter<R>(s: Spec<R>, rows: seq<R>, term: string, date: Option<int>, day: int -> int): seq<R> {
    var byText := if SearchActive(s.gate, term) then Filter(rows, TextTest(s, term)) else rows;
    if s.usesDate && date.Some? then Filter(byText, DateTest(s, date.value, day)) else byText
  }

  /**
   * The result is an order-preserving subsequence of the list, holding
   * exactly the rows that pass, each as often as in the list.
   */
  lemma HandleFilterSpec<R>(s: Spec<R>, rows: seq<R>, term: string, date: Option<int>, day: int -> int)
    ensures var r := HandleFilter(s, rows, term, date, day);
            && IsSubsequence(r, rows)
            && (forall x :: x in r <==> x in rows && Passes(s, x, term, date, day))
            && (forall x :: multiset(r)[x] == if Passes(s, x, term, date, day) then multiset(rows)[x] else 0)
  {
    var byText := if SearchActive(s.gate, term) then Filter(rows, TextTest(s, term)) else rows;
    if SearchActive(s.gate, term) {
      FilterSpec(rows, TextTest(s, term));
    }
    if !SearchActive(s.gate, term) {
      SubsequenceReflexive(rows);
    }
    if s.usesDate && date.Some? {
      FilterSpec(byText, DateTest(s, date.value, day));
      SubsequenceTransitive(Filter(byText, DateTest(s, date.value, day)), byText, rows);
    }
  }

  /** A row is on show exactly when it is in the list and passes. */
  lemma ShownIff<R>(s: Spec<R>, rows: seq<R>, term: string, date: Option<int>, day: int -> int, x: R)
    ensures x in HandleFilter(s, rows, term, date, day) <==> x in rows && Passes(s, x, term, date, day)
  {
    HandleFilterSpec(s, rows, term, date, day);
  }

  /** An empty query is the identity: it shows what Clear shows. */
  lemma EmptyQueryKeepsAll<R>(s: Spec<R>, v: View<R>, term: string, day: int -> int)
    requires !SearchActive(s.gate, term)
    ensures HandleFilter(s, v.rows, term, None, day) == ClearFilters(v).shown == v.rows
  {
  }

  /** Filtering the filtered list again with the same query changes nothing. */
  lemma HandleFilterIdempotent<R>(s: Spec<R>, rows: seq<R>, term: string, date: Option<int>, day: int -> int)
    ensures var r := HandleFilter(s, rows, term, date, day);
            HandleFilter(s, r, term, date, day) == r
  {
    var r := HandleFilter(s, rows, term, date, day);
    HandleFilterSpec(s, rows, term, date, day);
    var byText := if SearchActive(s.gate, term) then Filter(r, TextTest(s, term)) else r;
    if SearchActive(s.gate, term) {
      assert forall i :: 0 <= i < |r| ==> TextTest(s, term)(r[i]) by {
        forall i | 0 <= i < |r| ensures TextTest(s, term)(r[i]) {
          assert r[i] in r;
        }
      }
      FilterKeepsAll(r, TextTest(s, term));
    }
    assert byText == r;
    if s.usesDate && date.Some? {
      forall i | 0 <= i < |r| ensures DateTest(s, date.value, day)(r[i]) {
        assert r[i] in r;
      }
      FilterKeepsAll(r, DateTest(s, date.value, day));
    }
  }

  /** How a list page's one fetch came back. */
  datatype Fetch<R> =
    | Answered(data: Option<seq<R>>) // `res.ok`, with the body when it is a JSON array
    | BadStatus                      // an error status
    | Thrown(message: string)        // the fetch or the JSON decoding threw

  /** The loaded list, the rows on show, and the error banner. */
  datatype View<R> = View(rows: seq<R>, shown: seq<R>, error: Option<string>)

  /** `handleClearFilters`: the loaded list again. */
  function ClearFilters<R>(v: View<R>): (r: View<R>)
    ensures r.shown == r.rows == v.rows && r.error == v.error
  {
    v.(shown := v.rows)
  }

  /** `Array.isArray(data) ? data : []`: a response that is not a list loads as the empty list. */
  function Loaded<R>(data: Option<seq<R>>): (r: seq<R>)
    ensures data.Some? ==> r == data.value
    ensures data.None? ==> r == []
  {
    data.GetOr([])
  }
}

=== FILE: lists.dfy ===
/**
 * Sequence and set utilities: order-preserving filtering (JavaScript's
 * `Array.prototype.filter`), stable insertion sort (SQL `ORDER BY` over the
 * rows of a table) and the ascending enumeration of a finite set of keys
 * (rows in primary-key order).
 */
module Lists {

  // ---------------------------------------------------------------------------
  // Subsequences and filtering.

  /** `xs` can be obtained from `ys` by deleting elements, keeping order. */
  predicate IsSubsequence<T(==)>(xs: seq<T>, ys: seq<T>)
    decreases |ys|
  {
    if |xs| == 0 then true
    else if |ys| == 0 then false
    else if xs[0] == ys[0] then IsSubsequence(xs[1..], ys[1..])
    else IsSubsequence(xs, ys[1..])
  }

  /** The elements of `xs` that satisfy `p`, in their original order. */
  function Filter<T>(xs: seq<T>, p: T -> bool): (r: seq<T>)
    ensures |r| <= |xs|
    ensures forall i :: 0 <= i < |r| ==> p(r[i])
  {
    if |xs| == 0 then []
    else if p(xs[0]) then [xs[0]] + Filter(xs[1..], p)
    else Filter(xs[1..], p)
  }

  /**
   * What `Filter` keeps: an order-preserving subsequence of the input that
   * holds every occurrence of every element satisfying `p` and nothing else.
   */
  lemma {:induction false} FilterSpec<T>(xs: seq<T>, p: T -> bool)
    ensures IsSubsequence(Filter(xs, p), xs)
    ensures forall x :: multiset(Filter(xs, p))[x] == if p(x) then multiset(xs)[x] else 0
    ensures forall x :: x in Filter(xs, p) <==> x in xs && p(x)
  {
    if |xs| > 0 {
      FilterSpec(xs[1..], p);
      assert xs == [xs[0]] + xs[1..];
      assert multiset(xs) == multiset{xs[0]} + multiset(xs[1..]);
      if p(xs[0]) {
        var r := Filter(xs, p);
        assert r[1..] == Filter(xs[1..], p);
      } else {
        SubsequenceDropHead(Filter(xs[1..], p), xs);
      }
    }
  }

  /** A subsequence of the tail of `ys` is a subsequence of `ys`. */
  lemma {:induction false} SubsequenceDropHead<T>(xs: seq<T>, ys: seq<T>)
    requires |ys| > 0 && IsSubsequence(xs, ys[1..])
    ensures IsSubsequence(xs, ys)
    decreases |ys|, 0
  {
    if |xs| > 0 && xs[0] == ys[0] {
      SubsequenceTail(xs, ys[1..]);
    }
  }

  /** Dropping the first element of a subsequence keeps it a subsequence. */
  lemma {:induction false} SubsequenceTail<T>(xs: seq<T>, ys: seq<T>)
    requires |xs| > 0 && IsSubsequence(xs, ys)
    ensures IsSubsequence(xs[1..], ys)
    decreases |ys|, 1
  {
    if xs[0] == ys[0] {
      SubsequenceDropHead(xs[1..], ys);
    } else {
      SubsequenceTail(xs, ys[1..]);
      SubsequenceDropHead(xs[1..], ys);
    }
  }

  /** Every sequence is a subsequence of itself. */
  lemma {:induction false} SubsequenceReflexive<T>(xs: seq<T>)
    ensures IsSubsequence(xs, xs)
  {
    if |xs| > 0 {
      SubsequenceReflexive(xs[1..]);
    }
  }

  /** A subsequence of a subsequence of `zs` is a subsequence of `zs`. */
  lemma {:induction false} SubsequenceTransitive<T>(xs: seq<T>, ys: seq<T>, zs: seq<T>)
    requires IsSubsequence(xs, ys) && IsSubsequence(ys, zs)
    ensures IsSubsequence(xs, zs)
    decreases |zs|
  {
    if |xs| > 0 && |zs| > 0 {
      if ys[0] == zs[0] {
        if xs[0] == ys[0] {
          SubsequenceTransitive(xs[1..], ys[1..], zs[1..]);
        } else {
          SubsequenceTransitive(xs, ys[1..], zs[1..]);
        }
      } else {
        SubsequenceTransitive(xs, ys, zs[1..]);
        SubsequenceDropHead(xs, zs);
      }
    }
  }

  /** A predicate that holds of every element filters nothing out. */
  lemma {:induction false} FilterKeepsAll<T>(xs: seq<T>, p: T -> bool)
    requires forall i :: 0 <= i < |xs| ==> p(xs[i])
    ensures Filter(xs, p) == xs
  {
    if |xs| > 0 {
      FilterKeepsAll(xs[1..], p);
    }
  }

  /** Filtering twice is filtering once by the conjunction. */
  lemma {:induction false} FilterTwice<T>(xs: seq<T>, p: T -> bool, q: T -> bool)
    ensures Filter(Filter(xs, p), q) == Filter(xs, x => p(x) && q(x))
  {
    if |xs| > 0 {
      FilterTwice(xs[1..], p, q);
    }
  }

  /** Filtering distributes over concatenation. */
  lemma {:induction false} FilterAppend<T>(a: seq<T>, b: seq<T>, p: T -> bool)
    ensures Filter(a + b, p) == Filter(a, p) + Filter(b, p)
  {
    if |a| > 0 {
      assert (a + b)[0] == a[0];
      assert (a + b)[1..] == a[1..] + b;
      FilterAppend(a[1..], b, p);
    } else {
      assert a + b == b;
    }
  }

  /** `Map` of JavaScript and of list comprehensions. */
  function MapSeq<T, U>(xs: seq<T>, f: T -> U): (r: seq<U>)
    ensures |r| == |xs| && forall i :: 0 <= i < |xs| ==> r[i] == f(xs[i])
  {
    if |xs| == 0 then [] else [f(xs[0])] + MapSeq(xs[1..], f)
  }

  // ---------------------------------------------------------------------------
  // Sorting.

  /** `le` is total and transitive: the shape of an SQL `ORDER BY` key. */
  ghost predicate TotalPreorder<T(!new)>(le: (T, T) -> bool) {
    && (forall a, b :: le(a, b) || le(b, a))
    && (forall a, b, c :: le(a, b) && le(b, c) ==> le(a, c))
  }

  /** Each element is ordered before the next one under `le`. */
  predicate Sorted<T>(xs: seq<T>, le: (T, T) -> bool) {
    forall i :: 0 < i < |xs| ==> le(xs[i - 1], xs[i])
  }

  /** Inserts `x` before the first element it is not after. */
  function Insert<T(!new)>(x: T, xs: seq<T>, le: (T, T) -> bool): (r: seq<T>)
    requires TotalPreorder(le) && Sorted(xs, le)
    ensures Sorted(r, le)
    ensures multiset(r) == multiset(xs) + multiset{x}
    ensures |r| > 0 && (r[0] == x || (|xs| > 0 && r[0] == xs[0]))
  {
    if |xs| == 0 then [x]
    else if le(x, xs[0]) then [x] + xs
    else
      assert le(xs[0], x);
      assert Sorted(xs[1..], le) by {
        forall i | 0 < i < |xs[1..]| ensures le(xs[1..][i - 1], xs[1..][i]) {
          assert xs[1..][i - 1] == xs[i] && xs[1..][i] == xs[i + 1];
        }
      }
      var rest := Insert(x, xs[1..], le);
      assert xs == [xs[0]] + xs[1..];
      [xs[0]] + rest
  }

  /** Stable insertion sort: the result is ordered by `le` and a permutation of `xs`. */
  function SortBy<T(!new)>(xs: seq<T>, le: (T, T) -> bool): (r: seq<T>)
    requires TotalPreorder(le)
    ensures Sorted(r, le)
    ensures multiset(r) == multiset(xs)
  {
    if |xs| == 0 then []
    else
      assert xs == [xs[0]] + xs[1..];
      Insert(xs[0], SortBy(xs[1..], le), le)
  }

  /** The order of `ORDER BY key DESC`: `a` may come before `b` when its key is not smaller. */
  function ByKeyDesc<T>(key: T -> int): (T, T) -> bool {
    (a: T, b: T) => key(a) >= key(b)
  }

  lemma ByKeyDescIsPreorder<T(!new)>(key: T -> int)
    ensures TotalPreorder(ByKeyDesc(key))
  {
  }

  /** Sorting keeps the length and the elements. */
  lemma SortByMembers<T(!new)>(xs: seq<T>, le: (T, T) -> bool)
    requires TotalPreorder(le)
    ensures |SortBy(xs, le)| == |xs|
    ensures forall x :: x in SortBy(xs, le) <==> x in xs
  {
    var r := SortBy(xs, le);
    assert |r| == |multiset(r)| == |multiset(xs)| == |xs|;
    forall x ensures x in r <==> x in xs {
      assert x in r <==> multiset(r)[x] > 0;
      assert x in xs <==> multiset(xs)[x] > 0;
    }
  }

  // ---------------------------------------------------------------------------
  // Finite sets of keys.

  /** Sequences with the same elements, counted with multiplicity, have the same members. */
  lemma MultisetMembers<T>(a: seq<T>, b: seq<T>)
    requires multiset(a) == multiset(b)
    ensures forall x :: x in a <==> x in b
  {
    forall x ensures x in a <==> x in b {
      assert x in a <==> x in multiset(a);
      assert x in b <==> x in multiset(b);
    }
  }

  lemma NonEmptyHasElement(s: set<int>)
    requires s != {}
    ensures exists x :: x in s
  {
    if forall x :: x !in s {
      assert false;
    }
  }

  lemma {:induction false} HasLeast(s: set<int>)
    requires s != {}
    ensures exists m :: m in s && forall x :: x in s ==> m <= x
    decreases |s|
  {
    NonEmptyHasElement(s);
    var y :| y in s;
    var t := s - {y};
    assert forall x :: x in s ==> x == y || x in t;
    if t == {} {
      assert forall x :: x in s ==> y <= x;
    } else {
      HasLeast(t);
      var m :| m in t && forall x :: x in t ==> m <= x;
      var least := if y < m then y else m;
      assert least in s;
      assert forall x :: x in s ==> least <= x;
    }
  }

  lemma {:induction false} HasGreatest(s: set<int>)
    requires s != {}
    ensures exists m :: m in s && forall x :: x in s ==> x <= m
    decreases |s|
  {
    NonEmptyHasElement(s);
    var y :| y in s;
    var t := s - {y};
    if t == {} {
      forall x | x in s ensures x <= y {
        assert x !in t;
      }
    } else {
      HasGreatest(t);
      var m :| m in t && forall x :: x in t ==> x <= m;
      var top := if y > m then y else m;
      forall x | x in s ensures x <= top {
        if x != y { assert x in t; }
      }
      assert top in s;
    }
  }

  function MinOf(s: set<int>): (m: int)
    requires s != {}
    ensures m in s && forall x :: x in s ==> m <= x
  {
    HasLeast(s);
    var m :| m in s && forall x :: x in s ==> m <= x;
    m
  }

  /** SQL `max(col)` over a non-empty column. */
  function MaxOf(s: set<int>): (m: int)
    requires s != {}
    ensures m in s && forall x :: x in s ==> x <= m
  {
    HasGreatest(s);
    var m :| m in s && forall x :: x in s ==> x <= m;
    m
  }

  /** The keys of `s` in strictly ascending order: a table's rows by primary key. */
  function Ascending(s: set<int>): (r: seq<int>)
    ensures |r| == |s|
    ensures forall i, j :: 0 <= i < j < |r| ==> r[i] < r[j]
    ensures forall x :: x in s <==> x in r
    decreases |s|
  {
    if s == {} then []
    else
      var m := MinOf(s);
      var rest := Ascending(s - {m});
      assert forall x :: x in s <==> x == m || x in rest;
      [m] + rest
  }
}

=== FILE: locks.dfy ===
/**
 * The per-role exclusive lock for OFFICER and SUPERVISOR accounts
 * (`app/services/locks.py`). A `role_locks` row names the session that holds
 * the role; the row counts only while that session is live, and a row whose
 * session has ended is reclaimed (its session id cleared) when next looked at.
 */
module Locks {
  import opened Wrappers
  import opened Models
  import opened Store

  /** The lock row of `role` names a session that exists and is live at `now`. */
  predicate HeldLive(db: Db, role: Role, now: int) {
    && role in db.locks
    && db.locks[role].sessionId.Some?
    && db.locks[role].sessionId.value in db.sessions
    && Live(db.sessions[db.locks[role].sessionId.value], now)
  }

  /** Every lock row is stored under its own role. */
  predicate LocksWf(locks: map<Role, RoleLock>) {
    forall r :: r in locks ==> locks[r].role == r
  }

  /** `get_active_lock` returns the state after stale-lock reclamation and the active row, if any. */
  datatype Lookup = Lookup(db: Db, active: Option<RoleLock>)

  /**
   * `get_active_lock`: the row for `role` when its session is live; otherwise
   * none, after clearing the session id of a row whose session is missing,
   * expired or logged out.
   */
  function GetActiveLock(db: Db, role: Role, now: int): (r: Lookup)
    ensures r.active.Some? <==> HeldLive(db, role, now)
    ensures r.active.Some? ==> r.db == db && r.active.value == db.locks[role]
    ensures role !in db.locks ==> r.db == db
    ensures role in db.locks && db.locks[role].sessionId.None? ==> r.db == db
    ensures role in db.locks && !HeldLive(db, role, now) ==>
              r.db == db.(locks := db.locks[role := db.locks[role].(sessionId := None)])
    // Reclamation is invisible to anyone asking who holds a role.
    ensures forall x :: HeldLive(r.db, x, now) <==> HeldLive(db, x, now)
  {
    if role !in db.locks then Lookup(db, None)
    else
      var lock := db.locks[role];
      match lock.sessionId
      case None => Lookup(db, None)
      case Some(sid) =>
        if sid !in db.sessions || db.sessions[sid].expiresAt <= now || db.sessions[sid].logoutAt.Some? then
          Lookup(db.(locks := db.locks[role := lock.(sessionId := None)]), None)
        else
          Lookup(db, Some(lock))
  }

  /** `acquire_lock` returns the new state and the caller's lock row, or none when refused. */
  datatype Acquired = Acquired(db: Db, lock: Option<RoleLock>)

  /**
   * `acquire_lock`: refused while a live session holds `role`; otherwise the
   * caller's session becomes the holder, in a new row stamped `now` when the
   * role had none, or by overwriting the session id of the existing row.
   */
  function AcquireLock(db: Db, role: Role, sessionId: string, now: int): (r: Acquired)
    ensures r.lock.None? <==> HeldLive(db, role, now)
    ensures r.lock.None? ==> r.db == GetActiveLock(db, role, now).db
    ensures r.lock.Some? ==>
              && role in r.db.locks
              && r.lock.value == r.db.locks[role]
              && r.db.locks[role].sessionId == Some(sessionId)
              && r.db.locks[role].role == (if role in db.locks then db.locks[role].role else role)
              && r.db.locks[role].lockedAt == (if role in db.locks then db.locks[role].lockedAt else now)
    // Only the row of `role` changes.
    ensures r.db == db.(locks := r.db.locks)
    ensures forall x :: x != role ==> (x in r.db.locks <==> x in db.locks)
    ensures forall x :: x != role && x in db.locks ==> r.db.locks[x] == db.locks[x]
    ensures role in db.locks ==> role in r.db.locks
  {
    var look := GetActiveLock(db, role, now);
    if look.active.Some? then
      Acquired(look.db, None)
    else if role !in db.locks then
      var lock := RoleLock(role, Some(sessionId), now);
      Acquired(db.(locks := db.locks[role := lock]), Some(lock))
    else
      var lock := look.db.locks[role].(sessionId := Some(sessionId));
      Acquired(look.db.(locks := look.db.locks[role := lock]), Some(lock))
  }

  /**
   * `release_lock_if_owner`: deletes the row of `role` when `sessionId` holds
   * it; a missing row or another holder leaves everything as it was.
   */
  function ReleaseLockIfOwner(db: Db, role: Role, sessionId: string): (r: Db)
    ensures role in db.locks && db.locks[role].sessionId == Some(sessionId) ==>
              role !in r.locks && r == db.(locks := db.locks - {role})
    ensures !(role in db.locks && db.locks[role].sessionId == Some(sessionId)) ==> r == db
    // Nobody but the releasing session loses a lock.
    ensures forall x, s :: x in db.locks && db.locks[x].sessionId == Some(s) && s != sessionId ==>
              x in r.locks && r.locks[x] == db.locks[x]
  {
    if role in db.locks && db.locks[role].sessionId == Some(sessionId) then
      db.(locks := db.locks - {role})
    else
      db
  }

  /**
   * The exclusion invariant: every live session of a locked role is the
   * holder named by that role's lock row.
   */
  predicate LockInvariant(db: Db, now: int) {
    && LocksWf(db.locks)
    && SessionsWf(db.sessions)
    && forall id :: id in db.sessions && Live(db.sessions[id], now) && IsLockedRole(db.sessions[id].role) ==>
         db.sessions[id].role in db.locks && db.locks[db.sessions[id].role].sessionId == Some(id)
  }

  /** Under the invariant, the role of a live session of a locked role is held live. */
  lemma LiveHolderHeld(db: Db, now: int, id: string)
    requires LockInvariant(db, now)
    requires id in db.sessions && Live(db.sessions[id], now) && IsLockedRole(db.sessions[id].role)
    ensures HeldLive(db, db.sessions[id].role, now)
  {
  }

  /** Under the invariant, two live sessions of the same locked role are the same session. */
  lemma AtMostOneLiveHolder(db: Db, now: int, a: string, b: string)
    requires LockInvariant(db, now)
    requires a in db.sessions && b in db.sessions
    requires Live(db.sessions[a], now) && Live(db.sessions[b], now)
    requires db.sessions[a].role == db.sessions[b].role && IsLockedRole(db.sessions[a].role)
    ensures a == b
  {
    var role := db.sessions[a].role;
    assert db.locks[role].sessionId == Some(a);
    assert db.locks[role].sessionId == Some(b);
  }

  /** Time only ends sessions, so the invariant keeps holding as the clock advances. */
  lemma LockInvariantLater(db: Db, now: int, later: int)
    requires LockInvariant(db, now) && now <= later
    ensures LockInvariant(db, later)
  {
    forall id | id in db.sessions && Live(db.sessions[id], later) && IsLockedRole(db.sessions[id].role)
      ensures db.sessions[id].role in db.locks && db.locks[db.sessions[id].role].sessionId == Some(id)
    {
      assert Live(db.sessions[id], now);
    }
  }

  /** Reclaiming a stale row keeps the invariant. */
  lemma GetActiveLockKeepsInvariant(db: Db, role: Role, now: int)
    requires LockInvariant(db, now)
    ensures LockInvariant(GetActiveLock(db, role, now).db, now)
  {
    var r := GetActiveLock(db, role, now);
    if r.db != db {
      forall id | id in r.db.sessions && Live(r.db.sessions[id], now) && IsLockedRole(r.db.sessions[id].role)
        ensures r.db.sessions[id].role in r.db.locks && r.db.locks[r.db.sessions[id].role].sessionId == Some(id)
      {
        if r.db.sessions[id].role == role {
          // The holder of `role` was not live, so no live session has this role.
          assert false;
        }
      }
    }
  }

  /** Releasing a lock keeps the invariant once the releasing session is no longer live. */
  lemma ReleaseKeepsInvariant(db: Db, role: Role, sessionId: string, now: int)
    requires LockInvariant(db, now)
    requires sessionId in db.sessions && db.sessions[sessionId].role == role
    ensures var r := ReleaseLockIfOwner(db, role, sessionId);
            forall id :: id in r.sessions && id != sessionId && Live(r.sessions[id], now)
                         && IsLockedRole(r.sessions[id].role) ==>
                           r.sessions[id].role in r.locks && r.locks[r.sessions[id].role].sessionId == Some(id)
  {
    var r := ReleaseLockIfOwner(db, role, sessionId);
    forall id | id in r.sessions && id != sessionId && Live(r.sessions[id], now) && IsLockedRole(r.sessions[id].role)
      ensures r.sessions[id].role in r.locks && r.locks[r.sessions[id].role].sessionId == Some(id)
    {
      assert db.locks[db.sessions[id].role].sessionId == Some(id);
    }
  }
}

=== FILE: login_page.dfy ===
/**
 * `Login`: checks that both fields are filled, posts the credentials, and
 * turns the answer into alerts, a stored session id and a navigation. The
 * role is looked at before the first-login and role-in-use flags.
 */
module LoginPage {
  import opened Wrappers
  import opened Models
  import opened Store
  import opened Ui
  import Auth

  /** The fields of a `/login` answer the page reads, after JSON decoding. */
  datatype Answer = Answer(
    ok: bool,
    detail: Option<string>,
    sessionId: Option<string>,
    role: Option<string>,
    firstLoginRequired: bool,
    roleInUse: bool,
    message: Option<string>)

  /** What the user sees: an alert or a change of route. */
  datatype Effect = Alert(text: string) | Navigate(path: string)

  /** One click on the button: whether a request went out, what was shown, and the storage afterwards. */
  datatype Step = Step(sent: bool, effects: seq<Effect>, storage: Storage)

  /** Each role's landing route. */
  function Dashboard(r: Role): (path: string)
    ensures |path| > 10 && path[|path| - 10..] == "-dashboard"
  {
    match r
    case Officer => "/officer-dashboard"
    case Operator => "/operator-dashboard"
    case Supervisor => "/supervisor-dashboard"
  }

  lemma DashboardInjective(a: Role, b: Role)
    requires Dashboard(a) == Dashboard(b)
    ensures a == b
  {
    assert Dashboard(a)[1] == Dashboard(b)[1];
  }

  /** How JavaScript prints a missing role in a string concatenation. */
  function RoleText(role: Option<string>): string {
    if role.Some? then role.value else "undefined"
  }

  /** The role the answer names, when it is exactly one of the three role names. */
  function KnownRole(role: Option<string>): (r: Option<Role>)
    ensures r.Some? ==> role == Some(RoleName(r.value))
    ensures r.None? ==> forall x :: role != Some(RoleName(x))
  {
    if role.None? then None else ParseRole(role.value)
  }

  /**
   * `handleLogin`. An empty id or password alerts and sends nothing. An
   * answer that could not be read alerts "Error connecting to server". A
   * refusal alerts the detail or "Login failed" and stores nothing. An
   * accepted answer stores its session id when there is one, then routes a
   * known role to its dashboard; otherwise the first-login flag leads to
   * "/forgot-password", the role-in-use flag alerts its message, and
   * anything else alerts "Unknown role: <role>".
   */
  function HandleLogin(userId: string, password: string, answer: Option<Answer>, storage: Storage): (r: Step)
    ensures !r.sent <==> userId == "" || password == ""
    ensures !r.sent ==> r == Step(false, [Alert("Please enter both ID and password")], storage)
    ensures r.sent && (answer.None? || !answer.value.ok) ==> r.storage == storage && |r.effects| == 1 && r.effects[0].Alert?
    ensures r.storage != storage ==>
              r.sent && answer.Some? && answer.value.ok && Truthy(answer.value.sessionId)
              && r.storage == storage["session_id" := answer.value.sessionId.value]
    ensures r.sent && answer.Some? && answer.value.ok && KnownRole(answer.value.role).Some? ==>
              r.effects == [Navigate(Dashboard(KnownRole(answer.value.role).value))]
    ensures (exists k :: 0 <= k < |r.effects| && r.effects[k].Navigate?) ==>
              answer.Some? && answer.value.ok && (KnownRole(answer.value.role).Some? || answer.value.firstLoginRequired)
  {
    if userId == "" || password == "" then Step(false, [Alert("Please enter both ID and password")], storage)
    else if answer.None? then Step(true, [Alert("Error connecting to server")], storage)
    else
      var a := answer.value;
      if !a.ok then Step(true, [Alert(OrElse(a.detail, "Login failed"))], storage)
      else
        var stored := if Truthy(a.sessionId) then storage["session_id" := a.sessionId.value] else storage;
        Step(true, Route(a), stored)
  }

  /**
   * What a successful answer leads to: the dashboard of a known role, else
   * the password page on a first login, else an alert.
   */
  function Route(a: Answer): (r: seq<Effect>)
    ensures |r| >= 1
    ensures KnownRole(a.role).Some? ==> r == [Navigate(Dashboard(KnownRole(a.role).value))]
    ensures (exists k :: 0 <= k < |r| && r[k].Navigate?) ==> KnownRole(a.role).Some? || a.firstLoginRequired
    ensures KnownRole(a.role).None? && !a.firstLoginRequired ==> |r| == 1 && r[0].Alert?
  {
    match KnownRole(a.role)
    case Some(role) => [Navigate(Dashboard(role))]
    case None =>
      if a.firstLoginRequired then
        [Alert("First login detected. Please change your password."), Navigate("/forgot-password")]
      else if a.roleInUse then [Alert(OrElse(a.message, "Role currently in use by another user."))]
      else [Alert("Unknown role: " + RoleText(a.role))]
  }

  /** A known role wins over both flags: the first-login and role-in-use flags never matter then. */
  lemma RoleBeforeFlags(userId: string, password: string, a: Answer, storage: Storage)
    requires userId != "" && password != "" && a.ok && KnownRole(a.role).Some?
    ensures HandleLogin(userId, password, Some(a), storage)
         == HandleLogin(userId, password, Some(a.(firstLoginRequired := !a.firstLoginRequired, roleInUse := !a.roleInUse)), storage)
  {
  }

  // ---------------------------------------------------------------------------
  // The page against the backend's `/login` answers.

  /**
   * How the backend's answer reaches the page: status and decoded fields;
   * nothing for an unexpected exception, whose 500 lacks the CORS headers,
   * so the page's `fetch` rejects.
   */
  function AnswerOf(r: Outcome<Auth.LoginOut>): (a: Option<Answer>)
    ensures a.None? <==> r.Crash?
    ensures a.Some? ==> (a.value.ok <==> r.Done?)
  {
    match r
    case Fail(e) => Some(Answer(false, Some(e.detail), None, None, false, false, None))
    case Done(_, LoginSuccess(sid, role, _, _)) => Some(Answer(true, None, Some(sid), Some(role), false, false, None))
    case Done(_, RoleInUse(_, message)) => Some(Answer(true, None, None, None, false, true, Some(message)))
    case Crash(_) => None
  }

  /** The shapes `login` answers with: its own session id and the user's role name, or the fixed role-in-use message. */
  lemma LoginAnswerShape(db: Db, cfg: Auth.Config, username: string, password: string, freshId: string, now: int)
    requires Auth.Fresh(db, freshId)
    ensures var r := Auth.Login(db, cfg, username, password, freshId, now);
            r.Done? ==>
              var user := db.users[UserByUsername(db.users, username).value];
              && (r.out.LoginSuccess? ==> r.out.sessionId == freshId && r.out.role == RoleName(user.role))
              && (r.out.RoleInUse? ==> r.out.message == Auth.RoleInUseMessage)
  {
    var r := Auth.Login(db, cfg, username, password, freshId, now);
    if r.Done? {
      var uid := UserByUsername(db.users, username).value;
      assert r == Auth.Admit(db, cfg.sessionMinutes, uid, freshId, now);
    }
  }

  /** A success answer stores its session id and opens the dashboard of the role it names. */
  lemma SuccessAnswer(userId: string, password: string, d: Db, sid: string, role: Role, name: string, expires: int, storage: Storage)
    requires userId != "" && password != "" && sid != ""
    ensures var step := HandleLogin(userId, password, AnswerOf(Done(d, Auth.LoginSuccess(sid, RoleName(role), name, expires))), storage);
            step.effects == [Navigate(Dashboard(role))] && step.storage == storage["session_id" := sid]
  {
    assert KnownRole(Some(RoleName(role))) == Some(role);
  }

  /** The page's reaction to each shape `login` answers with. */
  lemma PageOfAnswer(r: Outcome<Auth.LoginOut>, username: string, password: string, freshId: string, role: Role, storage: Storage)
    requires username != "" && password != "" && freshId != ""
    requires r.Fail? ==> r.error == HttpError(401, "Invalid credentials")
    requires r.Done? && r.out.LoginSuccess? ==> r.out.sessionId == freshId && r.out.role == RoleName(role)
    requires r.Done? && r.out.RoleInUse? ==> r.out.message == Auth.RoleInUseMessage
    ensures var step := HandleLogin(username, password, AnswerOf(r), storage);
            && (r.Fail? ==> step.effects == [Alert("Invalid credentials")] && step.storage == storage)
            && (r.Done? && r.out.LoginSuccess? ==>
                  step.effects == [Navigate(Dashboard(role))] && step.storage == storage["session_id" := freshId])
            && (r.Done? && r.out.RoleInUse? ==> step.effects == [Alert(Auth.RoleInUseMessage)] && step.storage == storage)
            && (r.Crash? ==> step.effects == [Alert("Error connecting to server")] && step.storage == storage)
  {
    if r.Done? && r.out.LoginSuccess? {
      SuccessAnswer(username, password, r.db, freshId, role, r.out.username, r.out.expiresAt, storage);
    }
  }

  /**
   * Every answer `login` gives ends on the page as intended: a refusal
   * alerts the server's detail, a success stores the session id and opens
   * the user's dashboard, and a role in use alerts the server's message.
   */
  lemma BackendAnswers(db: Db, cfg: Auth.Config, username: string, password: string, freshId: string, now: int, storage: Storage)
    requires Auth.Fresh(db, freshId) && username != "" && password != "" && freshId != ""
    ensures var r := Auth.Login(db, cfg, username, password, freshId, now);
            var step := HandleLogin(username, password, AnswerOf(r), storage);
            && (r.Fail? ==> step.effects == [Alert("Invalid credentials")] && step.storage == storage)
            && (r.Done? && r.out.LoginSuccess? ==>
                  var role := db.users[UserByUsername(db.users, username).value].role;
                  step.effects == [Navigate(Dashboard(role))] && step.storage == storage["session_id" := freshId])
            && (r.Done? && r.out.RoleInUse? ==> step.effects == [Alert(Auth.RoleInUseMessage)] && step.storage == storage)
  {
    var r := Auth.Login(db, cfg, username, password, freshId, now);
    LoginAnswerShape(db, cfg, username, password, freshId, now);
    var role := if r.Done? then db.users[UserByUsername(db.users, username).value].role else Officer;
    PageOfAnswer(r, username, password, freshId, role, storage);
  }
}

=== FILE: models.dfy ===
/**
 * The rows of the backend's tables, as immutable records.
 *
 * Timestamps are whole seconds since the epoch (`int`); nullable columns are
 * `Option`s. Password hashes are opaque strings.
 */
module Models {
  import opened Wrappers
  import opened Text

  /** `UserRole`: the three kinds of account. */
  datatype Role = Officer | Supervisor | Operator

  /** Officers and supervisors hold an exclusive per-role lock while logged in. */
  predicate IsLockedRole(r: Role) {
    r == Officer || r == Supervisor
  }

  function RoleName(r: Role): string {
    match r
    case Officer => "OFFICER"
    case Supervisor => "SUPERVISOR"
    case Operator => "OPERATOR"
  }

  /** The enum constructor `UserRole(value)`: exact, case-sensitive. */
  function ParseRole(s: string): (r: Option<Role>)
    ensures forall x: Role :: r == Some(x) <==> RoleName(x) == s
  {
    if s == "OFFICER" then Some(Officer)
    else if s == "SUPERVISOR" then Some(Supervisor)
    else if s == "OPERATOR" then Some(Operator)
    else None
  }

  /** `RequestStatus`, including the COLLECTED value added by a later migration. */
  datatype RequestStatus = Pending | Approved | Rejected | Collected

  function StatusName(s: RequestStatus): string {
    match s
    case Pending => "PENDING"
    case Approved => "APPROVED"
    case Rejected => "REJECTED"
    case Collected => "COLLECTED"
  }

  /** The lower-case spellings the client compares and displays. */
  lemma LowerPending()
    ensures ToLower("PENDING") == "pending"
  {
    LowerOf("PENDING", "pending");
  }

  lemma LowerApproved()
    ensures ToLower("APPROVED") == "approved"
  {
    LowerOf("APPROVED", "approved");
  }

  lemma LowerRejected()
    ensures ToLower("REJECTED") == "rejected"
  {
    LowerOf("REJECTED", "rejected");
  }

  lemma LowerCollected()
    ensures ToLower("COLLECTED") == "collected"
  {
    LowerOf("COLLECTED", "collected");
  }

  /** The enum constructor `RequestStatus(value)`: exact, case-sensitive. */
  function ParseStatus(s: string): (r: Option<RequestStatus>)
    ensures forall x: RequestStatus :: r == Some(x) <==> StatusName(x) == s
  {
    if s == "PENDING" then Some(Pending)
    else if s == "APPROVED" then Some(Approved)
    else if s == "REJECTED" then Some(Rejected)
    else if s == "COLLECTED" then Some(Collected)
    else None
  }

  /** `SessionEndReason`. */
  datatype EndReason = LoggedOut | Expired

  /** The range of a 32-bit `Integer` column. */
  const MinInteger: int := -0x8000_0000
  const MaxInteger: int := 0x7fff_ffff

  /** The width of the `String(100)` columns of the inventory and addition-request tables. */
  const TextWidth: int := 100

  /** A row of `tool_inventory` as the ORM class declares it. */
  datatype Tool = Tool(
    id: int,
    toolName: string,
    quantity: int,
    addedAt: int,
    rangeMm: Option<string>,
    identificationCode: Option<string>,
    make: Option<string>)

  /** A row of `tool_usage_requests`: an operator asking to use stock. */
  datatype UsageRequest = UsageRequest(
    id: int,
    requestId: string,
    operatorId: int,
    toolId: int,
    requestedQty: int,
    status: RequestStatus,
    requestedAt: int,
    reviewedAt: Option<int>,
    reviewerId: Option<int>,
    reviewerRemarks: Option<string>)

  /** A row of `tool_addition_requests`: a supervisor asking for a new tool. */
  datatype AdditionRequest = AdditionRequest(
    id: int,
    toolName: string,
    status: RequestStatus,
    requestedBy: int,
    createdAt: int)

  /** A row of `tool_issues`; its status is free text that starts as "OPEN". */
  datatype Issue = Issue(
    id: int,
    toolId: int,
    operatorId: int,
    description: string,
    status: string,
    createdAt: int,
    resolvedAt: Option<int>)

  const IssueOpen: string := "OPEN"

  /** A row of `users`. */
  datatype User = User(
    id: int,
    fullName: string,
    username: string,
    email: string,
    contactNumber: string,
    role: Role,
    hashedPassword: string,
    isFirstLogin: bool,
    isActive: bool)

  /** A row of `sessions`, keyed by its random hexadecimal identifier. */
  datatype Session = Session(
    sessionId: string,
    userId: int,
    role: Role,
    loginAt: int,
    expiresAt: int,
    logoutAt: Option<int>,
    endedReason: Option<EndReason>)

  /** A session is live at `now` while it is neither logged out nor expired. */
  predicate Live(s: Session, now: int) {
    s.logoutAt.None? && s.expiresAt > now
  }

  /** A row of `role_locks`: which session holds a role, if any. */
  datatype RoleLock = RoleLock(role: Role, sessionId: Option<string>, lockedAt: int)
}

=== FILE: officer_api.dfy ===
/**
 * Officer endpoints (`app/api/v1/officer.py`): user accounts, the decision on
 * supervisors' tool-addition requests, and the list of live sessions.
 */
module OfficerApi {
  import opened Wrappers
  import opened Models
  import opened Store
  import opened Locks
  import Auth
  import SupervisorApi
  import Lists

  // ---------------------------------------------------------------------------
  // Users.

  /** The `UserCreateIn` payload. */
  datatype NewUser = NewUser(fullName: string, username: string, email: string, contactNumber: string, role: Role)

  /** No two accounts share a username. */
  predicate UniqueUsernames(users: map<int, User>) {
    forall j, k :: j in users && k in users && users[j].username == users[k].username ==> j == k
  }

  /**
   * `create_user`: 400 when the username is taken, checked before 400 when
   * the email is taken; otherwise a new account under the next key with the
   * hash of the configured default password, flagged for a first-login
   * password change and active.
   */
  function CreateUser(db: Db, cfg: Auth.Config, p: NewUser): (r: Outcome<User>)
    ensures UserByUsername(db.users, p.username).Some? ==> r == Fail(HttpError(400, "Username already exists"))
    ensures UserByUsername(db.users, p.username).None? && UserByEmail(db.users, p.email).Some? ==>
              r == Fail(HttpError(400, "Email already exists"))
    ensures r.Done? <==>
              && (forall k :: k in db.users ==> db.users[k].username != p.username)
              && (forall k :: k in db.users ==> db.users[k].email != p.email)
    ensures r.Done? ==>
              var k := NextKey(db.users.Keys);
              && k !in db.users
              && r.out == User(k, p.fullName, p.username, p.email, p.contactNumber, p.role,
                               cfg.hash(cfg.defaultPassword), true, true)
              && r.db == db.(users := db.users[k := r.out])
  {
    if UserByUsername(db.users, p.username).Some? then Fail(HttpError(400, "Username already exists"))
    else if UserByEmail(db.users, p.email).Some? then Fail(HttpError(400, "Email already exists"))
    else
      var k := NextKey(db.users.Keys);
      var user := User(k, p.fullName, p.username, p.email, p.contactNumber, p.role,
                       cfg.hash(cfg.defaultPassword), true, true);
      Done(db.(users := db.users[k := user]), user)
  }

  /** A created account is the one its username now finds. */
  lemma CreateUserThenFound(db: Db, cfg: Auth.Config, p: NewUser)
    ensures var r := CreateUser(db, cfg, p);
            r.Done? ==> UserByUsername(r.db.users, p.username) == Some(r.out.id)
  {
    var r := CreateUser(db, cfg, p);
    if r.Done? {
      var k := r.out.id;
      var users := r.db.users;
      forall j | j in users && j != k ensures users[j].username != p.username {
        assert users[j] == db.users[j];
      }
      OnlyHolder(users, k, p.username);
    }
  }

  /** When one account alone holds a username, the lookup finds that account. */
  lemma OnlyHolder(users: map<int, User>, k: int, username: string)
    requires k in users && users[k].username == username
    requires forall j :: j in users && j != k ==> users[j].username != username
    ensures UserByUsername(users, username) == Some(k)
  {
  }

  /** Creating an account keeps usernames unique and every account under its own id. */
  lemma CreateUserKeepsUnique(db: Db, cfg: Auth.Config, p: NewUser)
    requires UniqueUsernames(db.users) && UsersWf(db.users)
    ensures var r := CreateUser(db, cfg, p);
            r.Done? ==> UniqueUsernames(r.db.users) && UsersWf(r.db.users)
  {
  }

  /** Once an account exists, creating another with its username is refused. */
  lemma CreateUserTwice(db: Db, cfg: Auth.Config, p: NewUser, q: NewUser)
    requires q.username == p.username
    ensures var r := CreateUser(db, cfg, p);
            r.Done? ==> CreateUser(r.db, cfg, q) == Fail(HttpError(400, "Username already exists"))
  {
    var r := CreateUser(db, cfg, p);
    if r.Done? {
      assert r.db.users[r.out.id].username == q.username;
    }
  }

  /**
   * Some row points at the account through a foreign key to `users.id`:
   * a usage request's operator or reviewer, an addition request's requester,
   * an issue's reporter. None of these keys cascades on delete.
   */
  predicate Referenced(db: Db, userId: int) {
    || (exists k :: k in db.usage && (db.usage[k].operatorId == userId || db.usage[k].reviewerId == Some(userId)))
    || (exists k :: k in db.additions && db.additions[k].requestedBy == userId)
    || (exists k :: k in db.issues && db.issues[k].operatorId == userId)
  }

  /** Every foreign key of those tables to `users.id` names an existing account. */
  predicate RefsValid(db: Db) {
    && (forall k :: k in db.usage ==> db.usage[k].operatorId in db.users)
    && (forall k :: k in db.usage && db.usage[k].reviewerId.Some? ==> db.usage[k].reviewerId.value in db.users)
    && (forall k :: k in db.additions ==> db.additions[k].requestedBy in db.users)
    && (forall k :: k in db.issues ==> db.issues[k].operatorId in db.users)
  }

  /**
   * `delete_user`: 404 for an unknown id. An account some row still points
   * at cannot be deleted: the commit violates the foreign key, nothing
   * catches the `IntegrityError`, and the global handler answers with a plain
   * 500 whose text `dbError` stands for the driver's message. Otherwise
   * exactly that account is removed.
   */
  function DeleteUser(db: Db, userId: int, dbError: string): (r: Outcome<string>)
    ensures r.Fail? <==> userId !in db.users
    ensures r.Fail? ==> r.error == HttpError(404, "User not found")
    ensures r.Crash? <==> userId in db.users && Referenced(db, userId)
    ensures r.Crash? ==> r.message == dbError
    ensures r.Done? ==>
              && r.db.users.Keys == db.users.Keys - {userId}
              && (forall k :: k in r.db.users ==> r.db.users[k] == db.users[k])
              && r.db == db.(users := r.db.users)
              && r.out == "User deleted"
  {
    if userId !in db.users then Fail(HttpError(404, "User not found"))
    else if Referenced(db, userId) then Outcome<string>.Crash(dbError)
    else Done(db.(users := db.users - {userId}), "User deleted")
  }

  /** Deleting the same account twice: the second call finds nothing. */
  lemma DeleteUserTwice(db: Db, userId: int, dbError: string)
    ensures var r := DeleteUser(db, userId, dbError);
            r.Done? ==> DeleteUser(r.db, userId, dbError) == Fail(HttpError(404, "User not found"))
  {
  }

  /** A delete that succeeds never leaves a row pointing at a missing account. */
  lemma DeleteUserKeepsRefs(db: Db, userId: int, dbError: string)
    requires RefsValid(db)
    ensures var r := DeleteUser(db, userId, dbError);
            r.Done? ==> RefsValid(r.db)
  {
  }

  // ---------------------------------------------------------------------------
  // Tool-addition requests.

  predicate StatusMatches(a: AdditionRequest, filter: Option<RequestStatus>) {
    filter.None? || a.status == filter.value
  }

  /** The response row of an addition request. */
  function AdditionOutOf(a: AdditionRequest): (r: SupervisorApi.AdditionOut)
    ensures r.id == a.id && r.toolName == a.toolName && r.requestedBy == a.requestedBy && r.createdAt == a.createdAt
    ensures ParseStatus(r.status) == Some(a.status)
  {
    SupervisorApi.AdditionOut(a.id, a.toolName, StatusName(a.status), a.requestedBy, a.createdAt)
  }

  /** The requests that pass the optional status filter, newest first. */
  function MatchingAdditions(db: Db, filter: Option<RequestStatus>): seq<AdditionRequest> {
    NewestFirst(Select(db.additions, (a: AdditionRequest) => StatusMatches(a, filter)), (a: AdditionRequest) => a.createdAt)
  }

  /** `list_tool_additions`: every request with the given status (all when none is given), newest first. */
  function ListToolAdditions(db: Db, filter: Option<RequestStatus>): (r: seq<SupervisorApi.AdditionOut>)
    ensures |r| == |MatchingAdditions(db, filter)|
    ensures forall i :: 0 <= i < |r| ==> r[i] == AdditionOutOf(MatchingAdditions(db, filter)[i])
  {
    Lists.MapSeq(MatchingAdditions(db, filter), AdditionOutOf)
  }

  /** Exactly the rows with the requested status are listed, and newer rows come first. */
  lemma ListToolAdditionsSpec(db: Db, filter: Option<RequestStatus>)
    ensures var rows := MatchingAdditions(db, filter);
            && (forall k :: k in db.additions && StatusMatches(db.additions[k], filter) ==> db.additions[k] in rows)
            && (forall x :: x in rows ==> StatusMatches(x, filter) && exists k :: k in db.additions && db.additions[k] == x)
            && (forall i :: 0 < i < |rows| ==> rows[i - 1].createdAt >= rows[i].createdAt)
  {
    var p := (a: AdditionRequest) => StatusMatches(a, filter);
    var at := (a: AdditionRequest) => a.createdAt;
    var sel := Select(db.additions, p);
    NewestFirstMembers(sel, at);
    NewestFirstOrder(sel, at);
    forall k | k in db.additions && StatusMatches(db.additions[k], filter) ensures db.additions[k] in MatchingAdditions(db, filter) {
      SelectHas(db.additions, p, k);
    }
    forall x | x in MatchingAdditions(db, filter)
      ensures StatusMatches(x, filter) && exists k :: k in db.additions && db.additions[k] == x
    {
      SelectFrom(db.additions, p, x);
    }
  }

  /** The `ApproveToolAdditionOut` response; the approver and time are never filled in. */
  datatype ApproveAdditionOut = ApproveAdditionOut(id: int, toolName: string, status: string,
                                                   approvedBy: Option<int>, approvedAt: Option<int>)

  /** The checks both decisions share: 404 for an unknown id, 400 unless PENDING. */
  function AdditionDecisionError(db: Db, id: int): (e: Option<HttpError>)
    ensures e.None? <==> id in db.additions && db.additions[id].status == Pending
    ensures id !in db.additions ==> e == Some(HttpError(404, "Request not found"))
    ensures id in db.additions && db.additions[id].status != Pending ==> e == Some(HttpError(400, "Request already processed"))
  {
    if id !in db.additions then Some(HttpError(404, "Request not found"))
    else if db.additions[id].status != Pending then Some(HttpError(400, "Request already processed"))
    else None
  }

  /**
   * `approve_tool_addition`: a PENDING request becomes APPROVED and nothing
   * else changes; in particular no inventory row is created.
   */
  function ApproveToolAddition(db: Db, id: int): (r: Outcome<ApproveAdditionOut>)
    ensures r.Fail? <==> AdditionDecisionError(db, id).Some?
    ensures r.Fail? ==> r.error == AdditionDecisionError(db, id).value
    ensures r.Done? ==>
              && r.db == db.(additions := db.additions[id := db.additions[id].(status := Approved)])
              && r.out == ApproveAdditionOut(id, db.additions[id].toolName, "APPROVED", None, None)
  {
    match AdditionDecisionError(db, id)
    case Some(e) => Fail(e)
    case None =>
      var a := db.additions[id].(status := Approved);
      Done(db.(additions := db.additions[id := a]), ApproveAdditionOut(id, a.toolName, StatusName(a.status), None, None))
  }

  /** `reject_tool_addition`: a PENDING request becomes REJECTED; the reason is accepted and ignored. */
  function RejectToolAddition(db: Db, id: int, reason: string): (r: Outcome<string>)
    ensures r.Fail? <==> AdditionDecisionError(db, id).Some?
    ensures r.Fail? ==> r.error == AdditionDecisionError(db, id).value
    ensures r.Done? ==>
              && r.db == db.(additions := db.additions[id := db.additions[id].(status := Rejected)])
              && r.out == "Rejected"
  {
    match AdditionDecisionError(db, id)
    case Some(e) => Fail(e)
    case None => Done(db.(additions := db.additions[id := db.additions[id].(status := Rejected)]), "Rejected")
  }

  /**
   * Deciding an addition request touches only that request: the inventory
   * and every other request are unchanged, and a second decision is refused.
   */
  lemma AdditionDecisionsFinal(db: Db, id: int, reason: string, reason2: string)
    ensures var r := ApproveToolAddition(db, id);
            r.Done? ==>
              && r.db.tools == db.tools
              && r.db.additions.Keys == db.additions.Keys
              && (forall k :: k in db.additions && k != id ==> r.db.additions[k] == db.additions[k])
              && ApproveToolAddition(r.db, id) == Fail(HttpError(400, "Request already processed"))
              && RejectToolAddition(r.db, id, reason2) == Fail(HttpError(400, "Request already processed"))
    ensures var r := RejectToolAddition(db, id, reason);
            r.Done? ==>
              && r.db.tools == db.tools
              && r.db.additions.Keys == db.additions.Keys
              && (forall k :: k in db.additions && k != id ==> r.db.additions[k] == db.additions[k])
              && ApproveToolAddition(r.db, id) == Fail(HttpError(400, "Request already processed"))
              && RejectToolAddition(r.db, id, reason2) == Fail(HttpError(400, "Request already processed"))
  {
  }

  /** The rejection reason has no effect on the outcome. */
  lemma RejectIgnoresReason(db: Db, id: int, reason1: string, reason2: string)
    ensures RejectToolAddition(db, id, reason1) == RejectToolAddition(db, id, reason2)
  {
  }

  // ---------------------------------------------------------------------------
  // Live sessions.

  /** One row of the `active-sessions` response. */
  datatype ActiveRow = ActiveRow(sessionId: string, userId: int, role: string, loginAt: int, expiresAt: int)

  function ActiveRowOf(s: Session): ActiveRow {
    ActiveRow(s.sessionId, s.userId, RoleName(s.role), s.loginAt, s.expiresAt)
  }

  /**
   * `active_sessions`: the sessions not logged out whose expiry is after
   * `now`. The query has no `ORDER BY`, so the rows are a set.
   */
  function ActiveSessions(db: Db, now: int): (r: set<ActiveRow>)
    ensures forall id :: id in db.sessions && Live(db.sessions[id], now) ==> ActiveRowOf(db.sessions[id]) in r
    ensures forall x :: x in r ==> exists id :: id in db.sessions && Live(db.sessions[id], now) && x == ActiveRowOf(db.sessions[id])
  {
    set id | id in db.sessions && Live(db.sessions[id], now) :: ActiveRowOf(db.sessions[id])
  }

  /** Under the lock invariant, the live sessions show at most one row per officer or supervisor role. */
  lemma OneActiveRowPerLockedRole(db: Db, now: int, x: ActiveRow, y: ActiveRow)
    requires LockInvariant(db, now)
    requires x in ActiveSessions(db, now) && y in ActiveSessions(db, now)
    requires x.role == y.role && (x.role == "OFFICER" || x.role == "SUPERVISOR")
    ensures x == y
  {
    var a :| a in db.sessions && Live(db.sessions[a], now) && x == ActiveRowOf(db.sessions[a]);
    var b :| b in db.sessions && Live(db.sessions[b], now) && y == ActiveRowOf(db.sessions[b]);
    var ra, rb := db.sessions[a].role, db.sessions[b].role;
    assert RoleName(ra) == RoleName(rb);
    assert ra == rb && IsLockedRole(ra);
    AtMostOneLiveHolder(db, now, a, b);
  }

  // ---------------------------------------------------------------------------
  // Tool issues.

  /** Every issue counts: `list_tool_issues` has no filter. */
  predicate AnyIssue(i: Issue) {
    true
  }

  /** The `ORDER BY created_at DESC` key. */
  function ReportedAt(i: Issue): int {
    i.createdAt
  }

  /** `list_tool_issues`: every reported issue once, newest first, with all its columns. */
  function ListToolIssues(db: Db): (r: seq<Issue>)
    ensures |r| <= |db.issues|
    ensures multiset(r) == multiset(Select(db.issues, AnyIssue))
  {
    NewestFirst(Select(db.issues, AnyIssue), ReportedAt)
  }

  /** The list holds exactly the table's issues, newer ones first. */
  lemma ListToolIssuesSpec(db: Db)
    ensures var r := ListToolIssues(db);
            && (forall k :: k in db.issues ==> db.issues[k] in r)
            && (forall x :: x in r ==> exists k :: k in db.issues && db.issues[k] == x)
            && (forall i :: 0 < i < |r| ==> r[i - 1].createdAt >= r[i].createdAt)
  {
    EveryIssueListed(db);
    OnlyStoredIssuesListed(db);
    IssuesNewestFirst(db);
  }

  lemma EveryIssueListed(db: Db)
    ensures forall k :: k in db.issues ==> db.issues[k] in ListToolIssues(db)
  {
    NewestFirstMembers(Select(db.issues, AnyIssue), ReportedAt);
    forall k | k in db.issues ensures db.issues[k] in ListToolIssues(db) {
      SelectHas(db.issues, AnyIssue, k);
    }
  }

  lemma OnlyStoredIssuesListed(db: Db)
    ensures forall x :: x in ListToolIssues(db) ==> exists k :: k in db.issues && db.issues[k] == x
  {
    NewestFirstMembers(Select(db.issues, AnyIssue), ReportedAt);
    forall x | x in ListToolIssues(db) ensures exists k :: k in db.issues && db.issues[k] == x {
      SelectFrom(db.issues, AnyIssue, x);
    }
  }

  lemma IssuesNewestFirst(db: Db)
    ensures var r := ListToolIssues(db);
            forall i :: 0 < i < |r| ==> r[i - 1].createdAt >= r[i].createdAt
  {
    var sel := Select(db.issues, AnyIssue);
    var r := NewestFirst(sel, ReportedAt);
    assert r == ListToolIssues(db);
    NewestFirstOrder(sel, ReportedAt);
    KeyOrderIsCreatedOrder(r);
  }

  lemma KeyOrderIsCreatedOrder(r: seq<Issue>)
    requires forall i :: 0 < i < |r| ==> ReportedAt(r[i - 1]) >= ReportedAt(r[i])
    ensures forall i :: 0 < i < |r| ==> r[i - 1].createdAt >= r[i].createdAt
  {
    forall i | 0 < i < |r| ensures r[i - 1].createdAt >= r[i].createdAt {
      assert ReportedAt(r[i - 1]) >= ReportedAt(r[i]);
    }
  }
}

=== FILE: officer_list_pages.dfy ===
/**
 * The officer's list pages: the issue reports, the inventory and the
 * available tools. Each loads one backend list once, keeps it, and shows
 * what the filter bar's current query lets through; clearing the filters
 * shows the loaded list again.
 */
module OfficerListPages {
  import opened Wrappers
  import opened Models
  import opened Text
  import opened Lists
  import opened ListFilters
  import Store
  import opened Ui
  import OperatorApi
  import OfficerApi

  // ---------------------------------------------------------------------------
  // Issue reports (`OfficerIssueReports.jsx`).

  /** Tool id, operator id, description, status and id, in the page's order. */
  function IssueFields(i: Issue): seq<Field> {
    [Number(Some(i.toolId)), Number(Some(i.operatorId)), Words(Some(i.description)), Words(Some(i.status)), Number(Some(i.id))]
  }

  function IssueStamp(i: Issue): Option<int> {
    Some(i.createdAt)
  }

  const IssueFilter: Spec<Issue> := Spec(TrimmedTerm, IssueFields, IssueStamp, true)

  /** The search the page runs, written out field by field. */
  predicate IssueMatches(i: Issue, term: string) {
    || Includes(IntToDecimal(i.toolId), term)
    || Includes(IntToDecimal(i.operatorId), term)
    || Includes(ToLower(i.description), ToLower(term))
    || Includes(ToLower(i.status), ToLower(term))
    || Includes(IntToDecimal(i.id), term)
  }

  lemma IssueFieldsMatch(i: Issue, term: string)
    ensures AnyMatches(IssueFields(i), term) <==> IssueMatches(i, term)
  {
    var fs := IssueFields(i);
    if IssueMatches(i, term) {
      if Includes(IntToDecimal(i.toolId), term) {
        assert FieldMatches(fs[0], term);
      } else if Includes(IntToDecimal(i.operatorId), term) {
        assert FieldMatches(fs[1], term);
      } else if Includes(ToLower(i.description), ToLower(term)) {
        assert FieldMatches(fs[2], term);
      } else if Includes(ToLower(i.status), ToLower(term)) {
        assert FieldMatches(fs[3], term);
      } else {
        assert FieldMatches(fs[4], term);
      }
    }
  }

  /**
   * Loading the issues: the body as the list; an error status throws
   * "Failed to fetch tool issues", and whatever throws shows its message.
   */
  function LoadIssues(f: Fetch<Issue>): (r: View<Issue>)
    ensures r.error.None? <==> f.Answered?
    ensures f.Answered? ==> r.rows == r.shown == Loaded(f.data)
    ensures f.BadStatus? ==> r == View([], [], Some("Failed to fetch tool issues"))
    ensures f.Thrown? ==> r == View([], [], Some(f.message))
  {
    match f
    case Answered(d) => View(Loaded(d), Loaded(d), None)
    case BadStatus => View([], [], Some("Failed to fetch tool issues"))
    case Thrown(m) => View([], [], Some(m))
  }

  /** `handleFilter` on the issue page. */
  function FilterIssues(v: View<Issue>, term: string, date: Option<int>, day: int -> int): (r: View<Issue>)
    ensures r.rows == v.rows && r.error == v.error
    ensures r.shown == HandleFilter(IssueFilter, v.rows, term, date, day)
  {
    v.(shown := HandleFilter(IssueFilter, v.rows, term, date, day))
  }

  /** Over the backend's issue list, the page shows a subsequence of it, in its order. */
  lemma IssueSearchKeepsOrder(db: Store.Db, term: string, date: Option<int>, day: int -> int)
    ensures var rows := OfficerApi.ListToolIssues(db);
            IsSubsequence(FilterIssues(LoadIssues(Answered(Some(rows))), term, date, day).shown, rows)
  {
    HandleFilterSpec(IssueFilter, OfficerApi.ListToolIssues(db), term, date, day);
  }

  /**
   * Over the backend's issue list, a stored issue is on show exactly when a
   * non-blank term occurs in one of its five fields and, with a date chosen,
   * it was reported on that day.
   */
  lemma IssueSearch(db: Store.Db, term: string, date: Option<int>, day: int -> int, k: int)
    requires k in db.issues
    ensures var shown := FilterIssues(LoadIssues(Answered(Some(OfficerApi.ListToolIssues(db)))), term, date, day).shown;
            db.issues[k] in shown <==>
              && (Trim(term, IsJsSpace) != "" ==> IssueMatches(db.issues[k], term))
              && (date.Some? ==> day(db.issues[k].createdAt) == day(date.value))
  {
    var rows := OfficerApi.ListToolIssues(db);
    OfficerApi.ListToolIssuesSpec(db);
    ShownIff(IssueFilter, rows, term, date, day, db.issues[k]);
    IssueFieldsMatch(db.issues[k], term);
  }

  /** The status badge: lower-cased status as the class ("open" when empty), the status as the text ("Open" when empty). */
  function IssueBadge(status: Option<string>): (r: (string, string))
    ensures Truthy(status) ==> r == (ToLower(status.value), status.value)
    ensures !Truthy(status) ==> r == ("open", "Open")
  {
    var lower := if status.Some? then Some(ToLower(status.value)) else None;
    (OrElse(lower, "open"), OrElse(status, "Open"))
  }

  // ---------------------------------------------------------------------------
  // Inventory (`OfficerInventoryPage.jsx`), over the operator tool list.

  /** Name, make, location, identification code, gauge and id, in the page's order. */
  function InventoryFields(t: OperatorApi.ToolListItem): seq<Field> {
    [Words(Some(t.toolName)), Words(t.make), Words(t.location), Words(t.identificationCode), Words(t.gauge), Number(Some(t.id))]
  }

  function AddedStamp(t: OperatorApi.ToolListItem): Option<int> {
    t.addedAt
  }

  const InventoryFilter: Spec<OperatorApi.ToolListItem> := Spec(TrimmedTerm, InventoryFields, AddedStamp, true)

  /** Either failure leaves the list empty under "Failed to fetch tools"; a body that is not an array loads as empty. */
  function LoadInventory(f: Fetch<OperatorApi.ToolListItem>): (r: View<OperatorApi.ToolListItem>)
    ensures r.error.None? <==> f.Answered?
    ensures f.Answered? ==> r.rows == r.shown == Loaded(f.data)
    ensures !f.Answered? ==> r == View([], [], Some("Failed to fetch tools"))
  {
    match f
    case Answered(d) => View(Loaded(d), Loaded(d), None)
    case _ => View([], [], Some("Failed to fetch tools"))
  }

  function FilterInventory(v: View<OperatorApi.ToolListItem>, term: string, date: Option<int>, day: int -> int): (r: View<OperatorApi.ToolListItem>)
    ensures r.rows == v.rows && r.error == v.error
    ensures r.shown == HandleFilter(InventoryFilter, v.rows, term, date, day)
  {
    v.(shown := HandleFilter(InventoryFilter, v.rows, term, date, day))
  }

  /** What a search can find in a stored tool, given that the list sends no location and no gauge. */
  predicate ToolMatches(t: Tool, term: string) {
    || Includes(ToLower(t.toolName), ToLower(term))
    || (t.make.Some? && Includes(ToLower(t.make.value), ToLower(term)))
    || (t.identificationCode.Some? && Includes(ToLower(t.identificationCode.value), ToLower(term)))
    || Includes(IntToDecimal(t.id), term)
  }

  lemma InventoryFieldsMatch(t: Tool, term: string)
    ensures AnyMatches(InventoryFields(OperatorApi.ListItem(t)), term) <==> ToolMatches(t, term)
  {
    var x := OperatorApi.ListItem(t);
    var fs := InventoryFields(x);
    assert fs == [Words(Some(t.toolName)), Words(t.make), Words(None), Words(t.identificationCode), Words(None), Number(Some(t.id))];
    if AnyMatches(fs, term) {
      var i :| 0 <= i < |fs| && FieldMatches(fs[i], term);
      assert i != 2 && i != 4;
    }
    if ToolMatches(t, term) {
      if Includes(ToLower(t.toolName), ToLower(term)) {
        assert FieldMatches(fs[0], term);
      } else if t.make.Some? && Includes(ToLower(t.make.value), ToLower(term)) {
        assert FieldMatches(fs[1], term);
      } else if t.identificationCode.Some? && Includes(ToLower(t.identificationCode.value), ToLower(term)) {
        assert FieldMatches(fs[3], term);
      } else {
        assert FieldMatches(fs[5], term);
      }
    }
  }

  /**
   * Over the operator tool list, a stored tool is on show exactly when a
   * non-blank term occurs in its name, make, identification code or id
   * (location and gauge are searched but always null) and, with a date
   * chosen, it was added on that day.
   */
  lemma InventorySearch(db: Store.Db, term: string, date: Option<int>, day: int -> int, k: int)
    requires k in db.tools
    ensures var shown := FilterInventory(LoadInventory(Answered(Some(OperatorApi.ListAvailableTools(db)))), term, date, day).shown;
            OperatorApi.ListItem(db.tools[k]) in shown <==>
              && (Trim(term, IsJsSpace) != "" ==> ToolMatches(db.tools[k], term))
              && (date.Some? ==> day(db.tools[k].addedAt) == day(date.value))
  {
    var rows := OperatorApi.ListAvailableTools(db);
    OperatorApi.EveryToolListed(db, k);
    ShownIff(InventoryFilter, rows, term, date, day, OperatorApi.ListItem(db.tools[k]));
    InventoryFieldsMatch(db.tools[k], term);
  }

  // ---------------------------------------------------------------------------
  // Available tools (`OfficerAvailableTools.jsx`).

  /** `(tool.quantity ?? 0) > 0`. */
  predicate InStock(t: OperatorApi.ToolListItem) {
    t.quantity > 0
  }

  /** Name, category (which the list never sends), location and id; this page has no date filter. */
  function AvailableFields(t: OperatorApi.ToolListItem): seq<Field> {
    [Words(Some(t.toolName)), Words(None), Words(t.location), Number(Some(t.id))]
  }

  const AvailableFilter: Spec<OperatorApi.ToolListItem> := Spec(TrimmedTerm, AvailableFields, AddedStamp, false)

  /**
   * The in-stock tools of the body; an error status shows "Failed to fetch
   * tools", anything thrown "Error connecting to server".
   */
  function LoadAvailable(f: Fetch<OperatorApi.ToolListItem>): (r: View<OperatorApi.ToolListItem>)
    ensures r.error.None? <==> f.Answered?
    ensures f.Answered? ==> r.rows == r.shown == Filter(Loaded(f.data), InStock)
    ensures f.BadStatus? ==> r == View([], [], Some("Failed to fetch tools"))
    ensures f.Thrown? ==> r == View([], [], Some("Error connecting to server"))
  {
    match f
    case Answered(d) =>
      var available := Filter(Loaded(d), InStock);
      View(available, available, None)
    case BadStatus => View([], [], Some("Failed to fetch tools"))
    case Thrown(_) => View([], [], Some("Error connecting to server"))
  }

  function FilterAvailable(v: View<OperatorApi.ToolListItem>, term: string, date: Option<int>, day: int -> int): (r: View<OperatorApi.ToolListItem>)
    ensures r.rows == v.rows && r.error == v.error
    ensures r.shown == HandleFilter(AvailableFilter, v.rows, term, date, day)
  {
    v.(shown := HandleFilter(AvailableFilter, v.rows, term, date, day))
  }

  /** Over the operator tool list, the page keeps the stored tools with stock, in the list's order. */
  lemma AvailableKeepsOrder(db: Store.Db)
    ensures var all := OperatorApi.ListAvailableTools(db);
            IsSubsequence(LoadAvailable(Answered(Some(all))).rows, all)
  {
    FilterSpec(OperatorApi.ListAvailableTools(db), InStock);
  }

  /** A stored tool is kept exactly when it has stock. */
  lemma AvailableAreInStock(db: Store.Db, k: int)
    requires k in db.tools
    ensures var rows := LoadAvailable(Answered(Some(OperatorApi.ListAvailableTools(db)))).rows;
            OperatorApi.ListItem(db.tools[k]) in rows <==> db.tools[k].quantity > 0
  {
    var all := OperatorApi.ListAvailableTools(db);
    FilterSpec(all, InStock);
    OperatorApi.EveryToolListed(db, k);
  }

  /** The chosen date changes nothing on this page. */
  lemma AvailableIgnoresDate(v: View<OperatorApi.ToolListItem>, term: string, date: Option<int>, day: int -> int)
    ensures FilterAvailable(v, term, date, day) == FilterAvailable(v, term, None, day)
  {
  }

  /** What a search can find in a loaded tool: its name, location or id. */
  predicate AvailableMatches(t: OperatorApi.ToolListItem, term: string) {
    || Includes(ToLower(t.toolName), ToLower(term))
    || (t.location.Some? && Includes(ToLower(t.location.value), ToLower(term)))
    || Includes(IntToDecimal(t.id), term)
  }

  lemma AvailableFieldsMatch(t: OperatorApi.ToolListItem, term: string)
    ensures AnyMatches(AvailableFields(t), term) <==> AvailableMatches(t, term)
  {
    var fs := AvailableFields(t);
    if Includes(ToLower(t.toolName), ToLower(term)) {
      assert FieldMatches(fs[0], term);
    } else if t.location.Some? && Includes(ToLower(t.location.value), ToLower(term)) {
      assert FieldMatches(fs[2], term);
    } else if Includes(IntToDecimal(t.id), term) {
      assert FieldMatches(fs[3], term);
    }
  }

  /** A loaded tool is on show exactly when a non-blank term occurs in its name, location or id. */
  lemma AvailableShown(v: View<OperatorApi.ToolListItem>, term: string, date: Option<int>, day: int -> int, t: OperatorApi.ToolListItem)
    ensures t in FilterAvailable(v, term, date, day).shown <==>
              t in v.rows && (Trim(term, IsJsSpace) != "" ==> AvailableMatches(t, term))
  {
    ShownIff(AvailableFilter, v.rows, term, date, day, t);
    AvailableFieldsMatch(t, term);
  }

  /** Over the operator tool list, a stored tool is on show exactly when it has stock and a non-blank term occurs in its name or id. */
  lemma AvailableSearch(db: Store.Db, term: string, date: Option<int>, day: int -> int, k: int)
    requires k in db.tools
    ensures var v := LoadAvailable(Answered(Some(OperatorApi.ListAvailableTools(db))));
            OperatorApi.ListItem(db.tools[k]) in FilterAvailable(v, term, date, day).shown <==>
              && db.tools[k].quantity > 0
              && (Trim(term, IsJsSpace) != "" ==>
                    Includes(ToLower(db.tools[k].toolName), ToLower(term)) || Includes(IntToDecimal(db.tools[k].id), term))
  {
    var v := LoadAvailable(Answered(Some(OperatorApi.ListAvailableTools(db))));
    AvailableAreInStock(db, k);
    AvailableShown(v, term, date, day, OperatorApi.ListItem(db.tools[k]));
  }
}

=== FILE: operator_api.dfy ===
/**
 * Operator endpoints (`app/api/v1/operator.py`): asking for stock with a
 * tool-usage request, and the tool list the request form offers.
 *
 * The caller's user id, which the source takes from the current session, is
 * an argument; the supervisor notifications the source sends after creating
 * a request are not part of this model.
 */
module OperatorApi {
  import opened Wrappers
  import opened Models
  import opened Store
  import opened Text
  import Lists

  // ---------------------------------------------------------------------------
  // Request identifiers.

  /** Python's format spec `05d`: zero-padded to five places, the sign counting as one. */
  function Pad5(n: int): (r: string)
    ensures n >= 0 <==> AllDigits(r)
    ensures n >= 0 ==> DecimalValue(r) == n
    ensures n < 0 ==> r[0] == '-' && AllDigits(r[1..]) && DecimalValue(r[1..]) == -n
    ensures |r| >= 5
  {
    if n >= 0 then ZeroPadded(n, 5)
    else
      var r := "-" + ZeroPadded(-n, 4);
      assert r[1..] == ZeroPadded(-n, 4);
      assert !IsDigit(r[0]);
      r
  }

  /** The business identifier of request number `n`: "TR" and the number padded to five digits. */
  function RequestId(n: int): (r: string)
    ensures |r| >= 7 && r[..2] == "TR"
  {
    "TR" + Pad5(n)
  }

  /** A request identifier holds only letters, digits and a sign: never a '/'. */
  lemma RequestIdNoSlash(n: int)
    ensures '/' !in RequestId(n)
  {
    var pad, r := Pad5(n), RequestId(n);
    assert r == "TR" + pad;
    forall i | 0 <= i < |r| ensures r[i] != '/' {
      if i >= 2 {
        assert r[i] == pad[i - 2];
        if n < 0 && i > 2 {
          assert pad[i - 2] == pad[1..][i - 3];
        }
      }
    }
  }

  /** Distinct request numbers give distinct request identifiers. */
  lemma RequestIdInjective(m: int, n: int)
    requires RequestId(m) == RequestId(n)
    ensures m == n
  {
    var a, b := Pad5(m), Pad5(n);
    assert a == RequestId(m)[2..] && b == RequestId(n)[2..];
    if m < 0 && n < 0 {
      assert a[1..] == b[1..];
    }
  }

  // ---------------------------------------------------------------------------
  // `create_tool_request`.

  /** The `ToolUsageShortOut` response. */
  datatype UsageOut = UsageOut(
    requestId: string,
    toolId: int,
    toolName: string,
    operatorId: int,
    requestedQty: int,
    status: string,
    requestedAt: int)

  /**
   * Every stored usage request sits under its own key, carries the
   * identifier derived from that key, and asks for at least one unit.
   */
  predicate UsageWf(usage: map<int, UsageRequest>) {
    forall k :: k in usage ==>
      && usage[k].id == k
      && k >= 1
      && usage[k].requestId == RequestId(k)
      && usage[k].requestedQty >= 1
  }

  /**
   * The checks `create_tool_request` makes before writing: 404 for an
   * unknown tool, then 400 for a quantity below one, then 400 for more than
   * the tool's stock.
   */
  function RequestCheck(db: Db, toolId: int, qty: int): (r: Option<HttpError>)
    ensures r.None? <==> toolId in db.tools && 1 <= qty <= db.tools[toolId].quantity
    ensures toolId !in db.tools ==> r == Some(HttpError(404, "Tool not found"))
    ensures toolId in db.tools && qty <= 0 ==> r == Some(HttpError(400, "Invalid quantity"))
    ensures toolId in db.tools && 0 < qty && qty > db.tools[toolId].quantity ==>
              r == Some(HttpError(400, "Requested quantity exceeds available"))
  {
    if toolId !in db.tools then Some(HttpError(404, "Tool not found"))
    else if qty <= 0 then Some(HttpError(400, "Invalid quantity"))
    else if qty > db.tools[toolId].quantity then Some(HttpError(400, "Requested quantity exceeds available"))
    else None
  }

  /**
   * What the endpoint's first line, `get_current_session(db)`, yields. That
   * is a request dependency called directly, outside dependency injection,
   * so it cannot see the request's `x-session-id`; its definition is not
   * part of this model, which therefore leaves open whether the call gives
   * back the calling user, raises an `HTTPException`, or raises anything
   * else.
   */
  datatype SessionLookup = Caller(userId: int) | LookupRefused(error: HttpError) | LookupCrashed(message: string)

  /**
   * `create_tool_request` as written. A failed session lookup ends it at
   * once. Otherwise the checks follow, and the row it builds leaves
   * `user_id` unset, a NOT NULL column without a default, so every request
   * that passes the checks fails at the commit, and the database's integrity
   * error `dbError`, whose wording the model does not fix, reaches the
   * client as a 500.
   */
  function CreateToolRequestAsWritten(db: Db, lookup: SessionLookup, toolId: int, qty: int, now: int, dbError: string): (r: Outcome<UsageOut>)
    ensures !r.Done?
    ensures lookup.LookupRefused? ==> r == Fail(lookup.error)
    ensures lookup.LookupCrashed? ==> r == Crash(lookup.message)
    ensures lookup.Caller? && RequestCheck(db, toolId, qty).Some? ==> r == Fail(RequestCheck(db, toolId, qty).value)
    ensures lookup.Caller? ==> (r.Crash? <==> toolId in db.tools && 1 <= qty <= db.tools[toolId].quantity)
    ensures lookup.Caller? && r.Crash? ==> r.message == dbError
  {
    match lookup
    case LookupRefused(e) => Fail(e)
    case LookupCrashed(m) => Crash(m)
    case Caller(_) =>
      match RequestCheck(db, toolId, qty)
      case Some(e) => Fail(e)
      case None => Crash(dbError)
  }

  /**
   * `create_tool_request` with the row's `user_id` filled in: after the
   * checks, a PENDING request numbered one past the largest existing
   * request is stored, and the response echoes it.
   */
  function CreateToolRequest(db: Db, operatorId: int, toolId: int, qty: int, now: int): (r: Outcome<UsageOut>)
    ensures toolId !in db.tools ==> r == Fail(HttpError(404, "Tool not found"))
    ensures toolId in db.tools && qty <= 0 ==> r == Fail(HttpError(400, "Invalid quantity"))
    ensures toolId in db.tools && 0 < qty && qty > db.tools[toolId].quantity ==>
              r == Fail(HttpError(400, "Requested quantity exceeds available"))
    ensures r.Done? <==> toolId in db.tools && 1 <= qty <= db.tools[toolId].quantity
    ensures r.Done? ==>
              var k := NextKey(db.usage.Keys);
              && k !in db.usage
              && k in r.db.usage
              && r.db.usage[k] == UsageRequest(k, RequestId(k), operatorId, toolId, qty, Pending, now, None, None, None)
              && r.db == db.(usage := db.usage[k := r.db.usage[k]])
              && r.out == UsageOut(RequestId(k), toolId, db.tools[toolId].toolName, operatorId, qty, "PENDING", now)
  {
    match RequestCheck(db, toolId, qty)
    case Some(e) => Fail(e)
    case None =>
      // `max(id) or 0` plus one: the same number as the next key.
      var n := NextKey(db.usage.Keys);
      var row := UsageRequest(n, RequestId(n), operatorId, toolId, qty, Pending, now, None, None, None);
      Done(db.(usage := db.usage[n := row]), UsageOut(row.requestId, toolId, db.tools[toolId].toolName, operatorId, qty, StatusName(Pending), now))
  }

  /**
   * Whatever the session lookup does, the endpoint as written stores
   * nothing where the corrected one stores a request. When the lookup gives
   * back the caller, it refuses exactly what the corrected one refuses, with
   * the same error, and crashes exactly where the corrected one stores.
   */
  lemma CreateAsWrittenFailsWhereIntended(db: Db, lookup: SessionLookup, operatorId: int, toolId: int, qty: int, now: int, dbError: string)
    ensures var w, c := CreateToolRequestAsWritten(db, lookup, toolId, qty, now, dbError), CreateToolRequest(db, operatorId, toolId, qty, now);
            && (c.Done? ==> !w.Done?)
            && (lookup == Caller(operatorId) ==>
                  && (c.Fail? ==> w == c)
                  && (c.Done? <==> w == Crash(dbError)))
  {
  }

  /**
   * One tool with five in stock: asking for two is a 500 as written, even
   * when the session lookup gives back the caller, and stores request
   * TR00001 as intended.
   */
  lemma CreateToolRequestCounterexample(dbError: string)
    ensures var db := Db(map[1 := Tool(1, "Caliper", 5, 0, None, None, None)], map[], map[], map[], map[], map[], map[]);
            && CreateToolRequestAsWritten(db, Caller(3), 1, 2, 60, dbError) == Crash(dbError)
            && CreateToolRequest(db, 3, 1, 2, 60).Done?
            && CreateToolRequest(db, 3, 1, 2, 60).out.requestId == "TR00001"
  {
    var db := Db(map[1 := Tool(1, "Caliper", 5, 0, None, None, None)], map[], map[], map[], map[], map[], map[]);
    assert NextKey(db.usage.Keys) == 1;
    assert Pad5(1) == "00001";
  }

  /** Creating a request keeps the usage table well formed and gives a request identifier no other request has. */
  lemma CreateKeepsUsageWf(db: Db, operatorId: int, toolId: int, qty: int, now: int)
    requires UsageWf(db.usage)
    ensures var r := CreateToolRequest(db, operatorId, toolId, qty, now);
            r.Done? ==>
              && UsageWf(r.db.usage)
              && forall k :: k in db.usage ==> db.usage[k].requestId != r.out.requestId
  {
    var r := CreateToolRequest(db, operatorId, toolId, qty, now);
    if r.Done? {
      var n := NextKey(db.usage.Keys);
      var row := UsageRequest(n, RequestId(n), operatorId, toolId, qty, Pending, now, None, None, None);
      assert r.db.usage == db.usage[n := row] && r.out.requestId == RequestId(n);
      forall k | k in db.usage
        ensures db.usage[k].requestId != RequestId(n)
      {
        if db.usage[k].requestId == RequestId(n) {
          RequestIdInjective(k, n);
        }
      }
      assert n >= 1;
      UsageWfInsert(db.usage, n, row);
    }
  }

  /** Adding a row under its own, positive key with its own identifier keeps the usage table well formed. */
  lemma UsageWfInsert(usage: map<int, UsageRequest>, n: int, row: UsageRequest)
    requires UsageWf(usage)
    requires row.id == n && n >= 1 && row.requestId == RequestId(n) && row.requestedQty >= 1
    ensures UsageWf(usage[n := row])
  {
    var after := usage[n := row];
    forall k | k in after
      ensures after[k].id == k && k >= 1 && after[k].requestId == RequestId(k) && after[k].requestedQty >= 1
    {
      if k == n {
        assert after[k] == row;
      } else {
        assert after[k] == usage[k];
      }
    }
  }

  /** Creating a request never touches stock: every tool keeps its quantity. */
  lemma CreateLeavesStock(db: Db, operatorId: int, toolId: int, qty: int, now: int)
    ensures var r := CreateToolRequest(db, operatorId, toolId, qty, now);
            r.Done? ==> r.db.tools == db.tools
  {
  }

  // ---------------------------------------------------------------------------
  // `list_available_tools`.

  /** The `ToolListItem` response row. */
  datatype ToolListItem = ToolListItem(
    id: int,
    toolName: string,
    rangeMm: Option<string>,
    identificationCode: Option<string>,
    make: Option<string>,
    quantity: int,
    location: Option<string>,
    gauge: Option<string>,
    remarks: Option<string>,
    addedAt: Option<int>)

  /** The table has no location, gauge or remarks columns, so the response sends them as null. */
  function ListItem(t: Tool): ToolListItem {
    ToolListItem(t.id, t.toolName, t.rangeMm, t.identificationCode, t.make, t.quantity, None, None, None, Some(t.addedAt))
  }

  /** The `ORDER BY tool_name ASC` key. */
  predicate ByName(a: ToolListItem, b: ToolListItem) {
    LexLe(a.toolName, b.toolName)
  }

  lemma ByNameIsPreorder()
    ensures Lists.TotalPreorder(ByName)
  {
    forall a: ToolListItem, b: ToolListItem ensures ByName(a, b) || ByName(b, a) {
      LexLeTotal(a.toolName, b.toolName);
    }
    forall a: ToolListItem, b: ToolListItem, c: ToolListItem | ByName(a, b) && ByName(b, c) ensures ByName(a, c) {
      LexLeTransitive(a.toolName, b.toolName, c.toolName);
    }
  }

  /**
   * `list_available_tools`: every tool once, ordered by name, as a list item
   * with null location, gauge and remarks.
   */
  function ListAvailableTools(db: Db): (r: seq<ToolListItem>)
    ensures |r| == |db.tools|
    ensures multiset(r) == multiset(Lists.MapSeq(Rows(db.tools), ListItem))
  {
    ByNameIsPreorder();
    var items := Lists.MapSeq(Rows(db.tools), ListItem);
    Lists.SortByMembers(items, ByName);
    Lists.SortBy(items, ByName)
  }

  /** The list is in ascending order of tool name. */
  lemma ListSortedByName(db: Db)
    ensures Lists.Sorted(ListAvailableTools(db), ByName)
  {
    ByNameIsPreorder();
  }

  /** The list holds the items of exactly the table's rows. */
  lemma ListedItems(db: Db)
    ensures var r := ListAvailableTools(db);
            forall x :: x in r <==> x in Lists.MapSeq(Rows(db.tools), ListItem)
  {
    var r := ListAvailableTools(db);
    Lists.MultisetMembers(r, Lists.MapSeq(Rows(db.tools), ListItem));
  }

  /** Every tool of the table is listed. */
  lemma EveryToolListed(db: Db, k: int)
    requires k in db.tools
    ensures ListItem(db.tools[k]) in ListAvailableTools(db)
  {
    var rows := Rows(db.tools);
    var items := Lists.MapSeq(rows, ListItem);
    ListedItems(db);
    var i :| 0 <= i < |rows| && KeysOf(db.tools)[i] == k;
    assert items[i] == ListItem(db.tools[k]);
  }

  /** Every listed item is a tool of the table, with null location, gauge and remarks. */
  lemma OnlyToolsListed(db: Db, x: ToolListItem)
    requires x in ListAvailableTools(db)
    ensures exists k :: k in db.tools && x == ListItem(db.tools[k])
    ensures x.location.None? && x.gauge.None? && x.remarks.None?
  {
    var rows := Rows(db.tools);
    var items := Lists.MapSeq(rows, ListItem);
    ListedItems(db);
    var j :| 0 <= j < |items| && items[j] == x;
    var k := KeysOf(db.tools)[j];
    assert k in db.tools && x == ListItem(db.tools[k]);
  }
}

=== FILE: operator_requests_page.dfy ===
/**
 * `OperatorToolRequests`: the operator's own requests. A row offers Collect
 * when its status is approved, in any letter case; other rows show a short
 * label. Collecting posts to `collect-tool/<request id>` and, on failure,
 * shows the JSON `detail` or the raw response text.
 */
module OperatorRequestsPage {
  import opened Wrappers
  import opened Models
  import opened Text
  import opened Ui
  import opened Store

  // ---------------------------------------------------------------------------
  // The Action and display cells.

  /** The Action cell: the Collect button, or a label. */
  datatype ActionCell = Collect | Note(text: string)

  const Waiting: string := "Waiting..."
  const CollectedLabel: string := "✅ Collected"

  /**
   * Collect exactly when the lower-cased status is "approved"; otherwise
   * "Waiting..." for pending, "Rejected" for rejected, "✅ Collected" for
   * received or collected, and "-" for anything else.
   */
  function Cell(status: string): (r: ActionCell)
    ensures r.Collect? <==> ToLower(status) == "approved"
    ensures r == Note(Waiting) <==> ToLower(status) == "pending"
    ensures r == Note("Rejected") <==> ToLower(status) == "rejected"
    ensures r == Note(CollectedLabel) <==> ToLower(status) in {"received", "collected"}
    ensures r == Note("-") <==> ToLower(status) !in {"approved", "pending", "rejected", "received", "collected"}
  {
    var s := ToLower(status);
    if s == "approved" then Collect
    else if s == "pending" then Note(Waiting)
    else if s == "rejected" then Note("Rejected")
    else if s == "received" || s == "collected" then Note(CollectedLabel)
    else Note("-")
  }

  /**
   * On the statuses the backend stores: Collect only for APPROVED, and each
   * of the other three gets its own label, none of them "-".
   */
  lemma CellOfStoredStatus(s: RequestStatus)
    ensures Cell(StatusName(s)).Collect? <==> s == Approved
    ensures s == Pending ==> Cell(StatusName(s)) == Note(Waiting)
    ensures s == Rejected ==> Cell(StatusName(s)) == Note("Rejected")
    ensures s == Collected ==> Cell(StatusName(s)) == Note(CollectedLabel)
  {
    match s
    case Pending => LowerPending();
    case Approved => LowerApproved();
    case Rejected => LowerRejected();
    case Collected => LowerCollected();
  }

  /** The status letter case never matters. */
  lemma CellIgnoresCase(status: string)
    ensures Cell(ToLower(status)) == Cell(status)
  {
    var s := ToLower(status);
    assert ToLower(s) == s;
  }

  /** `value || 'N/A'`: the tool name and remarks cells. */
  function Display(value: Option<string>): (r: string)
    ensures r != ""
    ensures Truthy(value) ==> r == value.value
    ensures !Truthy(value) ==> r == "N/A"
  {
    OrElse(value, "N/A")
  }

  // ---------------------------------------------------------------------------
  // `handleCollectTool`.

  /** An HTTP request as the page issues it. */
  datatype Request = Request(url: string, verb: string, headers: seq<(string, string)>)

  function CollectUrl(requestId: string): string {
    "http://localhost:8000/api/v1/operator/collect-tool/" + requestId
  }

  /**
   * A POST to the collect URL with a JSON content type, and the session
   * header only when a non-empty session id is stored.
   */
  function CollectRequest(requestId: string, sessionId: Option<string>): (r: Request)
    ensures r.verb == "POST"
    ensures |r.url| >= |requestId| && r.url[|r.url| - |requestId|..] == requestId
    ensures ("Content-Type", "application/json") in r.headers
    ensures (exists v :: ("x-session-id", v) in r.headers) <==> Truthy(sessionId)
    ensures forall v :: ("x-session-id", v) in r.headers ==> Some(v) == sessionId
  {
    var common := [("Content-Type", "application/json")];
    Request(CollectUrl(requestId), "POST",
            if Truthy(sessionId) then common + [("x-session-id", sessionId.value)] else common)
  }

  /** How a failed collect's body decodes: not JSON, JSON `null`, or an object with a possible `detail`. */
  datatype ErrorBody = NotJson | NullJson | Object(detail: Option<string>)

  /**
   * The alert after a failed collect. A body that parses to an object shows
   * "Error: " and its detail, or "Failed to collect tool". A body that does
   * not parse shows "Error <status>: " and the raw text, or the same
   * fallback; so does JSON `null`, since reading `detail` from it throws
   * into the same handler.
   */
  function CollectError(status: int, raw: string, body: ErrorBody): (r: string)
    ensures |r| > 6 && r[..5] == "Error"
    ensures r[5] == ':' <==> body.Object?
    ensures body.Object? ==> Includes(r, OrElse(body.detail, "Failed to collect tool"))
    ensures !body.Object? ==> Includes(r, IntToDecimal(status)) && Includes(r, OrElse(Some(raw), "Failed to collect tool"))
  {
    match body
    case Object(detail) =>
      var why := OrElse(detail, "Failed to collect tool");
      DetailMessage(why);
      "Error: " + why
    case _ =>
      var code, why := IntToDecimal(status), OrElse(Some(raw), "Failed to collect tool");
      StatusMessage(code, why);
      "Error " + code + ": " + why
  }

  /**
   * The alert when the collect's `fetch` rejects: "Network error: " and the
   * rejection's message, or "Failed to collect tool" when it has none. The
   * message is the browser's own wording, so the model takes it as given.
   */
  function NetworkAlert(message: Option<string>): (r: string)
    ensures |r| > 15 && r[..15] == "Network error: "
    ensures Includes(r, OrElse(message, "Failed to collect tool"))
  {
    var why := OrElse(message, "Failed to collect tool");
    var r := "Network error: " + why;
    assert OccursAt(r, why, 15);
    r
  }

  /**
   * The alert a collect shows for the server's outcome: none for a success;
   * for an `HTTPException` the JSON body with its detail. Any other
   * exception is answered by a 500 without the CORS headers, so the
   * cross-origin `fetch` rejects, with the browser's `rejection` message,
   * and the page's `catch` shows a network error.
   */
  function CollectAlert<T>(r: Outcome<T>, rejection: Option<string>): (a: Option<string>)
    ensures a.None? <==> r.Done?
    ensures a.Some? ==> |a.value| > 6 && (a.value[..5] == "Error" <==> r.Fail?)
  {
    match r
    case Done(_, _) => None
    case Fail(e) => Some(CollectError(e.code, e.detail, Object(Some(e.detail))))
    case Crash(_) =>
      var n := NetworkAlert(rejection);
      assert n[..5][0] == "Network error: "[0] != "Error"[0];
      Some(n)
  }

  /**
   * The alert names what the server or the browser said: an
   * `HTTPException`'s detail after "Error: ", or the fallback when the
   * detail is empty; for any other exception the browser's rejection
   * message, whatever the exception's text was.
   */
  lemma CollectAlertOfServer<T>(r: Outcome<T>, rejection: Option<string>)
    ensures r.Fail? ==> CollectAlert(r, rejection) == Some("Error: " + OrElse(Some(r.error.detail), "Failed to collect tool"))
    ensures r.Fail? && r.error.detail != "" ==> CollectAlert(r, rejection) == Some("Error: " + r.error.detail)
    ensures r.Crash? ==> CollectAlert(r, rejection) == Some("Network error: " + OrElse(rejection, "Failed to collect tool"))
    ensures r.Crash? ==> CollectAlert(r, rejection) == CollectAlert(Outcome<T>.Crash(""), rejection)
  {
    match r
    case Done(_, _) =>
    case Fail(e) =>
      assert CollectAlert(r, rejection) == Some(CollectError(e.code, e.detail, Object(Some(e.detail))));
    case Crash(m) =>
      assert CollectAlert(r, rejection) == Some(NetworkAlert(rejection));
  }

  lemma DetailMessage(why: string)
    ensures var r := "Error: " + why;
            |r| > 6 && r[..5] == "Error" && r[5] == ':' && Includes(r, why)
  {
    var r := "Error: " + why;
    assert OccursAt(r, why, 7);
  }

  lemma StatusMessage(code: string, why: string)
    ensures var r := "Error " + code + ": " + why;
            |r| > 6 && r[..5] == "Error" && r[5] == ' ' && Includes(r, code) && Includes(r, why)
  {
    var r := "Error " + code + ": " + why;
    assert OccursAt(r, code, 6);
    assert OccursAt(r, why, 6 + |code| + 2);
  }
}

=== FILE: request_tool_page.dfy ===
/**
 * `RequestToolPage`: the operator picks one tool and a quantity and submits
 * a tool-usage request. The handler checks the selection, then the
 * quantity; it does not compare the quantity with the stock, which the
 * number input only hints at through its `max` attribute.
 */
module RequestToolPage {
  import opened Wrappers
  import opened Store
  import opened Ui
  import OperatorApi

  /** The form's state: the selected tool id (`null` until a radio is picked), the quantity and both banners. */
  datatype Form = Form(selected: Option<int>, qty: int, success: string, error: string)

  /** The page as first rendered: nothing selected, quantity 1, no banners. */
  const Initial: Form := Form(None, 1, "", "")

  /** The JSON body the handler posts. */
  datatype Body = Body(toolId: int, requestedQty: int)

  /** `!selectedTool`: no selection, or the falsy id 0. */
  predicate NoSelection(f: Form) {
    f.selected.None? || f.selected.value == 0
  }

  /**
   * The pre-flight checks, in order: "Please select a tool." without a
   * selection, then "Quantity must be at least 1." for a quantity of zero
   * or less; otherwise the body to post.
   */
  function Check(f: Form): (r: Result<Body, string>)
    ensures r.Err? <==> NoSelection(f) || f.qty <= 0
    ensures NoSelection(f) ==> r == Err("Please select a tool.")
    ensures !NoSelection(f) && f.qty <= 0 ==> r == Err("Quantity must be at least 1.")
    ensures r.Ok? ==> r.value.toolId == f.selected.value && r.value.requestedQty == f.qty >= 1
  {
    if NoSelection(f) then Err("Please select a tool.")
    else if f.qty <= 0 then Err("Quantity must be at least 1.")
    else Ok(Body(f.selected.value, f.qty))
  }

  /**
   * `handleRequest`: both banners are cleared first. A failed check sets
   * the error and sends nothing. Otherwise the body is posted; on success
   * the banner says so and the selection and quantity reset to `null` and
   * 1; on a refusal the error is the server's detail or "Failed to submit
   * request.". Returns the new form and the body sent, if any.
   */
  function Submit(f: Form, reply: Reply): (r: (Form, Option<Body>))
    ensures r.1.None? <==> Check(f).Err?
    ensures r.1.Some? ==> r.1 == Some(Check(f).value)
    ensures r.0.success == "" || r.0.error == ""
    ensures Check(f).Err? ==> r.0 == f.(success := "", error := Check(f).error)
    ensures Check(f).Ok? && reply.Accepted? ==> r.0 == Initial.(success := "Tool request submitted successfully!")
    ensures Check(f).Ok? && !reply.Accepted? ==>
              && r.0.selected == f.selected && r.0.qty == f.qty && r.0.success == "" && r.0.error != ""
  {
    var cleared := f.(success := "", error := "");
    match Check(f)
    case Err(message) => (cleared.(error := message), None)
    case Ok(body) =>
      var after := match reply
        case Accepted => cleared.(success := "Tool request submitted successfully!", selected := None, qty := 1)
        case Refused(detail) => cleared.(error := OrElse(detail, "Failed to submit request."))
        case Unreadable => cleared.(error := "Failed to submit request.");
      (after, Some(body))
  }

  /** After a successful submit the form is back to its initial selection and quantity, so a second submit sends nothing. */
  lemma SubmitTwice(f: Form, reply: Reply, again: Reply)
    requires Check(f).Ok? && reply.Accepted?
    ensures Submit(Submit(f, reply).0, again).1.None?
    ensures Submit(Submit(f, reply).0, again).0.error == "Please select a tool."
  {
  }

  /**
   * What the page sends never trips the endpoint's quantity check: against
   * the endpoint with `user_id` filled in, a body that passed the page's
   * checks is refused for its quantity only when it exceeds the stock, which
   * the page leaves to the server.
   */
  lemma SentBodyMeetsQuantityCheck(db: Db, operatorId: int, f: Form, now: int)
    requires Check(f).Ok?
    ensures var b := Check(f).value;
            var r := OperatorApi.CreateToolRequest(db, operatorId, b.toolId, b.requestedQty, now);
            && r != Fail(HttpError(400, "Invalid quantity"))
            && (b.toolId in db.tools ==>
                  (r.Done? <==> b.requestedQty <= db.tools[b.toolId].quantity))
  {
  }

  /**
   * How the page reads an endpoint's outcome: `res.ok` for a success; the
   * JSON `detail` of an `HTTPException`; and, for any other exception, a
   * rejected `fetch`, since the 500 that answers it lacks the CORS headers;
   * either way the page lands in its `catch`.
   */
  function ReplyOf<T>(r: Outcome<T>): (reply: Reply)
    ensures reply.Accepted? <==> r.Done?
    ensures reply.Unreadable? <==> r.Crash?
    ensures r.Fail? ==> reply == Refused(Some(r.error.detail))
  {
    match r
    case Done(_, _) => Accepted
    case Fail(e) => Refused(Some(e.detail))
    case Crash(_) => Unreadable
  }

  /**
   * Against the endpoint as written no request succeeds, whatever its
   * session lookup does: a form that passes the page's checks keeps its
   * selection and shows an error, and when the lookup gives back the caller
   * and the server's checks pass too, that error is the page's fallback
   * text.
   */
  lemma SubmitAgainstAsWritten(db: Db, lookup: OperatorApi.SessionLookup, f: Form, now: int, dbError: string)
    requires Check(f).Ok?
    ensures var b := Check(f).value;
            var reply := ReplyOf(OperatorApi.CreateToolRequestAsWritten(db, lookup, b.toolId, b.requestedQty, now, dbError));
            var page := Submit(f, reply).0;
            && !reply.Accepted?
            && page.success == "" && page.error != ""
            && page.selected == f.selected && page.qty == f.qty
            && (lookup.Caller? && b.toolId in db.tools && b.requestedQty <= db.tools[b.toolId].quantity ==>
                  page.error == "Failed to submit request.")
  {
  }

  /** The page does send more than the stock: any quantity of one or more passes its checks. */
  lemma NoStockCheck(toolId: int, qty: int)
    requires toolId != 0 && qty >= 1
    ensures Check(Form(Some(toolId), qty, "", "")) == Ok(Body(toolId, qty))
  {
  }
}

=== FILE: sidebar.dfy ===
/**
 * `Sidebar`: the role's menu, which entry is highlighted, and the name in
 * the footer badge's tooltip.
 */
module Sidebar {
  import opened Wrappers
  import opened Models
  import opened Ui
  import LoginPage

  datatype MenuItem = MenuItem(path: string, caption: string, icon: string)

  /** `getMenuItems()`: six entries for OFFICER, two for OPERATOR, three for SUPERVISOR, none otherwise. */
  function MenuItems(userRole: Option<string>): (r: seq<MenuItem>)
    ensures userRole == Some("OFFICER") ==> |r| == 6
    ensures userRole == Some("OPERATOR") ==> |r| == 2
    ensures userRole == Some("SUPERVISOR") ==> |r| == 3
    ensures userRole !in {Some("OFFICER"), Some("OPERATOR"), Some("SUPERVISOR")} ==> r == []
  {
    if userRole == Some("OFFICER") then
      [ MenuItem("/officer-dashboard", "Dashboard", "🏠"),
        MenuItem("/officer/view-tool-requests", "View Tool Requests", "📋"),
        MenuItem("/officer/manage-users", "Manage Users", "👥"),
        MenuItem("/officer/tool-addition-requests", "Tool Addition Requests", "➕"),
        MenuItem("/officer/issue-reports", "Issue Reports", "⚠️"),
        MenuItem("/officer/supervisor-response", "Supervisor Response", "📢") ]
    else if userRole == Some("OPERATOR") then
      [ MenuItem("/operator-dashboard", "Dashboard", "🏠"),
        MenuItem("/operator/report-issue", "Report Issue", "📝") ]
    else if userRole == Some("SUPERVISOR") then
      [ MenuItem("/supervisor-dashboard", "Dashboard", "🏠"),
        MenuItem("/supervisor/view-tool-requests", "View Tool Requests", "📋"),
        MenuItem("/supervisor/tool-addition-requests", "Tool Addition Requests", "➕") ]
    else []
  }

  /** No path appears twice in a menu. */
  predicate DistinctPaths(items: seq<MenuItem>) {
    forall i, j :: 0 <= i < j < |items| ==> items[i].path != items[j].path
  }

  /**
   * Every role's menu has distinct paths, and its first entry is the
   * dashboard the login page sends that role to.
   */
  lemma MenusWellFormed(role: Role)
    ensures var items := MenuItems(Some(RoleName(role)));
            && DistinctPaths(items)
            && |items| >= 2
            && items[0].path == LoginPage.Dashboard(role)
            && items[0].caption == "Dashboard"
  {
  }

  /** `isActive(path)`: the current location is exactly the path. */
  predicate IsActive(location: string, path: string) {
    location == path
  }

  /** With distinct paths, at most one entry is highlighted. */
  lemma AtMostOneActive(userRole: Option<string>, location: string, i: int, j: int)
    requires DistinctPaths(MenuItems(userRole))
    requires 0 <= i < |MenuItems(userRole)| && 0 <= j < |MenuItems(userRole)|
    requires IsActive(location, MenuItems(userRole)[i].path) && IsActive(location, MenuItems(userRole)[j].path)
    ensures i == j
  {
  }

  /** `getFullName()`: the stored full name if non-empty, else the stored user id if non-empty, else "User". */
  function FullName(storage: Storage): (r: string)
    ensures r != ""
    ensures Truthy(Stored(storage, "full_name")) ==> r == storage["full_name"]
    ensures !Truthy(Stored(storage, "full_name")) && Truthy(Stored(storage, "user_id")) ==> r == storage["user_id"]
    ensures !Truthy(Stored(storage, "full_name")) && !Truthy(Stored(storage, "user_id")) ==> r == "User"
  {
    var fullName := Stored(storage, "full_name");
    if Truthy(fullName) then fullName.value else OrElse(Stored(storage, "user_id"), "User")
  }
}

=== FILE: store.dfy ===
/**
 * The database as one immutable value: a map per table, keyed by primary key.
 * Every endpoint of the backend is a pure function from a `Db` (and its
 * inputs) to an `Outcome`: either the new database and the response body, or
 * an HTTP error, in which case nothing was committed.
 */
module Store {
  import opened Wrappers
  import opened Models
  import Lists

  /** `HTTPException(status_code, detail)`. */
  datatype HttpError = HttpError(code: int, detail: string)

  datatype Db = Db(
    tools: map<int, Tool>,
    usage: map<int, UsageRequest>,
    additions: map<int, AdditionRequest>,
    issues: map<int, Issue>,
    users: map<int, User>,
    sessions: map<string, Session>,
    locks: map<Role, RoleLock>)

  /**
   * An endpoint's result: the new state and the response; an `HTTPException`,
   * which reaches the client as JSON with a `detail`; or any other exception,
   * which the application's global handler answers with status 500 and the
   * exception's text as a plain-text body. That handler sits outside the CORS
   * middleware, so its response carries no `Access-Control-Allow-Origin`
   * header, and a browser client on another origin sees its `fetch` reject
   * without a status or a body.
   */
  datatype Outcome<T> = Done(db: Db, out: T) | Fail(error: HttpError) | Crash(message: string)

  /**
   * The key an auto-increment column hands out: one more than the largest key
   * in use, or 1 for an empty table.
   */
  function NextKey(keys: set<int>): (k: int)
    ensures k !in keys
    ensures forall j :: j in keys ==> j < k
    ensures (forall j :: j in keys ==> j >= 0) ==> k >= 1
    ensures keys == {} ==> k == 1
    ensures keys != {} ==> k - 1 in keys
  {
    if keys == {} then 1 else Lists.MaxOf(keys) + 1
  }

  /** Rows are stored under their own primary key, and stock is never negative. */
  predicate ToolsWf(tools: map<int, Tool>) {
    forall k :: k in tools ==> tools[k].id == k && tools[k].quantity >= 0
  }

  /** Replacing one row by a row that carries its own key and a non-negative quantity. */
  lemma RowReplacedKeepsToolsWf(before: map<int, Tool>, after: map<int, Tool>, k: int)
    requires ToolsWf(before) && k in after && after == before[k := after[k]]
    requires after[k].id == k && after[k].quantity >= 0
    ensures ToolsWf(after)
  {
    forall j | j in after ensures after[j].id == j && after[j].quantity >= 0 {
      if j != k { assert after[j] == before[j]; }
    }
  }

  predicate AdditionsWf(additions: map<int, AdditionRequest>) {
    forall k :: k in additions ==> additions[k].id == k
  }

  predicate UsersWf(users: map<int, User>) {
    forall k :: k in users ==> users[k].id == k
  }

  predicate SessionsWf(sessions: map<string, Session>) {
    forall k :: k in sessions ==> sessions[k].sessionId == k
  }

  // ---------------------------------------------------------------------------
  // `select ... where <column> == value` followed by `.first()` or
  // `.scalar_one_or_none()`: the first matching row in primary-key order.

  function FirstMatch<V>(keys: seq<int>, m: map<int, V>, p: V -> bool): (r: Option<int>)
    requires forall i :: 0 <= i < |keys| ==> keys[i] in m
    ensures r.Some? ==> r.value in keys && p(m[r.value])
    ensures r.Some? ==> exists i :: 0 <= i < |keys| && keys[i] == r.value
                                    && forall j :: 0 <= j < i ==> !p(m[keys[j]])
    ensures r.None? <==> forall i :: 0 <= i < |keys| ==> !p(m[keys[i]])
  {
    if |keys| == 0 then None
    else if p(m[keys[0]]) then Some(keys[0])
    else
      var r := FirstMatch(keys[1..], m, p);
      if r.Some? then
        assert exists i :: 1 <= i < |keys| && keys[i] == r.value
                           && forall j :: 0 <= j < i ==> !p(m[keys[j]]) by {
          var i :| 0 <= i < |keys[1..]| && keys[1..][i] == r.value
                   && forall j :: 0 <= j < i ==> !p(m[keys[1..][j]]);
          assert keys[i + 1] == r.value;
          assert forall j :: 1 <= j < i + 1 ==> !p(m[keys[j]]) by {
            forall j | 1 <= j < i + 1 ensures !p(m[keys[j]]) {
              assert keys[j] == keys[1..][j - 1];
            }
          }
        }
        r
      else r
  }

  /** The matching row with the smallest key, or `None` when no row matches. */
  function FirstKey<V>(m: map<int, V>, p: V -> bool): (r: Option<int>)
    ensures r.Some? ==> r.value in m && p(m[r.value])
    ensures r.Some? ==> forall k :: k in m && p(m[k]) ==> r.value <= k
    ensures r.None? <==> forall k :: k in m ==> !p(m[k])
  {
    var keys := Lists.Ascending(m.Keys);
    assert forall i :: 0 <= i < |keys| ==> keys[i] in m;
    var r := FirstMatch(keys, m, p);
    FirstMatchIsLeast(keys, m, p, r);
    r
  }

  lemma FirstMatchIsLeast<V>(keys: seq<int>, m: map<int, V>, p: V -> bool, r: Option<int>)
    requires forall i, j :: 0 <= i < j < |keys| ==> keys[i] < keys[j]
    requires forall k :: k in m <==> k in keys
    requires forall i :: 0 <= i < |keys| ==> keys[i] in m
    requires r == FirstMatch(keys, m, p)
    ensures r.Some? ==> forall k :: k in m && p(m[k]) ==> r.value <= k
    ensures r.None? <==> forall k :: k in m ==> !p(m[k])
  {
    if r.Some? {
      var i :| 0 <= i < |keys| && keys[i] == r.value
               && forall j :: 0 <= j < i ==> !p(m[keys[j]]);
      forall k | k in m && p(m[k]) ensures r.value <= k {
        var j :| 0 <= j < |keys| && keys[j] == k;
        assert p(m[keys[j]]);
        assert i <= j;
      }
    } else {
      forall k | k in m ensures !p(m[k]) {
        var j :| 0 <= j < |keys| && keys[j] == k;
      }
    }
  }

  function UserByUsername(users: map<int, User>, username: string): (r: Option<int>)
    ensures r.Some? ==> r.value in users && users[r.value].username == username
    ensures r.Some? ==> forall k :: k in users && users[k].username == username ==> r.value <= k
    ensures r.None? <==> forall k :: k in users ==> users[k].username != username
  {
    FirstKey(users, (u: User) => u.username == username)
  }

  /** Two tables with the same keys and the same usernames answer every username lookup alike. */
  lemma UserByUsernameSameNames(users: map<int, User>, other: map<int, User>, username: string)
    requires other.Keys == users.Keys
    requires forall k :: k in users ==> other[k].username == users[k].username
    ensures UserByUsername(other, username) == UserByUsername(users, username)
  {
    var a, b := UserByUsername(users, username), UserByUsername(other, username);
    if a.None? {
      forall k | k in other ensures other[k].username != username {
        assert k in users;
      }
    } else {
      var x := a.value;
      assert x in other && other[x].username == username;
      var y := b.value;
      assert y in users && users[y].username == username;
      assert x <= y && y <= x;
    }
  }

  /** Rewriting an account without changing its username leaves the username lookup where it was. */
  lemma UserByUsernameAfterUpdate(users: map<int, User>, k: int, u: User, username: string)
    requires k in users && u.username == users[k].username
    ensures UserByUsername(users[k := u], username) == UserByUsername(users, username)
  {
    UserByUsernameSameNames(users, users[k := u], username);
  }

  function UserByEmail(users: map<int, User>, email: string): (r: Option<int>)
    ensures r.Some? ==> r.value in users && users[r.value].email == email
    ensures r.None? <==> forall k :: k in users ==> users[k].email != email
  {
    FirstKey(users, (u: User) => u.email == email)
  }

  // ---------------------------------------------------------------------------
  // `select(...)` without a filter: every row, here in primary-key order.

  function RowsAt<V>(keys: seq<int>, m: map<int, V>): (r: seq<V>)
    requires forall i :: 0 <= i < |keys| ==> keys[i] in m
    ensures |r| == |keys| && forall i :: 0 <= i < |keys| ==> r[i] == m[keys[i]]
  {
    if |keys| == 0 then [] else [m[keys[0]]] + RowsAt(keys[1..], m)
  }

  /** The keys of a table in ascending order, each once. */
  function KeysOf<V>(m: map<int, V>): (r: seq<int>)
    ensures |r| == |m|
    ensures forall i :: 0 <= i < |r| ==> r[i] in m
    ensures forall k :: k in m ==> k in r
  {
    assert |m.Keys| == |m|;
    Lists.Ascending(m.Keys)
  }

  /** Every row of the table once, in ascending key order. */
  function Rows<V>(m: map<int, V>): (r: seq<V>)
    ensures |r| == |m|
    ensures forall i :: 0 <= i < |r| ==> r[i] == m[KeysOf(m)[i]]
  {
    RowsAt(KeysOf(m), m)
  }



  /** `select ... where p`: the matching rows in primary-key order. */
  function Select<V>(m: map<int, V>, p: V -> bool): (r: seq<V>)
    ensures |r| <= |m|
    ensures forall i :: 0 <= i < |r| ==> p(r[i])
  {
    Lists.Filter(Rows(m), p)
  }

  /** Every matching row is selected. */
  lemma SelectHas<V>(m: map<int, V>, p: V -> bool, k: int)
    requires k in m && p(m[k])
    ensures m[k] in Select(m, p)
  {
    var rows := Rows(m);
    Lists.FilterSpec(rows, p);
    var i :| 0 <= i < |rows| && KeysOf(m)[i] == k;
    assert rows[i] == m[k];
  }

  /** Only matching rows of the table are selected. */
  lemma SelectFrom<V>(m: map<int, V>, p: V -> bool, x: V)
    requires x in Select(m, p)
    ensures p(x) && exists k :: k in m && m[k] == x
  {
    var rows := Rows(m);
    Lists.FilterSpec(rows, p);
    var i :| 0 <= i < |rows| && rows[i] == x;
    assert m[KeysOf(m)[i]] == x;
  }

  /** `ORDER BY at DESC`: the rows, newest first. */
  function NewestFirst<V(!new)>(rows: seq<V>, at: V -> int): (r: seq<V>)
    ensures multiset(r) == multiset(rows)
  {
    Lists.ByKeyDescIsPreorder(at);
    Lists.SortBy(rows, Lists.ByKeyDesc(at))
  }

  lemma NewestFirstOrder<V(!new)>(rows: seq<V>, at: V -> int)
    ensures var r := NewestFirst(rows, at);
            forall i :: 0 < i < |r| ==> at(r[i - 1]) >= at(r[i])
  {
    Lists.ByKeyDescIsPreorder(at);
    var r := NewestFirst(rows, at);
    assert Lists.Sorted(r, Lists.ByKeyDesc(at));
  }

  /** Ordering keeps the rows: the same members. */
  lemma NewestFirstMembers<V(!new)>(rows: seq<V>, at: V -> int)
    ensures |NewestFirst(rows, at)| == |rows|
    ensures forall x :: x in NewestFirst(rows, at) <==> x in rows
  {
    var r := NewestFirst(rows, at);
    assert |r| == |multiset(r)| == |multiset(rows)| == |rows|;
    Lists.MultisetMembers(r, rows);
  }
}

=== FILE: supervisor_api.dfy ===
/**
 * Supervisor endpoints (`app/api/v1/supervisor.py`): deciding tool-usage
 * requests against the inventory counter, and the supervisor's own
 * tool-addition requests.
 *
 * The deciding supervisor (id and full name), which the source takes from the
 * current session, is an argument; the operator notifications sent after a
 * decision are not part of this model.
 */
module SupervisorApi {
  import opened Wrappers
  import opened Models
  import opened Store
  import opened Text
  import Lists

  /** `select ... where request_id == rid`, `scalar_one_or_none()`: the key of the request, if any. */
  function FindRequest(usage: map<int, UsageRequest>, rid: string): (r: Option<int>)
    ensures r.Some? ==> r.value in usage && usage[r.value].requestId == rid
    ensures r.Some? ==> forall k :: k in usage && usage[k].requestId == rid ==> r.value <= k
    ensures r.None? <==> forall k :: k in usage ==> usage[k].requestId != rid
  {
    FirstKey(usage, (u: UsageRequest) => u.requestId == rid)
  }

  /** The least key carrying the request id is the one found. */
  lemma FindRequestIs(usage: map<int, UsageRequest>, rid: string, k: int)
    requires k in usage && usage[k].requestId == rid
    requires forall j :: j in usage && usage[j].requestId == rid ==> k <= j
    ensures FindRequest(usage, rid) == Some(k)
  {
    var r := FindRequest(usage, rid);
    assert r.Some?;
    assert r.value <= k && k <= r.value;
  }

  /** Rewriting the found row with one that keeps its request id finds the same row again. */
  lemma FindRequestAfterUpdate(usage: map<int, UsageRequest>, rid: string, v: UsageRequest)
    requires FindRequest(usage, rid).Some? && v.requestId == rid
    ensures FindRequest(usage[FindRequest(usage, rid).value := v], rid) == FindRequest(usage, rid)
  {
    var k := FindRequest(usage, rid).value;
    LeastAfterUpdate(usage, usage[k := v], rid, k);
    FindRequestIs(usage[k := v], rid, k);
  }

  lemma LeastAfterUpdate(usage: map<int, UsageRequest>, m: map<int, UsageRequest>, rid: string, k: int)
    requires k in m && m == usage[k := m[k]]
    requires forall j :: j in usage && usage[j].requestId == rid ==> k <= j
    ensures forall j :: j in m && m[j].requestId == rid ==> k <= j
  {
    forall j | j in m && m[j].requestId == rid ensures k <= j {
      if j != k {
        assert m[j] == usage[j];
      }
    }
  }

  /**
   * Requests are decided at most once: a PENDING request has no reviewer.
   * Creation stores requests unreviewed and a decision sets status and
   * reviewer together.
   */
  predicate PendingUnreviewed(usage: map<int, UsageRequest>) {
    forall k :: k in usage && usage[k].status == Pending ==> usage[k].reviewerId.None?
  }

  /** The `ApproveToolUsageOut` response; `approved_by` is the reviewer's id and name. */
  datatype ApproveOut = ApproveOut(
    requestId: string,
    status: string,
    toolId: int,
    toolName: string,
    requestedQty: int,
    remainingQty: int,
    approvedAt: int,
    approvedById: int,
    approvedByName: string)

  /**
   * The checks `approve_tool_request` and `reject_tool_request` share, in
   * order: 404 for an unknown request, 400 once decided, 403 when a reviewer
   * is already recorded, 404 when the requested tool is gone. `None` when
   * the request may be decided.
   */
  function DecisionError(db: Db, rid: string): (e: Option<HttpError>)
    ensures FindRequest(db.usage, rid).None? ==> e == Some(HttpError(404, "Request not found"))
    ensures e.None? <==>
              && FindRequest(db.usage, rid).Some?
              && db.usage[FindRequest(db.usage, rid).value].status == Pending
              && db.usage[FindRequest(db.usage, rid).value].reviewerId.None?
              && db.usage[FindRequest(db.usage, rid).value].toolId in db.tools
    ensures FindRequest(db.usage, rid).Some? ==>
              var q := db.usage[FindRequest(db.usage, rid).value];
              && (q.status != Pending ==> e == Some(HttpError(400, "Request already processed")))
              && (q.status == Pending && q.reviewerId.Some? ==>
                    e == Some(HttpError(403, "Already processed by another supervisor")))
              && (q.status == Pending && q.reviewerId.None? && q.toolId !in db.tools ==>
                    e == Some(HttpError(404, "Tool not found")))
  {
    match FindRequest(db.usage, rid)
    case None => Some(HttpError(404, "Request not found"))
    case Some(k) =>
      var q := db.usage[k];
      if q.status != Pending then Some(HttpError(400, "Request already processed"))
      else if q.reviewerId.Some? then Some(HttpError(403, "Already processed by another supervisor"))
      else if q.toolId !in db.tools then Some(HttpError(404, "Tool not found"))
      else None
  }

  /**
   * `approve_tool_request`: after the shared checks, 400 when the stock is
   * below the requested quantity; otherwise the stock drops by exactly the
   * requested quantity and the request becomes APPROVED with this reviewer
   * and time. Nothing else in the database changes.
   */
  function ApproveToolRequest(db: Db, rid: string, reviewerId: int, reviewerName: string, now: int): (r: Outcome<ApproveOut>)
    ensures DecisionError(db, rid).Some? ==> r == Fail(DecisionError(db, rid).value)
    ensures DecisionError(db, rid).None? ==> r == ApproveFound(db, FindRequest(db.usage, rid).value, reviewerId, reviewerName, now)
  {
    match DecisionError(db, rid)
    case Some(e) => Fail(e)
    case None => ApproveFound(db, FindRequest(db.usage, rid).value, reviewerId, reviewerName, now)
  }

  /** Approval of the request stored under `k`, once the shared checks have passed. */
  function ApproveFound(db: Db, k: int, reviewerId: int, reviewerName: string, now: int): (r: Outcome<ApproveOut>)
    requires k in db.usage && db.usage[k].toolId in db.tools
    ensures var q := db.usage[k];
            && (db.tools[q.toolId].quantity < q.requestedQty ==>
                  r == Fail(HttpError(400, "Insufficient stock at approval time")))
            && (db.tools[q.toolId].quantity >= q.requestedQty ==>
                  var t := db.tools[q.toolId];
                  && r.Done?
                  && r.db.tools == db.tools[q.toolId := t.(quantity := t.quantity - q.requestedQty)]
                  && r.db.usage == db.usage[k := q.(status := Approved, reviewedAt := Some(now), reviewerId := Some(reviewerId))]
                  && r.db == db.(tools := r.db.tools, usage := r.db.usage)
                  && r.out == ApproveOut(q.requestId, "APPROVED", q.toolId, t.toolName, q.requestedQty,
                                         r.db.tools[q.toolId].quantity, now, reviewerId, reviewerName))
  {
    var q := db.usage[k];
    var inv := db.tools[q.toolId];
    if inv.quantity < q.requestedQty then Fail(HttpError(400, "Insufficient stock at approval time"))
    else
      var inv' := inv.(quantity := inv.quantity - q.requestedQty);
      var q' := q.(status := Approved, reviewedAt := Some(now), reviewerId := Some(reviewerId));
      Done(db.(tools := db.tools[q.toolId := inv'], usage := db.usage[k := q']),
           ApproveOut(q'.requestId, StatusName(q'.status), q.toolId, inv'.toolName, q.requestedQty,
                      inv'.quantity, now, reviewerId, reviewerName))
  }

  /** Approval never drives stock negative: a well-formed inventory stays well formed. */
  lemma ApproveKeepsToolsWf(db: Db, rid: string, reviewerId: int, reviewerName: string, now: int)
    requires ToolsWf(db.tools)
    ensures var r := ApproveToolRequest(db, rid, reviewerId, reviewerName, now);
            r.Done? ==> ToolsWf(r.db.tools)
  {
    var r := ApproveToolRequest(db, rid, reviewerId, reviewerName, now);
    if r.Done? {
      var k := FindRequest(db.usage, rid).value;
      assert r == ApproveFound(db, k, reviewerId, reviewerName, now);
      var toolId := db.usage[k].toolId;
      assert r.db.tools == db.tools[toolId := r.db.tools[toolId]];
      RowReplacedKeepsToolsWf(db.tools, r.db.tools, toolId);
    }
  }

  /**
   * Approval moves exactly the requested quantity out of the one tool asked
   * for: every other tool keeps its stock, and the response reports the new
   * stock.
   */
  lemma ApproveStockAccounting(db: Db, rid: string, reviewerId: int, reviewerName: string, now: int)
    ensures var r := ApproveToolRequest(db, rid, reviewerId, reviewerName, now);
            r.Done? ==>
              && r.db.tools.Keys == db.tools.Keys
              && (forall t :: t in db.tools && t != r.out.toolId ==> r.db.tools[t] == db.tools[t])
              && r.out.toolId in db.tools
              && r.out.remainingQty == db.tools[r.out.toolId].quantity - r.out.requestedQty
              && r.out.remainingQty >= 0
  {
    var r := ApproveToolRequest(db, rid, reviewerId, reviewerName, now);
    if r.Done? {
      var k := FindRequest(db.usage, rid).value;
      assert r == ApproveFound(db, k, reviewerId, reviewerName, now);
      FoundStockAccounting(db, k, reviewerId, reviewerName, now);
    }
  }

  lemma FoundStockAccounting(db: Db, k: int, reviewerId: int, reviewerName: string, now: int)
    requires k in db.usage && db.usage[k].toolId in db.tools
    ensures var r := ApproveFound(db, k, reviewerId, reviewerName, now);
            r.Done? ==>
              && r.db.tools.Keys == db.tools.Keys
              && (forall t :: t in db.tools && t != r.out.toolId ==> r.db.tools[t] == db.tools[t])
              && r.out.toolId in db.tools
              && r.out.remainingQty == db.tools[r.out.toolId].quantity - r.out.requestedQty
              && r.out.remainingQty >= 0
  {
    var r := ApproveFound(db, k, reviewerId, reviewerName, now);
    if r.Done? {
      var q := db.usage[k];
      assert r.out.toolId == q.toolId && r.out.requestedQty == q.requestedQty <= db.tools[q.toolId].quantity;
      assert r.db.tools.Keys == db.tools.Keys;
    }
  }

  /**
   * `reject_tool_request`: the shared checks, then the request becomes
   * REJECTED with this reviewer and time. The inventory is not touched.
   */
  function RejectToolRequest(db: Db, rid: string, reviewerId: int, now: int): (r: Outcome<string>)
    ensures DecisionError(db, rid).Some? ==> r == Fail(DecisionError(db, rid).value)
    ensures r.Done? <==> DecisionError(db, rid).None?
    ensures r.Done? ==>
              var k := FindRequest(db.usage, rid).value;
              && r.db == db.(usage := db.usage[k := db.usage[k].(status := Rejected, reviewedAt := Some(now), reviewerId := Some(reviewerId))])
              && r.out == "Request rejected successfully"
  {
    match DecisionError(db, rid)
    case Some(e) => Fail(e)
    case None =>
      var k := FindRequest(db.usage, rid).value;
      var q := db.usage[k].(status := Rejected, reviewedAt := Some(now), reviewerId := Some(reviewerId));
      Done(db.(usage := db.usage[k := q]), "Request rejected successfully")
  }

  /** Rejection changes no stock. */
  lemma RejectLeavesStock(db: Db, rid: string, reviewerId: int, now: int)
    ensures var r := RejectToolRequest(db, rid, reviewerId, now);
            r.Done? ==> r.db.tools == db.tools
  {
  }

  /** After an approval, approving or rejecting the same request again fails with 400. */
  lemma NoSecondDecisionAfterApprove(db: Db, rid: string, reviewerId: int, reviewerName: string, now: int,
                                     otherId: int, otherName: string, later: int)
    ensures var r := ApproveToolRequest(db, rid, reviewerId, reviewerName, now);
            r.Done? ==>
              && ApproveToolRequest(r.db, rid, otherId, otherName, later) == Fail(HttpError(400, "Request already processed"))
              && RejectToolRequest(r.db, rid, otherId, later) == Fail(HttpError(400, "Request already processed"))
  {
    var r := ApproveToolRequest(db, rid, reviewerId, reviewerName, now);
    if r.Done? {
      var k := FindRequest(db.usage, rid).value;
      assert r == ApproveFound(db, k, reviewerId, reviewerName, now);
      assert r.db.usage == db.usage[k := r.db.usage[k]] && r.db.usage[k].status == Approved;
      DecidedOnce(db.usage, r.db, rid, k);
    }
  }

  /** After a rejection, approving or rejecting the same request again fails with 400. */
  lemma NoSecondDecisionAfterReject(db: Db, rid: string, reviewerId: int, now: int,
                                    otherId: int, otherName: string, later: int)
    ensures var r := RejectToolRequest(db, rid, reviewerId, now);
            r.Done? ==>
              && ApproveToolRequest(r.db, rid, otherId, otherName, later) == Fail(HttpError(400, "Request already processed"))
              && RejectToolRequest(r.db, rid, otherId, later) == Fail(HttpError(400, "Request already processed"))
  {
    var r := RejectToolRequest(db, rid, reviewerId, now);
    if r.Done? {
      var k := FindRequest(db.usage, rid).value;
      assert r.db.usage == db.usage[k := r.db.usage[k]] && r.db.usage[k].status == Rejected;
      DecidedOnce(db.usage, r.db, rid, k);
    }
  }

  /** A database whose found request was rewritten with a decided status refuses every further decision. */
  lemma DecidedOnce(usage: map<int, UsageRequest>, db: Db, rid: string, k: int)
    requires FindRequest(usage, rid) == Some(k)
    requires k in db.usage && db.usage == usage[k := db.usage[k]]
    requires db.usage[k].requestId == rid && db.usage[k].status != Pending
    ensures DecisionError(db, rid) == Some(HttpError(400, "Request already processed"))
  {
    FindRequestAfterUpdate(usage, rid, db.usage[k]);
  }

  /** Both decisions keep every PENDING request unreviewed. */
  lemma DecisionsKeepPendingUnreviewed(db: Db, rid: string, reviewerId: int, reviewerName: string, now: int)
    requires PendingUnreviewed(db.usage)
    ensures var r := ApproveToolRequest(db, rid, reviewerId, reviewerName, now);
            r.Done? ==> PendingUnreviewed(r.db.usage)
    ensures var r := RejectToolRequest(db, rid, reviewerId, now);
            r.Done? ==> PendingUnreviewed(r.db.usage)
  {
    var a := ApproveToolRequest(db, rid, reviewerId, reviewerName, now);
    if a.Done? {
      var k := FindRequest(db.usage, rid).value;
      assert a == ApproveFound(db, k, reviewerId, reviewerName, now);
      DecidedKeepsPendingUnreviewed(db.usage, a.db.usage, k);
    }
    var j := RejectToolRequest(db, rid, reviewerId, now);
    if j.Done? {
      var k := FindRequest(db.usage, rid).value;
      DecidedKeepsPendingUnreviewed(db.usage, j.db.usage, k);
    }
  }

  /** Rewriting one request as decided keeps every PENDING request unreviewed. */
  lemma DecidedKeepsPendingUnreviewed(before: map<int, UsageRequest>, after: map<int, UsageRequest>, k: int)
    requires PendingUnreviewed(before)
    requires k in after && after == before[k := after[k]] && after[k].status != Pending
    ensures PendingUnreviewed(after)
  {
    forall j | j in after && after[j].status == Pending ensures after[j].reviewerId.None? {
      assert j != k && after[j] == before[j];
    }
  }

  /** While every PENDING request is unreviewed, the 403 refusal cannot happen. */
  lemma No403WhenPendingUnreviewed(db: Db, rid: string)
    requires PendingUnreviewed(db.usage)
    ensures DecisionError(db, rid) != Some(HttpError(403, "Already processed by another supervisor"))
  {
  }

  // ---------------------------------------------------------------------------
  // Tool-addition requests.

  /** The `ToolAdditionOut` response. */
  datatype AdditionOut = AdditionOut(id: int, toolName: string, status: string, requestedBy: int, createdAt: int)

  /**
   * `create_tool_addition`: stores a PENDING request for the tool name under
   * the next key, requested by the caller and stamped `now`. The table has no
   * quantity column, so the quantity of the payload is dropped. A name longer
   * than the `String(100)` column makes the commit fail; nothing catches it,
   * so the global handler answers with a plain 500, whose text `dbError`
   * stands for the driver's message.
   */
  function CreateToolAddition(db: Db, supervisorId: int, toolName: string, quantity: int, now: int, dbError: string): (r: Outcome<AdditionOut>)
    ensures !r.Fail?
    ensures r.Done? <==> |toolName| <= TextWidth
    ensures r.Crash? ==> r.message == dbError
    ensures r.Done? ==>
              var k := NextKey(db.additions.Keys);
              && k !in db.additions
              && r.db == db.(additions := db.additions[k := AdditionRequest(k, toolName, Pending, supervisorId, now)])
              && r.out == AdditionOut(k, toolName, "PENDING", supervisorId, now)
  {
    if |toolName| > TextWidth then Outcome<AdditionOut>.Crash(dbError)
    else
      var k := NextKey(db.additions.Keys);
      var row := AdditionRequest(k, toolName, Pending, supervisorId, now);
      Done(db.(additions := db.additions[k := row]),
           AdditionOut(row.id, row.toolName, StatusName(row.status), row.requestedBy, row.createdAt))
  }

  /** The payload's quantity has no effect at all. */
  lemma CreateToolAdditionIgnoresQuantity(db: Db, supervisorId: int, toolName: string, q1: int, q2: int, now: int, dbError: string)
    ensures CreateToolAddition(db, supervisorId, toolName, q1, now, dbError) == CreateToolAddition(db, supervisorId, toolName, q2, now, dbError)
  {
  }

  /** Creating an addition request keeps the table keyed by id. */
  lemma CreateToolAdditionKeepsWf(db: Db, supervisorId: int, toolName: string, quantity: int, now: int, dbError: string)
    requires AdditionsWf(db.additions)
    ensures var r := CreateToolAddition(db, supervisorId, toolName, quantity, now, dbError);
            r.Done? ==> AdditionsWf(r.db.additions)
  {
  }

  /**
   * The `status` query parameter: absent or empty means no filter; otherwise
   * its upper-cased text must name a `RequestStatus`, and the `ValueError`
   * the enum raises for any other text surfaces as a 500. The detail quotes
   * the text in single quotes; Python's `repr` switches to double quotes for
   * a text holding a single quote and escapes unprintable characters, which
   * this detail does not follow.
   */
  function StatusFilter(status: Option<string>): (r: Result<Option<RequestStatus>, HttpError>)
    ensures (status.None? || status == Some("")) ==> r == Ok(None)
    ensures status.Some? && status.value != "" ==>
              && (r.Ok? <==> ParseStatus(ToUpper(status.value)).Some?)
              && (r.Ok? ==> r.value.Some? && StatusName(r.value.value) == ToUpper(status.value))
              && (r.Err? ==> r.error == HttpError(500, "Database error: '" + ToUpper(status.value) + "' is not a valid RequestStatus"))
  {
    if status.None? || status.value == "" then Ok(None)
    else
      var up := ToUpper(status.value);
      match ParseStatus(up)
      case Some(s) => Ok(Some(s))
      case None => Err(HttpError(500, "Database error: '" + up + "' is not a valid RequestStatus"))
  }

  /** The caller's requests that pass the filter. */
  predicate OwnMatching(a: AdditionRequest, supervisorId: int, filter: Option<RequestStatus>) {
    a.requestedBy == supervisorId && (filter.None? || a.status == filter.value)
  }

  /** The caller's requests that pass the filter, newest first. */
  function OwnAdditions(db: Db, supervisorId: int, filter: Option<RequestStatus>): seq<AdditionRequest> {
    NewestFirst(Select(db.additions, (a: AdditionRequest) => OwnMatching(a, supervisorId, filter)), (a: AdditionRequest) => a.createdAt)
  }

  /** Exactly the caller's matching requests are listed, newest first. */
  lemma OwnAdditionsSpec(db: Db, supervisorId: int, filter: Option<RequestStatus>)
    ensures var r := OwnAdditions(db, supervisorId, filter);
            && (forall k :: k in db.additions && OwnMatching(db.additions[k], supervisorId, filter) ==> db.additions[k] in r)
            && (forall x :: x in r ==> OwnMatching(x, supervisorId, filter) && exists k :: k in db.additions && db.additions[k] == x)
            && (forall i :: 0 < i < |r| ==> r[i - 1].createdAt >= r[i].createdAt)
  {
    var p := (a: AdditionRequest) => OwnMatching(a, supervisorId, filter);
    var at := (a: AdditionRequest) => a.createdAt;
    var rows := Select(db.additions, p);
    var r := OwnAdditions(db, supervisorId, filter);
    NewestFirstMembers(rows, at);
    NewestFirstOrder(rows, at);
    forall k | k in db.additions && OwnMatching(db.additions[k], supervisorId, filter) ensures db.additions[k] in r {
      SelectHas(db.additions, p, k);
    }
    forall x | x in r ensures OwnMatching(x, supervisorId, filter) && exists k :: k in db.additions && db.additions[k] == x {
      SelectFrom(db.additions, p, x);
    }
  }

  /** One row of the `get_tool_addition_requests` response. */
  datatype AdditionRow = AdditionRow(
    id: int,
    toolName: string,
    status: string,
    requestedBy: int,
    createdAt: int,
    reviewedAt: Option<int>,
    reviewerId: Option<int>,
    reviewerRemarks: Option<string>)

  /**
   * `get_tool_addition_requests` as written: the response row reads
   * `reviewed_at`, a column the addition-request table does not have, so any
   * non-empty result raises `AttributeError`, which the handler turns into a
   * 500. Only an empty result gets through.
   */
  function GetToolAdditionRequestsAsWritten(db: Db, supervisorId: int, status: Option<string>): (r: Result<seq<AdditionRow>, HttpError>)
    ensures StatusFilter(status).Err? ==> r == Err(StatusFilter(status).error)
    ensures r.Ok? <==> StatusFilter(status).Ok? && |OwnAdditions(db, supervisorId, StatusFilter(status).value)| == 0
    ensures r.Ok? ==> r.value == []
  {
    match StatusFilter(status)
    case Err(e) => Err(e)
    case Ok(filter) =>
      var rows := OwnAdditions(db, supervisorId, filter);
      if |rows| > 0 then
        Err(HttpError(500, "Database error: 'ToolAdditionRequest' object has no attribute 'reviewed_at'"))
      else Ok([])
  }

  /** The response row the handler evidently meant: the review columns do not exist, so they are null. */
  function AdditionRowOf(a: AdditionRequest): (r: AdditionRow)
    ensures r.id == a.id && r.toolName == a.toolName && r.requestedBy == a.requestedBy && r.createdAt == a.createdAt
    ensures ParseStatus(r.status) == Some(a.status)
    ensures r.reviewedAt.None? && r.reviewerId.None? && r.reviewerRemarks.None?
  {
    AdditionRow(a.id, a.toolName, StatusName(a.status), a.requestedBy, a.createdAt, None, None, None)
  }

  /** `get_tool_addition_requests` as intended: the caller's matching requests, newest first. */
  function GetToolAdditionRequests(db: Db, supervisorId: int, status: Option<string>): (r: Result<seq<AdditionRow>, HttpError>)
    ensures r.Ok? <==> StatusFilter(status).Ok?
    ensures StatusFilter(status).Err? ==> r == Err(StatusFilter(status).error)
    ensures r.Ok? ==>
              var own := OwnAdditions(db, supervisorId, StatusFilter(status).value);
              |r.value| == |own| && forall i :: 0 <= i < |own| ==> r.value[i] == AdditionRowOf(own[i])
  {
    match StatusFilter(status)
    case Err(e) => Err(e)
    case Ok(filter) => Ok(Lists.MapSeq(OwnAdditions(db, supervisorId, filter), AdditionRowOf))
  }

  /** The two agree exactly when the caller has no matching request; otherwise only the intended one answers. */
  lemma AdditionRequestsAsWrittenDiffer(db: Db, supervisorId: int, status: Option<string>)
    requires StatusFilter(status).Ok?
    ensures var own := OwnAdditions(db, supervisorId, StatusFilter(status).value);
            && (|own| == 0 ==> GetToolAdditionRequestsAsWritten(db, supervisorId, status) == GetToolAdditionRequests(db, supervisorId, status))
            && (|own| > 0 ==> GetToolAdditionRequestsAsWritten(db, supervisorId, status).Err?
                              && GetToolAdditionRequests(db, supervisorId, status).Ok?)
  {
  }

  /** A supervisor with one request of their own: as written the listing fails, as intended it shows the request. */
  lemma AdditionRequestsCounterexample()
    ensures var db := Db(map[], map[], map[1 := AdditionRequest(1, "Caliper", Pending, 7, 100)], map[], map[], map[], map[]);
            && GetToolAdditionRequestsAsWritten(db, 7, None)
                 == Err(HttpError(500, "Database error: 'ToolAdditionRequest' object has no attribute 'reviewed_at'"))
            && GetToolAdditionRequests(db, 7, None)
                 == Ok([AdditionRow(1, "Caliper", "PENDING", 7, 100, None, None, None)])
  {
    var a := AdditionRequest(1, "Caliper", Pending, 7, 100);
    var db := Db(map[], map[], map[1 := a], map[], map[], map[], map[]);
    var p := (x: AdditionRequest) => OwnMatching(x, 7, None);
    assert KeysOf(db.additions) == [1];
    assert Rows(db.additions) == [a];
    assert Select(db.additions, p) == [a];
    var own := OwnAdditions(db, 7, None);
    assert own == [a];
    assert StatusFilter(None) == Ok(None);
    var rows := Lists.MapSeq(own, AdditionRowOf);
    assert rows[0] == AdditionRow(1, "Caliper", "PENDING", 7, 100, None, None, None);
    assert rows == [AdditionRow(1, "Caliper", "PENDING", 7, 100, None, None, None)];
  }
}

=== FILE: supervisor_list_pages.dfy ===
/**
 * The supervisor's lists of their own tool-addition requests: every
 * request, and one page each for the pending, approved and rejected ones,
 * which ask the backend for that status and show it as a fixed badge.
 */
module SupervisorListPages {
  import opened Wrappers
  import opened Models
  import opened Text
  import opened Lists
  import opened ListFilters
  import opened Ui
  import Store
  import SupervisorApi
  import FilterBar

  type Row = SupervisorApi.AdditionRow

  /** `SupervisorYourRequests`, `SupervisorPendingRequests`, `SupervisorApprovedRequests`, `SupervisorRejectedRequests`. */
  datatype Page = YourRequests | PendingPage | ApprovedPage | RejectedPage

  /** The `status` query parameter of the page's fetch; none for the full list. */
  function Query(p: Page): (r: Option<string>)
    ensures r.None? <==> p == YourRequests
  {
    match p
    case YourRequests => None
    case PendingPage => Some("pending")
    case ApprovedPage => Some("approved")
    case RejectedPage => Some("rejected")
  }

  /** The status a page lists. */
  function PageStatus(p: Page): Option<RequestStatus> {
    match p
    case YourRequests => None
    case PendingPage => Some(Pending)
    case ApprovedPage => Some(Approved)
    case RejectedPage => Some(Rejected)
  }

  /** The backend reads each page's query as the status that page lists. */
  lemma QueryIsPageStatus(p: Page)
    ensures SupervisorApi.StatusFilter(Query(p)) == Ok(PageStatus(p))
  {
    match p
    case YourRequests =>
    case PendingPage => PendingQuery();
    case ApprovedPage => ApprovedQuery();
    case RejectedPage => RejectedQuery();
  }

  lemma PendingQuery()
    ensures SupervisorApi.StatusFilter(Some("pending")) == Ok(Some(Pending))
  {
    UpperOf("pending", "PENDING");
    FilterNames("pending", Pending);
  }

  lemma ApprovedQuery()
    ensures SupervisorApi.StatusFilter(Some("approved")) == Ok(Some(Approved))
  {
    UpperOf("approved", "APPROVED");
    FilterNames("approved", Approved);
  }

  lemma RejectedQuery()
    ensures SupervisorApi.StatusFilter(Some("rejected")) == Ok(Some(Rejected))
  {
    UpperOf("rejected", "REJECTED");
    FilterNames("rejected", Rejected);
  }

  /** A query whose upper-cased text is a status name selects that status. */
  lemma FilterNames(q: string, s: RequestStatus)
    requires ToUpper(q) == StatusName(s)
    ensures SupervisorApi.StatusFilter(Some(q)) == Ok(Some(s))
  {
    assert q != "";
  }

  /** The banner for an error status. */
  function StatusError(p: Page): string {
    match p
    case YourRequests => "Failed to fetch your requests"
    case PendingPage => "Failed to fetch pending requests"
    case ApprovedPage => "Failed to fetch approved requests"
    case RejectedPage => "Failed to fetch rejected requests"
  }

  /** Loading: the body when it is an array; an error status or anything thrown leaves the list empty under a banner. */
  function Load(p: Page, f: Fetch<Row>): (r: View<Row>)
    ensures r.error.None? <==> f.Answered?
    ensures f.Answered? ==> r.rows == r.shown == Loaded(f.data)
    ensures f.BadStatus? ==> r == View([], [], Some(StatusError(p)))
    ensures f.Thrown? ==> r == View([], [], Some("Error connecting to server"))
  {
    match f
    case Answered(d) => View(Loaded(d), Loaded(d), None)
    case BadStatus => View([], [], Some(StatusError(p)))
    case Thrown(_) => View([], [], Some("Error connecting to server"))
  }

  /** How a page's fetch sees the endpoint's answer: the rows of a success, an error status for any error. */
  function FetchOf(r: Result<seq<Row>, Store.HttpError>): (f: Fetch<Row>)
    ensures r.Ok? <==> f.Answered?
    ensures r.Ok? ==> f == Answered(Some(r.value))
    ensures r.Err? ==> f == BadStatus
  {
    match r
    case Ok(rows) => Answered(Some(rows))
    case Err(_) => BadStatus
  }

  /**
   * Against the endpoint as written every page is empty: as soon as the
   * caller has a request with the page's status the page shows its error
   * banner, and otherwise an empty list without one.
   */
  lemma LoadAgainstAsWritten(db: Store.Db, supervisorId: int, p: Page)
    ensures var own := SupervisorApi.OwnAdditions(db, supervisorId, PageStatus(p));
            var v := Load(p, FetchOf(SupervisorApi.GetToolAdditionRequestsAsWritten(db, supervisorId, Query(p))));
            && v.rows == [] && v.shown == []
            && (v.error.Some? <==> |own| > 0)
            && (|own| > 0 ==> v.error == Some(StatusError(p)))
  {
    QueryIsPageStatus(p);
  }

  // ---------------------------------------------------------------------------
  // Search fields. The response rows carry neither a description nor a
  // rejection reason, so those fields are always missing.

  /** Tool name, description, status and id. */
  function AllFields(r: Row): seq<Field> {
    [Words(Some(r.toolName)), Words(None), Words(Some(r.status)), Number(Some(r.id))]
  }

  /** Tool name, description and id. */
  function StatusPageFields(r: Row): seq<Field> {
    [Words(Some(r.toolName)), Words(None), Number(Some(r.id))]
  }

  /** Tool name, description, rejection reason and id. */
  function RejectedFields(r: Row): seq<Field> {
    [Words(Some(r.toolName)), Words(None), Words(None), Number(Some(r.id))]
  }

  function CreatedStamp(r: Row): Option<int> {
    Some(r.createdAt)
  }

  function FieldsFor(p: Page): Row -> seq<Field> {
    match p
    case YourRequests => AllFields
    case RejectedPage => RejectedFields
    case _ => StatusPageFields
  }

  /** These pages search with the term as typed, so a term of spaces searches too. */
  function PageFilter(p: Page): (s: Spec<Row>)
    ensures s.gate == RawTerm && s.usesDate
  {
    Spec(RawTerm, FieldsFor(p), CreatedStamp, true)
  }

  /**
   * The page's `handleFilter`, as a function on its own: the rendered page
   * never calls it (see `SearchNeverApplied`).
   */
  function FilterPage(p: Page, v: View<Row>, term: string, date: Option<int>, day: int -> int): (r: View<Row>)
    ensures r.rows == v.rows && r.error == v.error
    ensures r.shown == HandleFilter(PageFilter(p), v.rows, term, date, day)
  {
    v.(shown := HandleFilter(PageFilter(p), v.rows, term, date, day))
  }

  /** What a search can find in a response row: the name, the status on the full list only, or the id. */
  predicate RowMatches(p: Page, r: Row, term: string) {
    || Includes(ToLower(r.toolName), ToLower(term))
    || (p == YourRequests && Includes(ToLower(r.status), ToLower(term)))
    || Includes(IntToDecimal(r.id), term)
  }

  lemma FieldsMatch(p: Page, r: Row, term: string)
    ensures AnyMatches(FieldsFor(p)(r), term) <==> RowMatches(p, r, term)
  {
    var fs := FieldsFor(p)(r);
    if Includes(ToLower(r.toolName), ToLower(term)) {
      assert FieldMatches(fs[0], term);
    } else if p == YourRequests && Includes(ToLower(r.status), ToLower(term)) {
      assert FieldMatches(fs[2], term);
    } else if Includes(IntToDecimal(r.id), term) {
      assert FieldMatches(fs[|fs| - 1], term);
    }
  }

  /** Behind the corrected endpoint, every request of the caller with the page's status comes back as a row. */
  lemma Listed(db: Store.Db, supervisorId: int, p: Page, k: int)
    requires k in db.additions && SupervisorApi.OwnMatching(db.additions[k], supervisorId, PageStatus(p))
    ensures var r := SupervisorApi.GetToolAdditionRequests(db, supervisorId, Query(p));
            r.Ok? && SupervisorApi.AdditionRowOf(db.additions[k]) in r.value
  {
    QueryIsPageStatus(p);
    var own := SupervisorApi.OwnAdditions(db, supervisorId, PageStatus(p));
    SupervisorApi.OwnAdditionsSpec(db, supervisorId, PageStatus(p));
    var i :| 0 <= i < |own| && own[i] == db.additions[k];
    assert SupervisorApi.GetToolAdditionRequests(db, supervisorId, Query(p)).value[i] == SupervisorApi.AdditionRowOf(db.additions[k]);
  }

  /**
   * What `handleFilter` would keep, were it called: over the corrected
   * endpoint's answer, a request of the caller with the page's status passes
   * exactly when a non-empty term occurs in its name, in its status on the
   * full list, or in its id, and, with a date chosen, it was made on that
   * day. The rendered page never calls it (see `SearchNeverApplied`).
   */
  lemma PageSearch(db: Store.Db, supervisorId: int, p: Page, term: string, date: Option<int>, day: int -> int, k: int)
    requires k in db.additions && SupervisorApi.OwnMatching(db.additions[k], supervisorId, PageStatus(p))
    ensures var r := SupervisorApi.GetToolAdditionRequests(db, supervisorId, Query(p));
            var row := SupervisorApi.AdditionRowOf(db.additions[k]);
            && r.Ok?
            && (row in FilterPage(p, Load(p, Answered(Some(r.value))), term, date, day).shown <==>
                  && (term != "" ==> RowMatches(p, row, term))
                  && (date.Some? ==> day(db.additions[k].createdAt) == day(date.value)))
  {
    var r := SupervisorApi.GetToolAdditionRequests(db, supervisorId, Query(p));
    var row := SupervisorApi.AdditionRowOf(db.additions[k]);
    Listed(db, supervisorId, p, k);
    ShownIff(PageFilter(p), r.value, term, date, day, row);
    FieldsMatch(p, row, term);
  }

  /**
   * The props every supervisor page gives its `FilterBar`: `onFilter` and a
   * placeholder. The bar reads neither `onFilter` nor anything else the page
   * gives, so as far as the bar can tell no setter, no `onSearch` and no
   * `onClear` was passed.
   */
  const PageBarProps: FilterBar.Props := FilterBar.Props(false, false, false, None)

  /**
   * The rendered page never searches: whatever the user does in the bar, no
   * call reaches the page, so every loaded row stays on show, even one that
   * `handleFilter` would drop for the term typed. Typing, picking a date or
   * Clear throws a `TypeError` instead, since the page passes no setters.
   */
  lemma SearchNeverApplied(p: Page, f: Fetch<Row>, bar: FilterBar.Bar, events: seq<FilterBar.Event>,
                           term: string, date: Option<int>, day: int -> int, row: Row)
    requires row in Load(p, f).rows && term != "" && !RowMatches(p, row, term)
    ensures FilterBar.Run(PageBarProps, bar, events).calls == []
    ensures FilterBar.Run(PageBarProps, bar, events).thrown <==> exists i :: 0 <= i < |events| && events[i].Edits()
    ensures row in Load(p, f).shown
    ensures row !in FilterPage(p, Load(p, f), term, date, day).shown
  {
    FilterBar.SilentWithoutProps(PageBarProps, bar, events);
    FilterBar.StuckWithoutSetters(PageBarProps, bar, events);
    FieldsMatch(p, row, term);
    ShownIff(PageFilter(p), Load(p, f).rows, term, date, day, row);
  }

  // ---------------------------------------------------------------------------
  // Badges.

  /** The status badge: its class and its text. */
  function Badge(p: Page, status: Option<string>): (r: (string, string))
    ensures p == YourRequests && Truthy(status) ==> r == (ToLower(status.value), status.value)
    ensures p == YourRequests && !Truthy(status) ==> r == ("unknown", "Unknown")
    ensures p != YourRequests ==> r.1 == StatusName(PageStatus(p).value) && r.0 == ToLower(r.1)
  {
    match p
    case YourRequests =>
      var lower := if status.Some? then Some(ToLower(status.value)) else None;
      (OrElse(lower, "unknown"), OrElse(status, "Unknown"))
    case PendingPage => LowerPending(); ("pending", "PENDING")
    case ApprovedPage => LowerApproved(); ("approved", "APPROVED")
    case RejectedPage => LowerRejected(); ("rejected", "REJECTED")
  }

  /**
   * On a status page the fixed badge tells the truth: every row the
   * corrected endpoint sends for the page's query carries exactly the status
   * the badge shows.
   */
  lemma BadgeMatchesRows(db: Store.Db, supervisorId: int, p: Page)
    requires p != YourRequests
    ensures var r := SupervisorApi.GetToolAdditionRequests(db, supervisorId, Query(p));
            && r.Ok?
            && forall i :: 0 <= i < |r.value| ==> r.value[i].status == Badge(p, Some(r.value[i].status)).1
  {
    QueryIsPageStatus(p);
    var own := SupervisorApi.OwnAdditions(db, supervisorId, PageStatus(p));
    SupervisorApi.OwnAdditionsSpec(db, supervisorId, PageStatus(p));
    var r := SupervisorApi.GetToolAdditionRequests(db, supervisorId, Query(p));
    forall i | 0 <= i < |r.value| ensures r.value[i].status == StatusName(PageStatus(p).value) {
      assert own[i] in own;
    }
  }

  /** The rejection reason cell; the response never sends one, so it always reads "No reason provided". */
  function ReasonCell(reason: Option<string>): (r: string)
    ensures Truthy(reason) ==> r == reason.value
    ensures !Truthy(reason) ==> r == "No reason provided"
  {
    OrElse(reason, "No reason provided")
  }
}

=== FILE: text.dfy ===
/**
 * String helpers shared by the backend and the client model: ASCII case
 * mapping, substring search (`String.prototype.includes`), whitespace
 * trimming for both JavaScript and Python, decimal rendering and parsing,
 * lexicographic order and Python's `str.split(sep)`.
 */
module Text {
  import opened Wrappers

  // ---------------------------------------------------------------------------
  // Case mapping. Only ASCII letters are mapped (see README, "Left out").

  function LowerChar(c: char): char {
    if 'A' <= c <= 'Z' then (c as int + 32) as char else c
  }

  function UpperChar(c: char): char {
    if 'a' <= c <= 'z' then (c as int - 32) as char else c
  }

  /** `toLowerCase()` / `str.lower()` restricted to ASCII letters. */
  function ToLower(s: string): (r: string)
    ensures |r| == |s|
    ensures forall i :: 0 <= i < |s| ==> r[i] == LowerChar(s[i])
    ensures forall i :: 0 <= i < |r| ==> !('A' <= r[i] <= 'Z')
  {
    if |s| == 0 then "" else [LowerChar(s[0])] + ToLower(s[1..])
  }

  /** `str.upper()` restricted to ASCII letters. */
  function ToUpper(s: string): (r: string)
    ensures |r| == |s|
    ensures forall i :: 0 <= i < |s| ==> r[i] == UpperChar(s[i])
    ensures forall i :: 0 <= i < |r| ==> !('a' <= r[i] <= 'z')
  {
    if |s| == 0 then "" else [UpperChar(s[0])] + ToUpper(s[1..])
  }

  /** Lower-casing a literal: a character-by-character check. */
  lemma LowerOf(upper: string, lower: string)
    requires |upper| == |lower|
    requires forall i :: 0 <= i < |upper| ==> LowerChar(upper[i]) == lower[i]
    ensures ToLower(upper) == lower
  {
  }

  /** Upper-casing a literal: a character-by-character check. */
  lemma UpperOf(lower: string, upper: string)
    requires |upper| == |lower|
    requires forall i :: 0 <= i < |lower| ==> UpperChar(lower[i]) == upper[i]
    ensures ToUpper(lower) == upper
  {
  }

  // ---------------------------------------------------------------------------
  // Substring search.

  /** `needle` occurs in `hay` starting at offset `i`. */
  predicate OccursAt(hay: string, needle: string, i: int) {
    0 <= i && i + |needle| <= |hay| && hay[i..i + |needle|] == needle
  }

  /** `hay.includes(needle)`: the empty needle occurs everywhere. */
  function Includes(hay: string, needle: string): (r: bool)
    ensures r <==> exists i :: OccursAt(hay, needle, i)
    decreases |hay|
  {
    if |needle| > |hay| then
      assert forall i :: !OccursAt(hay, needle, i);
      false
    else if hay[..|needle|] == needle then
      assert OccursAt(hay, needle, 0);
      true
    else
      var rest := Includes(hay[1..], needle);
      ShiftOccurrence(hay, needle);
      rest
  }

  lemma ShiftOccurrence(hay: string, needle: string)
    requires |needle| <= |hay| && hay[..|needle|] != needle
    ensures (exists i :: OccursAt(hay, needle, i)) <==> (exists i :: OccursAt(hay[1..], needle, i))
  {
    if exists i :: OccursAt(hay, needle, i) {
      var i :| OccursAt(hay, needle, i);
      assert i != 0;
      assert hay[1..][i - 1..i - 1 + |needle|] == hay[i..i + |needle|];
      assert OccursAt(hay[1..], needle, i - 1);
    }
    if exists i :: OccursAt(hay[1..], needle, i) {
      var i :| OccursAt(hay[1..], needle, i);
      assert hay[1..][i..i + |needle|] == hay[i + 1..i + 1 + |needle|];
      assert OccursAt(hay, needle, i + 1);
    }
  }

  // ---------------------------------------------------------------------------
  // Whitespace and trimming.

  /** The characters JavaScript's `String.prototype.trim` removes. */
  predicate IsJsSpace(c: char) {
    c == ' ' || ('\t' <= c <= '\r') || c == '\U{00A0}' || c == '\U{1680}'
    || ('\U{2000}' <= c <= '\U{200A}') || c == '\U{2028}' || c == '\U{2029}'
    || c == '\U{202F}' || c == '\U{205F}' || c == '\U{3000}' || c == '\U{FEFF}'
  }

  /** The characters Python's `str.strip()` (no argument) removes. */
  predicate IsPySpace(c: char) {
    c == ' ' || ('\t' <= c <= '\r') || ('\U{001C}' <= c <= '\U{001F}')
    || c == '\U{0085}' || c == '\U{00A0}' || c == '\U{1680}'
    || ('\U{2000}' <= c <= '\U{200A}') || c == '\U{2028}' || c == '\U{2029}'
    || c == '\U{202F}' || c == '\U{205F}' || c == '\U{3000}'
  }

  /** Every character of `s` is white space under `ws`. */
  predicate Blank(s: string, ws: char -> bool) {
    forall k :: 0 <= k < |s| ==> ws(s[k])
  }

  /** Number of leading white-space characters. */
  function LeadingSpace(s: string, ws: char -> bool): (n: nat)
    ensures n <= |s|
    ensures forall k :: 0 <= k < n ==> ws(s[k])
    ensures n == |s| || !ws(s[n])
  {
    if |s| == 0 || !ws(s[0]) then 0 else 1 + LeadingSpace(s[1..], ws)
  }

  /** Number of trailing white-space characters. */
  function TrailingSpace(s: string, ws: char -> bool): (n: nat)
    ensures n <= |s|
    ensures forall k :: |s| - n <= k < |s| ==> ws(s[k])
    ensures n == |s| || !ws(s[|s| - n - 1])
  {
    if |s| == 0 || !ws(s[|s| - 1]) then 0 else 1 + TrailingSpace(s[..|s| - 1], ws)
  }

  /**
   * Removes leading and trailing white space. The result is empty exactly
   * when `s` is blank; otherwise it starts and ends with a non-space and is
   * the infix of `s` left after dropping only white space on both sides.
   */
  function Trim(s: string, ws: char -> bool): (r: string)
    ensures r == "" <==> Blank(s, ws)
    ensures r != "" ==> !ws(r[0]) && !ws(r[|r| - 1])
    ensures exists a :: 0 <= a <= |s| - |r| && s[a..a + |r|] == r
                        && Blank(s[..a], ws) && Blank(s[a + |r|..], ws)
  {
    var a := LeadingSpace(s, ws);
    if a == |s| then
      assert s[0..0] == "" && s[..0] == "" && s[0..] == s;
      ""
    else
      var b := TrailingSpace(s, ws);
      assert b < |s| - a;
      var r := s[a..|s| - b];
      assert r[0] == s[a] && r[|r| - 1] == s[|s| - b - 1];
      assert s[a..a + |r|] == r;
      var head, tail := s[..a], s[a + |r|..];
      assert Blank(head, ws) by {
        assert forall k :: 0 <= k < |head| ==> head[k] == s[k];
      }
      assert Blank(tail, ws) by {
        assert forall k :: 0 <= k < |tail| ==> tail[k] == s[|s| - b + k];
      }
      r
  }

  // ---------------------------------------------------------------------------
  // Decimal digits.

  predicate IsDigit(c: char) { '0' <= c <= '9' }

  predicate AllDigits(s: string) { forall i :: 0 <= i < |s| ==> IsDigit(s[i]) }

  function DigitChar(d: nat): (c: char)
    requires d < 10
    ensures IsDigit(c)
  {
    (48 + d) as char
  }

  function DigitValue(c: char): (d: nat)
    requires IsDigit(c)
    ensures d < 10 && DigitChar(d) == c
  {
    c as int - 48
  }

  /** The characters of `s` that are ASCII digits, in order (`/\D/g` removed, `[^0-9]` removed). */
  function DigitsOf(s: string): (r: string)
    ensures AllDigits(r) && |r| <= |s|
    ensures AllDigits(s) ==> r == s
  {
    if |s| == 0 then ""
    else if IsDigit(s[0]) then [s[0]] + DigitsOf(s[1..])
    else DigitsOf(s[1..])
  }

  /** The number a string of decimal digits denotes (most significant first). */
  function DecimalValue(s: string): nat
    requires AllDigits(s)
  {
    if |s| == 0 then 0 else DecimalValue(s[..|s| - 1]) * 10 + DigitValue(s[|s| - 1])
  }

  /** Python `str(n)` / JavaScript `n.toString()` for a natural number. */
  function NatToDecimal(n: nat): (r: string)
    ensures |r| >= 1 && AllDigits(r)
    ensures n > 0 ==> r[0] != '0'
    decreases n
  {
    if n < 10 then [DigitChar(n)] else NatToDecimal(n / 10) + [DigitChar(n % 10)]
  }

  /** Python `str(i)` / JavaScript `i.toString()` for an integer. */
  function IntToDecimal(i: int): (r: string)
    ensures |r| >= 1
    ensures i < 0 <==> r[0] == '-'
  {
    if i < 0 then "-" + NatToDecimal(-i) else NatToDecimal(i)
  }

  /** Rendering a natural number in decimal and reading it back gives the number. */
  lemma {:induction false} DecimalRoundTrip(n: nat)
    ensures DecimalValue(NatToDecimal(n)) == n
    decreases n
  {
    if n >= 10 {
      DecimalRoundTrip(n / 10);
      var s := NatToDecimal(n);
      assert s[..|s| - 1] == NatToDecimal(n / 10);
    }
  }

  /** Decimal rendering is injective. */
  lemma DecimalInjective(m: nat, n: nat)
    ensures NatToDecimal(m) == NatToDecimal(n) ==> m == n
  {
    DecimalRoundTrip(m);
    DecimalRoundTrip(n);
  }

  /** Leading zeros do not change the value of a digit string. */
  lemma {:induction false} LeadingZeroValue(s: string)
    requires AllDigits(s)
    ensures AllDigits("0" + s) && DecimalValue("0" + s) == DecimalValue(s)
    decreases |s|
  {
    if |s| > 0 {
      var t := "0" + s;
      assert t[..|t| - 1] == "0" + s[..|s| - 1];
      LeadingZeroValue(s[..|s| - 1]);
    }
  }

  function Repeat(c: char, n: nat): (r: string)
    ensures |r| == n && forall i :: 0 <= i < n ==> r[i] == c
  {
    if n == 0 then "" else [c] + Repeat(c, n - 1)
  }

  /** Python format spec `0<width>d` for a natural number: zero-pad to `width`. */
  function ZeroPadded(n: nat, width: nat): (r: string)
    ensures AllDigits(r) && DecimalValue(r) == n
    ensures |r| == if |NatToDecimal(n)| >= width then |NatToDecimal(n)| else width
  {
    var d := NatToDecimal(n);
    DecimalRoundTrip(n);
    if |d| >= width then d
    else
      PaddingValue(width - |d|, d);
      Repeat('0', width - |d|) + d
  }

  lemma {:induction false} PaddingValue(k: nat, d: string)
    requires AllDigits(d)
    ensures AllDigits(Repeat('0', k) + d) && DecimalValue(Repeat('0', k) + d) == DecimalValue(d)
    decreases k
  {
    if k > 0 {
      PaddingValue(k - 1, d);
      var t := Repeat('0', k - 1) + d;
      assert Repeat('0', k) == "0" + Repeat('0', k - 1);
      assert Repeat('0', k) + d == "0" + t;
      LeadingZeroValue(t);
    } else {
      assert Repeat('0', k) + d == d;
    }
  }

  /**
   * Python `int(s)` on the accepted subset: an optional sign followed by one
   * or more ASCII digits. Anything else is a conversion error (`None`).
   */
  function ParseInt(s: string): (r: Option<int>)
    ensures r.Some? ==> |s| >= 1
  {
    if |s| >= 2 && (s[0] == '-' || s[0] == '+') && AllDigits(s[1..]) then
      Some(if s[0] == '-' then -(DecimalValue(s[1..]) as int) else DecimalValue(s[1..]))
    else if |s| >= 1 && AllDigits(s) then Some(DecimalValue(s))
    else None
  }

  /** `int(str(i)) == i`. */
  lemma IntRoundTrip(i: int)
    ensures ParseInt(IntToDecimal(i)) == Some(i)
  {
    var s := IntToDecimal(i);
    if i < 0 {
      var d := NatToDecimal(-i);
      assert s == "-" + d && s[1..] == d;
      DecimalRoundTrip(-i);
      assert ParseInt(s) == Some(-(DecimalValue(d) as int));
    } else {
      assert s == NatToDecimal(i) && IsDigit(s[0]);
      DecimalRoundTrip(i);
      assert ParseInt(s) == Some(DecimalValue(s));
    }
  }

  // ---------------------------------------------------------------------------
  // Lexicographic order by code point.

  predicate LexLe(a: string, b: string)
    decreases |a|
  {
    if |a| == 0 then true
    else if |b| == 0 then false
    else if a[0] != b[0] then a[0] < b[0]
    else LexLe(a[1..], b[1..])
  }

  lemma {:induction false} LexLeTotal(a: string, b: string)
    ensures LexLe(a, b) || LexLe(b, a)
    decreases |a|
  {
    if |a| > 0 && |b| > 0 && a[0] == b[0] {
      LexLeTotal(a[1..], b[1..]);
    }
  }

  lemma {:induction false} LexLeAntisymmetric(a: string, b: string)
    requires LexLe(a, b) && LexLe(b, a)
    ensures a == b
    decreases |a|
  {
    if |a| > 0 {
      LexLeAntisymmetric(a[1..], b[1..]);
      assert a == [a[0]] + a[1..] && b == [b[0]] + b[1..];
    }
  }

  lemma {:induction false} LexLeTransitive(a: string, b: string, c: string)
    requires LexLe(a, b) && LexLe(b, c)
    ensures LexLe(a, c)
    decreases |a|
  {
    if |a| > 0 && |b| > 0 && |c| > 0 && a[0] == b[0] && b[0] == c[0] {
      LexLeTransitive(a[1..], b[1..], c[1..]);
    }
  }

  // ---------------------------------------------------------------------------
  // Python `str.split(sep)` with a one-character separator.

  /** The parts joined back with the separator. */
  function JoinWith(parts: seq<string>, sep: char): string
    requires |parts| >= 1
  {
    if |parts| == 1 then parts[0] else parts[0] + [sep] + JoinWith(parts[1..], sep)
  }

  function IndexOf(s: string, c: char): (i: nat)
    requires c in s
    ensures i < |s| && s[i] == c && c !in s[..i]
  {
    if s[0] == c then 0 else 1 + IndexOf(s[1..], c)
  }

  /**
   * `s.split(sep)`: the maximal separator-free pieces between separators.
   * Joining them back with the separator gives `s` again.
   */
  function SplitOn(s: string, sep: char): (parts: seq<string>)
    ensures |parts| >= 1
    ensures forall k :: 0 <= k < |parts| ==> sep !in parts[k]
    ensures JoinWith(parts, sep) == s
    decreases |s|
  {
    if sep !in s then [s]
    else
      var i := IndexOf(s, sep);
      var rest := SplitOn(s[i + 1..], sep);
      assert s == s[..i] + [sep] + s[i + 1..];
      [s[..i]] + rest
  }

  /** Splitting `a + sep + b` with separator-free `a`, `b` gives exactly `[a, b]`. */
  lemma SplitOnPair(a: string, b: string, sep: char)
    requires sep !in a && sep !in b
    ensures SplitOn(a + [sep] + b, sep) == [a, b]
  {
    var s := a + [sep] + b;
    var i := IndexOf(s, sep);
    assert s[|a|] == sep;
    assert forall k :: 0 <= k < |a| ==> s[k] == a[k];
    assert i == |a|;
    assert s[..i] == a;
    assert s[i + 1..] == b;
  }
}

=== FILE: tool_request_pages.dfy ===
/**
 * The two approval tables for tool-usage requests: the officer's
 * `ViewToolRequestsPage` and the supervisor's `SupervisorViewToolRequests`.
 * Both gate the Approve/Reject buttons on the row status, post the decision
 * to `<collection>/<request id>/<verb>` and turn the reply into a message;
 * they differ only in the collection URL and in how a failed list fetch is
 * reported.
 */
module ToolRequestPages {
  import opened Wrappers
  import opened Models
  import opened Store
  import opened Text
  import opened Ui
  import OperatorApi
  import SupervisorApi

  datatype Page = OfficerRequests | SupervisorRequests

  /** The collection each page lists and posts decisions under. */
  function Collection(p: Page): string {
    match p
    case OfficerRequests => "http://localhost:8000/api/v1/officer/tool-requests"
    case SupervisorRequests => "http://localhost:8000/api/supervisor/tool-requests"
  }

  // ---------------------------------------------------------------------------
  // `getActionButtons`.

  /** The Actions cell of a row: both buttons, or a fixed label. */
  datatype RowControl = Buttons | Processed(caption: string)

  /**
   * Buttons exactly for the status "PENDING" (compared case-sensitively);
   * any other status shows "Approved" when it is "APPROVED" and "Rejected"
   * otherwise.
   */
  function Control(status: string): (r: RowControl)
    ensures r.Buttons? <==> status == "PENDING"
    ensures r.Processed? ==> (r.caption == ApprovedLabel <==> status == "APPROVED")
    ensures r.Processed? ==> (r.caption == RejectedLabel <==> status != "APPROVED")
  {
    if status == "PENDING" then Buttons else Processed(ProcessedLabel(status))
  }

  /**
   * On a status the backend stores: buttons only for PENDING, "Approved"
   * for APPROVED, and "Rejected" for both REJECTED and COLLECTED.
   */
  lemma ControlOfStoredStatus(s: RequestStatus)
    ensures Control(StatusName(s)).Buttons? <==> s == Pending
    ensures s == Approved ==> Control(StatusName(s)) == Processed(ApprovedLabel)
    ensures s == Rejected || s == Collected ==> Control(StatusName(s)) == Processed(RejectedLabel)
  {
  }

  /**
   * The gate agrees with the decision endpoints: when a stored request shows
   * no buttons, approving or rejecting it is refused with 400.
   */
  lemma HiddenButtonsMeanRefusal(db: Db, rid: string)
    requires SupervisorApi.FindRequest(db.usage, rid).Some?
    requires Control(StatusName(db.usage[SupervisorApi.FindRequest(db.usage, rid).value].status)).Processed?
    ensures SupervisorApi.DecisionError(db, rid) == Some(HttpError(400, "Request already processed"))
  {
    ControlOfStoredStatus(db.usage[SupervisorApi.FindRequest(db.usage, rid).value].status);
  }

  // ---------------------------------------------------------------------------
  // `handleAction`.

  /** `<base>/<id>/<verb>`. */
  function PathUrl(base: string, requestId: string, d: Decision): string {
    base + "/" + requestId + "/" + Verb(d)
  }

  /** Reads an id and a decision back from `<base>/<id>/<verb>`. */
  function ParsePath(base: string, url: string): (r: Option<(string, Decision)>)
    ensures r.Some? ==> url == PathUrl(base, r.value.0, r.value.1)
  {
    var n := |base| + 1;
    if |url| < n || url[..n] != base + "/" then None
    else
      var rest := url[n..];
      var parts := SplitOn(rest, '/');
      if |parts| != 2 then None
      else
        match ParseVerb(parts[1])
        case None => None
        case Some(d) =>
          assert JoinWith(parts[1..], '/') == parts[1];
          assert rest == parts[0] + "/" + parts[1];
          assert url == url[..n] + rest;
          Some((parts[0], d))
  }

  lemma PathRoundTrip(base: string, requestId: string, d: Decision)
    requires '/' !in requestId
    ensures ParsePath(base, PathUrl(base, requestId, d)) == Some((requestId, d))
  {
    var n := |base| + 1;
    var url := PathUrl(base, requestId, d);
    var tail := requestId + "/" + Verb(d);
    assert url == (base + "/") + tail;
    assert url[..n] == base + "/";
    assert url[n..] == tail;
    SplitOnPair(requestId, Verb(d), '/');
    assert SplitOn(tail, '/') == [requestId, Verb(d)];
  }

  /** The URL a decision is posted to. */
  function ActionUrl(p: Page, requestId: string, d: Decision): string {
    PathUrl(Collection(p), requestId, d)
  }

  /** Reads a request id and a decision back from a page's action URL. */
  function ParseActionUrl(p: Page, url: string): (r: Option<(string, Decision)>)
    ensures r.Some? ==> url == ActionUrl(p, r.value.0, r.value.1)
  {
    ParsePath(Collection(p), url)
  }

  /** A request id without '/' and the decision are recovered from the URL. */
  lemma ActionUrlRoundTrip(p: Page, requestId: string, d: Decision)
    requires '/' !in requestId
    ensures ParseActionUrl(p, ActionUrl(p, requestId, d)) == Some((requestId, d))
  {
    PathRoundTrip(Collection(p), requestId, d);
  }

  /** Identifiers the backend hands out never contain '/', so every stored request round-trips. */
  lemma StoredRequestUrlRoundTrip(p: Page, n: int, d: Decision)
    ensures ParseActionUrl(p, ActionUrl(p, OperatorApi.RequestId(n), d)) == Some((OperatorApi.RequestId(n), d))
  {
    OperatorApi.RequestIdNoSlash(n);
    ActionUrlRoundTrip(p, OperatorApi.RequestId(n), d);
  }

  /**
   * The message after a decision: on success "Request approved successfully."
   * or "Request rejected successfully."; on a refusal the server's detail
   * when it is a non-empty string; otherwise "Action failed.".
   */
  function ActionNotice(d: Decision, reply: Reply): (r: Notice)
    ensures r.Success? <==> reply.Accepted?
    ensures r.Success? ==> r.text == "Request " + Past(d) + " successfully."
    ensures r.Failure? ==> r.text != ""
    ensures r.Failure? ==> (r.text == "Action failed." <==> !(reply.Refused? && Truthy(reply.detail)) || reply.detail == Some("Action failed."))
  {
    match reply
    case Accepted => Success("Request " + Past(d) + " successfully.")
    case Refused(detail) => Failure(OrElse(detail, "Action failed."))
    case Unreadable => Failure("Action failed.")
  }

  /** The success message tells the two decisions apart. */
  lemma SuccessNamesDecision(d: Decision, e: Decision)
    requires ActionNotice(d, Accepted) == ActionNotice(e, Accepted)
    ensures d == e
  {
    var a, b := ActionNotice(d, Accepted).text, ActionNotice(e, Accepted).text;
    assert a[8..|a| - 14] == Past(d);
    assert b[8..|b| - 14] == Past(e);
  }

  // ---------------------------------------------------------------------------
  // `fetchRequests` failure text.

  /** Why the list could not be loaded. */
  datatype FetchFailure =
    | BadStatus(status: int, detail: Option<string>) // an error status; the detail of its JSON body, if any
    | Network(message: string)                       // `fetch` itself threw

  /** The head of every supervisor fetch error; a bad status repeats it. */
  const FetchPrefix: string := "Failed to fetch requests: "

  /**
   * The officer page always shows "Failed to fetch requests". The supervisor
   * page wraps the thrown message in the same prefix again, so a bad status
   * reads "Failed to fetch requests: Failed to fetch requests: <status> -
   * <detail or Unknown error>".
   */
  function FetchError(p: Page, f: FetchFailure): (r: string)
    ensures p == OfficerRequests ==> r == "Failed to fetch requests"
    ensures p == SupervisorRequests && f.BadStatus? ==>
              && |r| >= 2 * |FetchPrefix| && r[..2 * |FetchPrefix|] == FetchPrefix + FetchPrefix
              && Includes(r, IntToDecimal(f.status)) && Includes(r, OrElse(f.detail, "Unknown error"))
    ensures p == SupervisorRequests && f.Network? ==>
              && |r| >= |FetchPrefix| && r[..|FetchPrefix|] == FetchPrefix
              && Includes(r, f.message)
  {
    match p
    case OfficerRequests => "Failed to fetch requests"
    case SupervisorRequests =>
      match f
      case BadStatus(status, detail) =>
        var code, why := IntToDecimal(status), OrElse(detail, "Unknown error");
        var head := FetchPrefix + FetchPrefix;
        var r := head + (code + " - " + why);
        assert r[..|head|] == head;
        assert OccursAt(r, code, |head|);
        assert OccursAt(r, why, |head| + |code| + 3);
        r
      case Network(message) =>
        var r := FetchPrefix + message;
        assert r[..|FetchPrefix|] == FetchPrefix;
        assert OccursAt(r, message, |FetchPrefix|);
        r
  }
}

=== FILE: ui.dfy ===
/**
 * Pieces the React pages share: JavaScript truthiness of optional strings
 * and the `a || b` fallback, the approve/reject decision with the verb that
 * goes into URLs, and the label a processed row shows.
 */
module Ui {
  import opened Wrappers

  /** JavaScript truthiness of a string that may be `null`/`undefined`: present and non-empty. */
  predicate Truthy(s: Option<string>) {
    s.Some? && s.value != ""
  }

  /** `s || fallback`: the value when it is truthy, the fallback otherwise. */
  function OrElse(s: Option<string>, fallback: string): (r: string)
    ensures Truthy(s) ==> r == s.value
    ensures !Truthy(s) ==> r == fallback
    ensures fallback != "" ==> r != ""
  {
    if Truthy(s) then s.value else fallback
  }

  /** The browser's `localStorage`: string keys to string values. */
  type Storage = map<string, string>

  /** `localStorage.getItem(key)`: `null` for a missing key. */
  function Stored(storage: Storage, key: string): (r: Option<string>)
    ensures r.Some? <==> key in storage
    ensures r.Some? ==> r.value == storage[key]
  {
    if key in storage then Some(storage[key]) else None
  }

  /** The two buttons of an approval row. */
  datatype Decision = Approve | Reject

  /** The verb sent in the URL: "approve" or "reject". */
  function Verb(d: Decision): (r: string)
    ensures '/' !in r && |r| >= 6
  {
    match d
    case Approve => "approve"
    case Reject => "reject"
  }

  /** The verb identifies the decision. */
  function ParseVerb(s: string): (r: Option<Decision>)
    ensures forall d: Decision :: r == Some(d) <==> Verb(d) == s
  {
    if s == "approve" then Some(Approve)
    else if s == "reject" then Some(Reject)
    else None
  }

  /** The past participle a confirmation uses: "approved" or "rejected". */
  function Past(d: Decision): (r: string)
    ensures r == Verb(d) + "d" || r == Verb(d) + "ed"
  {
    match d
    case Approve => "approved"
    case Reject => "rejected"
  }

  /** How a decision request came back. */
  datatype Reply =
    | Accepted                        // `res.ok`
    | Refused(detail: Option<string>) // an error status with a JSON body
    | Unreadable                      // the fetch or the JSON decoding threw

  /** The banner a page shows after a decision. */
  datatype Notice = Success(text: string) | Failure(text: string)

  const ApprovedLabel: string := "✅ Approved"
  const RejectedLabel: string := "❌ Rejected"

  /**
   * The label of a row that offers no buttons: "Approved" exactly for the
   * status "APPROVED", "Rejected" for every other status.
   */
  function ProcessedLabel(status: string): (r: string)
    ensures r == ApprovedLabel <==> status == "APPROVED"
    ensures r == RejectedLabel <==> status != "APPROVED"
  {
    if status == "APPROVED" then ApprovedLabel else RejectedLabel
  }
}

=== FILE: user_context.dfy ===
/**
 * `UserContext`: the client's session store. The provider's state is the
 * role, the authenticated flag and the user data; it mirrors the role and
 * the session id into `localStorage`, from which a fresh mount restores it.
 * `D` is whatever the pages put into `userData`.
 */
module UserContext {
  import opened Wrappers
  import opened Ui

  datatype Provider<D> = Provider(role: Option<string>, authenticated: bool, userData: Option<D>, storage: Storage)

  const SessionKey: string := "session_id"
  const RoleKey: string := "user_role"

  /**
   * The provider's first render and its mount effect: signed out, then
   * signed in with the stored role when both a session id and a role are
   * stored and non-empty.
   */
  function Restore<D>(storage: Storage): (p: Provider<D>)
    ensures p.storage == storage && p.userData.None?
    ensures p.authenticated <==> Truthy(Stored(storage, SessionKey)) && Truthy(Stored(storage, RoleKey))
    ensures p.authenticated ==> p.role == Stored(storage, RoleKey)
    ensures !p.authenticated ==> p.role.None?
  {
    if Truthy(Stored(storage, SessionKey)) && Truthy(Stored(storage, RoleKey)) then
      Provider(Stored(storage, RoleKey), true, None, storage)
    else
      Provider(None, false, None, storage)
  }

  /** `login(role, sessionId)`: signs in with the role, stores it, and stores the session id only when it is non-empty. */
  function Login<D>(p: Provider<D>, role: string, sessionId: Option<string>): (r: Provider<D>)
    ensures r.role == Some(role) && r.authenticated && r.userData == p.userData
    ensures Stored(r.storage, RoleKey) == Some(role)
    ensures Stored(r.storage, SessionKey) == if Truthy(sessionId) then sessionId else Stored(p.storage, SessionKey)
    ensures forall k :: k != RoleKey && k != SessionKey ==> Stored(r.storage, k) == Stored(p.storage, k)
  {
    var s := p.storage[RoleKey := role];
    Provider(Some(role), true, p.userData, if Truthy(sessionId) then s[SessionKey := sessionId.value] else s)
  }

  /** `logout()`: signs out, drops the user data and removes both stored keys. */
  function Logout<D>(p: Provider<D>): (r: Provider<D>)
    ensures r.role.None? && !r.authenticated && r.userData.None?
    ensures Stored(r.storage, SessionKey).None? && Stored(r.storage, RoleKey).None?
    ensures forall k :: k != RoleKey && k != SessionKey ==> Stored(r.storage, k) == Stored(p.storage, k)
  {
    Provider(None, false, None, p.storage - {SessionKey, RoleKey})
  }

  /** `setUserData`. */
  function SetUserData<D>(p: Provider<D>, d: Option<D>): (r: Provider<D>)
    ensures r == p.(userData := d)
  {
    p.(userData := d)
  }

  /** After logging out, a reload comes back signed out. */
  lemma LogoutThenRestore<D>(p: Provider<D>)
    ensures Restore<D>(Logout(p).storage) == Logout(p)
  {
  }

  /** Logging out twice is the same as once. */
  lemma LogoutIdempotent<D>(p: Provider<D>)
    ensures Logout(Logout(p)) == Logout(p)
  {
  }

  /**
   * A login survives a reload: with a non-empty role, and a session id
   * given now or stored before, a fresh mount restores the same role and
   * signs in again (the user data is not kept).
   */
  lemma LoginThenRestore<D>(p: Provider<D>, role: string, sessionId: Option<string>)
    requires role != ""
    requires Truthy(sessionId) || Truthy(Stored(p.storage, SessionKey))
    ensures var q := Login(p, role, sessionId);
            Restore<D>(q.storage) == q.(userData := None)
  {
  }

  /** Without any session id, the login holds only until the next reload. */
  lemma LoginWithoutSessionIsLost<D>(p: Provider<D>, role: string)
    requires Stored(p.storage, SessionKey).None?
    ensures !Restore<D>(Login(p, role, None).storage).authenticated
  {
  }

  /** `useUser()`: the provider's value, or the error thrown outside any provider. */
  function UseUser<D>(context: Option<Provider<D>>): (r: Result<Provider<D>, string>)
    ensures r.Ok? <==> context.Some?
    ensures r.Ok? ==> r.value == context.value
    ensures r.Err? ==> r.error == "useUser must be used within a UserProvider"
  {
    match context
    case Some(p) => Ok(p)
    case None => Err("useUser must be used within a UserProvider")
  }
}

=== FILE: utf8.dfy ===
/**
 * UTF-8 (RFC 3629), as Python's `str.encode()` and strict `bytes.decode()`
 * use it. A Dafny `char` is a Unicode scalar value, so every string encodes.
 */
module Utf8 {
  import opened Wrappers

  type Byte = b: int | 0 <= b < 256

  predicate IsContinuation(b: Byte) {
    0x80 <= b < 0xC0
  }

  /** A code point that is a Unicode scalar value (not a surrogate, at most U+10FFFF). */
  predicate IsScalar(cp: int) {
    (0 <= cp < 0xD800) || (0xE000 <= cp < 0x11_0000)
  }

  lemma CharIsScalar(c: char)
    ensures IsScalar(c as int)
  {
  }

  /** The shortest UTF-8 form of one scalar value. */
  function EncodePoint(cp: int): (r: seq<Byte>)
    requires IsScalar(cp)
    ensures 1 <= |r| <= 4
    ensures |r| == 1 <==> cp < 0x80
  {
    if cp < 0x80 then [cp]
    else if cp < 0x800 then [0xC0 + cp / 64, 0x80 + cp % 64]
    else if cp < 0x1_0000 then [0xE0 + cp / 4096, 0x80 + (cp / 64) % 64, 0x80 + cp % 64]
    else [0xF0 + cp / 262144, 0x80 + (cp / 4096) % 64, 0x80 + (cp / 64) % 64, 0x80 + cp % 64]
  }

  function Encode(s: string): (r: seq<Byte>)
    ensures |r| >= |s|
  {
    if |s| == 0 then []
    else
      CharIsScalar(s[0]);
      EncodePoint(s[0] as int) + Encode(s[1..])
  }

  /**
   * Decodes the scalar value at the front of `b`, returning it with the
   * number of bytes it used; rejects bad lead bytes, missing continuation
   * bytes, overlong forms, surrogates and values above U+10FFFF.
   */
  function DecodePoint(b: seq<Byte>): (r: Option<(int, nat)>)
    ensures r.Some? ==> IsScalar(r.value.0) && 1 <= r.value.1 <= |b| && r.value.1 <= 4
  {
    if |b| == 0 then None
    else if b[0] < 0x80 then Some((b[0], 1))
    else if 0xC2 <= b[0] < 0xE0 then
      if |b| < 2 || !IsContinuation(b[1]) then None
      else Some(((b[0] as int - 0xC0) * 64 + (b[1] as int - 0x80), 2))
    else if 0xE0 <= b[0] < 0xF0 then
      if |b| < 3 || !IsContinuation(b[1]) || !IsContinuation(b[2]) then None
      else
        var cp := (b[0] as int - 0xE0) * 4096 + (b[1] as int - 0x80) * 64 + (b[2] as int - 0x80);
        if cp < 0x800 || (0xD800 <= cp < 0xE000) then None else Some((cp, 3))
    else if 0xF0 <= b[0] < 0xF5 then
      if |b| < 4 || !IsContinuation(b[1]) || !IsContinuation(b[2]) || !IsContinuation(b[3]) then None
      else
        var cp := (b[0] as int - 0xF0) * 262144 + (b[1] as int - 0x80) * 4096 + (b[2] as int - 0x80) * 64 + (b[3] as int - 0x80);
        if cp < 0x1_0000 || cp >= 0x11_0000 then None else Some((cp, 4))
    else None
  }

  /** Strict decoding: `None` for any ill-formed byte sequence. */
  function Decode(b: seq<Byte>): (r: Option<string>)
    ensures r.Some? ==> |r.value| <= |b|
    decreases |b|
  {
    if |b| == 0 then Some("")
    else
      match DecodePoint(b)
      case None => None
      case Some((cp, n)) =>
        match Decode(b[n..])
        case None => None
        case Some(rest) => Some([cp as char] + rest)
  }

  /** Decoding the encoding of one scalar value reads it back and consumes exactly its bytes. */
  lemma DecodeEncodePoint(cp: int, rest: seq<Byte>)
    requires IsScalar(cp)
    ensures DecodePoint(EncodePoint(cp) + rest) == Some((cp, |EncodePoint(cp)|))
  {
    var e := EncodePoint(cp);
    var b := e + rest;
    if cp < 0x80 {
    } else if cp < 0x800 {
      assert b[0] == e[0] && b[1] == e[1];
      assert (cp / 64) * 64 + cp % 64 == cp;
    } else if cp < 0x1_0000 {
      assert b[0] == e[0] && b[1] == e[1] && b[2] == e[2];
      DivModSplit(cp, 64);
      DivModSplit(cp / 64, 64);
      assert cp / 4096 == (cp / 64) / 64;
    } else {
      assert b[0] == e[0] && b[1] == e[1] && b[2] == e[2] && b[3] == e[3];
      DivModSplit(cp, 64);
      DivModSplit(cp / 64, 64);
      DivModSplit(cp / 4096, 64);
      assert cp / 4096 == (cp / 64) / 64;
      assert cp / 262144 == (cp / 4096) / 64;
    }
  }

  lemma DivModSplit(n: int, d: int)
    requires n >= 0 && d > 0
    ensures n == (n / d) * d + n % d && 0 <= n % d < d
  {
  }

  /** `decode(encode(s)) == s` for every string. */
  lemma {:induction false} DecodeEncode(s: string)
    ensures Decode(Encode(s)) == Some(s)
  {
    if |s| > 0 {
      CharIsScalar(s[0]);
      var e := EncodePoint(s[0] as int);
      DecodeEncodePoint(s[0] as int, Encode(s[1..]));
      assert Encode(s) == e + Encode(s[1..]);
      assert (e + Encode(s[1..]))[|e|..] == Encode(s[1..]);
      DecodeEncode(s[1..]);
      assert [s[0]] + s[1..] == s;
    }
  }

  /** Only the shortest form decodes: what `DecodePoint` reads is exactly the encoding of its result. */
  lemma EncodeDecodePoint(b: seq<Byte>)
    requires DecodePoint(b).Some?
    ensures EncodePoint(DecodePoint(b).value.0) == b[..DecodePoint(b).value.1]
  {
    var cp := DecodePoint(b).value.0;
    if b[0] < 0x80 {
    } else if b[0] < 0xE0 {
      var b0, b1 := b[0] as int - 0xC0, b[1] as int - 0x80;
      DivMod64(cp, b0, b1);
    } else if b[0] < 0xF0 {
      var b0, b1, b2 := b[0] as int - 0xE0, b[1] as int - 0x80, b[2] as int - 0x80;
      DivMod64(cp, b0 * 64 + b1, b2);
      DivMod64(cp / 64, b0, b1);
      assert cp / 4096 == (cp / 64) / 64;
    } else {
      var b0, b1, b2, b3 := b[0] as int - 0xF0, b[1] as int - 0x80, b[2] as int - 0x80, b[3] as int - 0x80;
      DivMod64(cp, b0 * 4096 + b1 * 64 + b2, b3);
      DivMod64(cp / 64, b0 * 64 + b1, b2);
      DivMod64(cp / 4096, b0, b1);
      assert cp / 4096 == (cp / 64) / 64;
      assert cp / 262144 == (cp / 4096) / 64;
    }
  }

  lemma DivMod64(n: int, q: int, m: int)
    requires 0 <= m < 64 && n == q * 64 + m
    ensures n / 64 == q && n % 64 == m
  {
  }

  /** Strictness: a byte sequence that decodes is the encoding of what it decodes to. */
  lemma {:induction false} EncodeDecode(b: seq<Byte>)
    requires Decode(b).Some?
    ensures Encode(Decode(b).value) == b
    decreases |b|
  {
    if |b| > 0 {
      var (cp, n) := DecodePoint(b).value;
      EncodeDecodePoint(b);
      EncodeDecode(b[n..]);
      var s := Decode(b).value;
      assert s == [cp as char] + Decode(b[n..]).value;
      assert s[0] as int == cp && s[1..] == Decode(b[n..]).value;
      assert b == b[..n] + b[n..];
    }
  }

  /** ASCII characters encode to themselves, one byte each. */
  lemma {:induction false} EncodeAscii(s: string)
    requires forall i :: 0 <= i < |s| ==> s[i] as int < 0x80
    ensures |Encode(s)| == |s|
    ensures forall i :: 0 <= i < |s| ==> Encode(s)[i] == s[i] as int
  {
    if |s| > 0 {
      EncodeAscii(s[1..]);
    }
  }

  lemma {:induction false} EncodeAppend(a: string, b: string)
    ensures Encode(a + b) == Encode(a) + Encode(b)
  {
    if |a| > 0 {
      assert (a + b)[1..] == a[1..] + b;
      EncodeAppend(a[1..], b);
    } else {
      assert a + b == b;
    }
  }
}

=== FILE: wrappers.dfy ===
/** Option and Result types shared by every module of the model. */
module Wrappers {

  /** A value that may be absent: Python `None`, JavaScript `null`/`undefined`. */
  datatype Option<T> = None | Some(value: T) {

    /** The wrapped value, or `default` when absent. */
    function GetOr(default: T): T {
      match this
      case Some(v) => v
      case None => default
    }
  }

  /** The outcome of an operation that can fail with an error value. */
  datatype Result<T, E> = Ok(value: T) | Err(error: E)
}
